=== FILE: README.md ===
# Invoice text parser: a Dafny model

This project models the text-structuring core of an OCR invoice service:

- `DataParser.parse_text`, which turns recognised text into a dictionary of
  seven entity lists;
- the seven extractors behind it, for dates, money amounts, street and PO-box
  addresses, emails, phone numbers, invoice numbers, and item/price lines;
- the upload filter `allowed_file` with its `ALLOWED_EXTENSIONS` set.

Every regular expression the extractors use is modelled as a recogniser
`(t, i) -> Option<end>`. A recogniser returns the end of the match Python's
backtracking engine would report at position `i`. The order is Python's:
greedy quantifiers try longest first, alternation tries left to right, the
lazy `.*?` tries shortest first, and `.` stops at a newline.

On top of the recognisers:

- `re.finditer` becomes a left-to-right scan, `Scan.FindIterFrom`. Its result
  is pinned down by a declarative reading, `Scan.IsScan`.
- `re.search` becomes the first match of that scan.
- Each extractor maps the spans of its pattern family to records, in
  family-then-position order, exactly as the Python loops do.

Module layout follows the program:

| module | models |
|---|---|
| `Text` | character classes, `str.strip`, `str.lower`, `split('\n')`, `replace(',', '')` |
| `Scan`, `Entities`, `Patterns` | `finditer` and `search`, the pattern families, the record types |
| `Lists` | the two loop shapes: skip on failure, or stop at the first failure |
| `Numbers` | the number sub-pattern shared by amounts and item prices |
| `DatePatterns`, `Dates` | `extract_dates` |
| `AmountPatterns`, `Amounts` | `extract_amounts` |
| `AddressPatterns`, `Addresses` | `extract_addresses` |
| `EmailPattern`, `Emails` | `extract_emails` |
| `PhonePatterns`, `PhoneWindow`, `Phones` | `extract_phone_numbers` |
| `InvoicePatterns`, `Invoices` | `extract_invoice_numbers` |
| `Items` | `extract_item_descriptions` |
| `Parser` | `parse_text` |
| `Upload` | `allowed_file`, `ALLOWED_EXTENSIONS` |

Three facts about the code that the model makes explicit:

- An item line is kept only when its stripped length is at least five
  (utils/parser.py:316).
- The `continue` at utils/parser.py:250 is never taken:
  `Phones.ExtractPhoneNumbers` proves that every labelled phone match contains
  a number the inner search finds.
- Inside `extract_amounts`, only the inner search at utils/parser.py:117 could
  raise, through `.group()` on `None`. `Amounts.ExtractAmounts` proves that
  search never fails. The date parser's failures are modelled, as an
  `Option`.

## Model

| member | source | states |
|---|---|---|
| Parser.ParseText | utils/parser.py:22-48 | The result is the empty dictionary exactly when the argument is not a string or is the empty string. Otherwise it has exactly the seven keys `dates`, `amounts`, `addresses`, `emails`, `phone_numbers`, `invoice_numbers`, `item_descriptions`, each holding the list its own extractor returns on the text. |
| Parser.Collect | utils/parser.py:37-45 | The dictionary literal has the seven keys, and each key holds the list given for it. |
| Parser.ParsedAmountsHaveCurrency | utils/parser.py:37-45 | Every amount in a parsed result carries a currency, and that currency is the one named by the single marker in its own text. |
| Scan.FindIterFrom | utils/parser.py:71-72 | The scan satisfies the declarative reading of `finditer`. Each span is a match at the first position where the pattern matches, at or after the end of the previous span. No match is skipped in between. Where the list ends, there is no match to the end of the text. |
| Scan.ScanUnique | utils/parser.py:71-72 | Any list satisfying that reading is the scan's result, so the reading determines the matches completely. |
| Scan.ScanOrdered | utils/parser.py:71-72 | The spans of a scan lie inside the text, in increasing order, and do not overlap. |
| Scan.SearchFrom | utils/parser.py:117 | `re.search` gives a match at some position, and the pattern matches nowhere before it. It gives `None` exactly when the pattern matches nowhere. |
| Scan.SearchFromIsFirst | utils/parser.py:117 | `re.search` gives exactly the first span `re.finditer` would report. |
| Entities.ScansMatch | utils/parser.py:70-72 | Every span of a family scan is a match, at its start, of one pattern of the family. |
| Entities.ScansInFamilyOrder | utils/parser.py:70-72 | A family scan is the scan of the first pattern, then that of the second, and so on, each over the whole text. |
| Text.Strip | utils/parser.py:177 | `strip()` leaves the slice of the input that remains once whitespace is cut from both ends. The slice neither starts nor ends with whitespace, and it is empty exactly when the input is all whitespace. |
| Text.StripUnchanged | utils/parser.py:253 | `strip()` leaves a string alone exactly when it neither starts nor ends with whitespace. |
| Text.JoinSplit | utils/parser.py:308 | Joining the pieces of `split('\n')` with newlines gives the text back. |
| Text.SplitCons | utils/parser.py:308 | A first line with no newline in it is split off whole, and the rest of the text is split on its own. |
| Text.SplitJoin | utils/parser.py:308 | Splitting a newline-join of newline-free lines gives those lines back, so `split` is the one such decomposition. |
| Text.RemoveAll | utils/parser.py:118 | `replace(',', '')` leaves no comma and keeps every character that is not a comma. |
| Text.RemoveAllAppend | utils/parser.py:118 | Removing commas from a concatenation removes them from each part, the parts kept in order. |
| Text.RemoveAllSingle | utils/parser.py:118 | One character is dropped when it is a comma and kept otherwise. With `Text.RemoveAllAppend`, this fixes the result on every string. |
| Lists.FilterMapAll | utils/parser.py:238-256 | A loop that skips failures drops nothing when no item fails. Its `k`-th record then comes from the `k`-th item. |
| Lists.FilterMapFrom | utils/parser.py:314-333 | Every record of a skipping loop comes from one of the items. |
| Lists.DropRejected | utils/parser.py:74-83 | An item that fails is dropped without affecting the records of the items before and after it. |
| Lists.MapAllNone | utils/parser.py:112-150 | A loop inside one `try` yields nothing exactly when some item fails. |
| Numbers.NumberEnd | utils/parser.py:117 | The number pattern matches exactly at a digit. The match runs over digits, commas and dots and ends with a digit. |
| Numbers.NumberWindow | utils/parser.py:117 | A number matched in the text is matched the same way in any slice that contains it, so the inner search on an amount's text finds the number the amount pattern matched. |
| Numbers.NumberGreedyFirst | utils/parser.py:117 | The greedy end is the first end Python's backtracking tries. Every other end it could give back to stops right before a digit, a comma or a dot. |
| DatePatterns.NumericDate | utils/parser.py:63 | A match of the numeric date pattern is non-empty, lies inside the text and starts with a digit. |
| DatePatterns.DayMonthDate | utils/parser.py:64 | A match of the day-month-year pattern is non-empty, lies inside the text and starts with a digit. |
| DatePatterns.MonthDayDate | utils/parser.py:65 | A match of the month-day-year pattern is non-empty, lies inside the text and starts with one of the twelve three-letter month names, case ignored. |
| DatePatterns.NumericDateExample | utils/parser.py:63 | "01/15/2023" is matched in full by the numeric date pattern. |
| Dates.DateOf | utils/parser.py:73-83 | A date record is kept only when the parser accepts the matched text. It holds that text, its span and the parser's result. |
| Dates.ExtractDates | utils/parser.py:50-89 | Every date record comes from a match of one of the three date patterns. It holds the matched text and what the date parser made of it. |
| Dates.AllDatesKept | utils/parser.py:70-81 | When the parser accepts every match, the `k`-th record is the `k`-th match. |
| Dates.RejectedDateDropped | utils/parser.py:74-83 | A match the parser rejects is dropped. The records are those of the matches before it, followed by those of the matches after it. |
| Dates.DateTestRecords | tests/test_ocr.py:48-67 | In the test text "Invoice Date: 01/15/2023" and "Due Date: 02/15/2023", the first two date records are "01/15/2023" and "02/15/2023", at their own spans, with whatever the date parser made of them. |
| AmountPatterns.MarkerFirst | utils/parser.py:104-106 | A symbol- or code-first amount matches exactly when its marker is followed by a digit, or by one whitespace character and a digit. The match then ends where the number does. It begins with its marker, ends with a digit, and holds only whitespace or number characters in between. |
| AmountPatterns.MarkerLast | utils/parser.py:105-107 | A symbol- or code-last amount begins with a digit and ends with its marker. What lies before the marker is whitespace or number characters. |
| AmountPatterns.MarkerLastIsGreedy | utils/parser.py:105-107 | The greedy recogniser equals the full backtracking search. Giving back part of the number never lets the marker match. |
| Amounts.InferCurrency | utils/parser.py:121-137 | A currency is found exactly when one of `$ € £ ¥ USD EUR GBP JPY` occurs in the text. It is the first of them, in that order, that occurs. |
| Amounts.FindNumber | utils/parser.py:117 | The inner search finds the number starting at the first digit of the amount. It finds nothing exactly when there is no digit. |
| Amounts.ExtractAmounts | utils/parser.py:91-150 | There is one record per amount match, in family order, and the outer `except` never fires. Each record has its matched text and a currency that is never absent. Its numeric value is the digits and dots of the matched text, in order: the first number of the text with its commas removed. |
| Amounts.AmountValue | utils/parser.py:117-118 | The numeric value of an amount match is every digit and dot of its text, in order. |
| Amounts.AmountNumberAt | utils/parser.py:104-108 | Every amount match holds a number, as the number pattern matches it there, with no digit or dot anywhere else in the match. |
| Amounts.DollarAmountExample | utils/parser.py:117-124 | "$100.00" has the numeric value 100.00 and the currency USD. |
| Amounts.EuroAmountExample | utils/parser.py:117-118 | "1,234.56 EUR" has the numeric value 1234.56. |
| Amounts.NumericShape | utils/parser.py:117-118 | Removing the commas from the found number leaves a non-empty run of digits and dots that starts with a digit. |
| Amounts.AmountCurrencyIsOwnMarker | utils/parser.py:104-137 | Each amount text holds exactly one of the eight markers, and its currency is that marker's. So the order of the `elif` chain never decides between two. |
| Amounts.AmountTestValues | tests/test_ocr.py:69-89 | In the test text with "$100.00", "$8.50" and "$108.50", the first three amount records have the numeric values 100.00, 8.50 and 108.50, in that order. Each has the currency USD. |
| AddressPatterns.StreetAddress | utils/parser.py:166 | A street address match starts and ends with a digit. |
| AddressPatterns.PoBox | utils/parser.py:168 | A PO-box match starts with `P` in either case and ends with a digit. |
| Addresses.ExtractAddresses | utils/parser.py:152-185 | There is one record per address match, in family order. The `strip()` removes nothing, so the address is the matched text itself. |
| Addresses.AddressesUnstripped | utils/parser.py:176-177 | Every address match starts with a digit or `P` and ends with a digit, so stripping leaves it alone. |
| EmailPattern.Email | utils/parser.py:199 | An email match is at least six characters long. It starts with a local-part character, contains `@`, and ends with a letter. |
| Emails.ExtractEmails | utils/parser.py:187-214 | There is one record per email match, left to right, holding the matched text. |
| PhonePatterns.Run | utils/parser.py:229-233 | A sequence of required digit groups and optional characters matches only phone characters. It is at least as long as its required part. |
| PhonePatterns.PlainPhone | utils/parser.py:231 | A plain phone match is at least ten phone characters from a digit to a digit. |
| PhonePatterns.ParenPhone | utils/parser.py:230 | A bracketed phone match is at least ten phone characters, from a digit or `(` to a digit. |
| PhonePatterns.PrefixedPhone | utils/parser.py:229 | A country-prefixed match is at least eleven phone characters, from a digit or `+` to a digit. |
| PhonePatterns.CallUsPhone | utils/parser.py:232 | A "Call us:" match is at least eighteen characters long, with its `:` at offset seven. |
| PhonePatterns.SupportPhone | utils/parser.py:233 | A "Support:" match is at least eighteen characters long, with its `:` at offset seven. |
| PhoneWindow.ParenPhoneWindow | utils/parser.py:244-248 | Pattern 2 matched inside a slice of the text agrees with pattern 2 matched in the whole text, wherever the match ends within the slice. |
| PhoneWindow.PlainIsParen | utils/parser.py:230-231 | Wherever pattern 3 matches, pattern 2 matches the same text. |
| Phones.FindPhone | utils/parser.py:246 | The inner search finds the first position where pattern 2 matches. It finds nothing exactly when pattern 2 matches nowhere. |
| Phones.ExtractPhoneNumbers | utils/parser.py:216-261 | There is one record per phone match, in family order; no match is dropped. A match without `:` is stored whole. A labelled match is cut down to the first pattern-2 number inside it. The stored phone has at least ten characters and no `:`, and nothing to strip. |
| Phones.PhoneOfShape | utils/parser.py:240-255 | Every phone match yields a record for its own span. |
| Phones.LabelledPhoneOf | utils/parser.py:244-250 | A "Call us:" or "Support:" match loses its label. The record holds the first pattern-2 number in the match, which always exists. |
| Phones.UnlabelledPhoneOf | utils/parser.py:243-253 | A match from patterns 1 to 3 is stored exactly as matched. |
| Phones.CallUsExample | tests/test_ocr.py:111-129 | For the labelled match "Call us: (123) 456-7890", "(123) 456-7890" is a valid stored phone, and it is the only one. |
| Phones.SupportExample | tests/test_ocr.py:111-129 | For the labelled match "Support: 123-456-7891", "123-456-7891" is a valid stored phone, and it is the only one. |
| InvoicePatterns.InvoiceNumber | utils/parser.py:276-277 | An invoice match begins with "inv" in any case and is longer than the keyword. |
| InvoicePatterns.CodeCoversDigits | utils/parser.py:276-277 | Wherever the digits-only pattern matches, the code pattern matches at the same place and reaches at least as far. It reaches exactly as far when no letter or `-` follows the digits. |
| InvoicePatterns.BothPatternsMatchExample | utils/parser.py:276-277 | "Invoice 12345" is matched in full by both invoice patterns, so it is reported twice. |
| Invoices.ExtractInvoiceNumbers | utils/parser.py:263-294 | There is one record per invoice match, in family order, holding the matched text. Nothing is de-duplicated. |
| Items.ItemOf | utils/parser.py:314-333 | A line that yields a record yields a good one. The description is non-empty, stripped and digit-free. The price is a number from a digit to a digit. The stored line is stripped and at least five characters long. |
| Items.ItemOfCharacterised | utils/parser.py:314-333 | A line yields a record exactly when its stripped length is at least five, it has a digit, and something other than whitespace precedes its first digit. The description is the stripped text before that digit, the price is the number that starts there, and the stored line is the stripped line. |
| Items.ExtractItemDescriptions | utils/parser.py:296-338 | Every record comes from one line of the text, and every record is a good item. |
| Items.ItemsOfFirstLine | utils/parser.py:308-333 | Lines are read in order: the records of the first line come ahead of those of the rest of the text. |
| Items.ItemsOfOneLine | utils/parser.py:314-333 | A one-line text gives that line's record, or nothing. With `Items.ItemsOfFirstLine`, this fixes the result on every text. |
| Upload.LastDot | app.py:45 | `rsplit('.', 1)` cuts at a dot with no dot after it. There is no cut exactly when the name has no dot. |
| Upload.AllowedFile | app.py:28-45 | A name is accepted exactly when it has a last dot and the text after that dot, lower-cased, is one of `png jpg jpeg gif bmp tiff tif pdf`. |
| Upload.LastExtensionDecides | app.py:45 | Only the last extension counts, whatever the rest of the name holds. |
| Upload.NoDotRejected | app.py:45 | A name without a dot is rejected. |
| Upload.TrailingDotRejected | app.py:45 | A name ending in `.` is rejected. |
| Upload.CaseIgnored | app.py:45 | A name is accepted exactly when its lower-cased form is. |
| Upload.DoubleExtensionRejected | app.py:45 | "invoice.pdf.exe" is rejected. |
| Upload.InnerDotAccepted | app.py:45 | "scan.b.png" is accepted. |
| Upload.UpperCaseAccepted | app.py:45 | "SCAN.PDF" is accepted. |

## Left out

- `dateutil.parser.parse(..., fuzzy=True)` and `strftime('%Y-%m-%d')` are a foreign library. They are the parameter `parse` of `Dates.ExtractDates`, returning `None` where the library raises.
- `float(numeric_value)` is left out, because binary floating point is not modelled. The record keeps the comma-free number text it is computed from.
- Dates.DateTestRecords, Amounts.AmountTestValues: the test texts are modelled without their indentation and blank lines. The date test's third line, "Order Date: January 10, 2023", is left out too; the test asserts nothing about it.
- Phones.CallUsExample, Phones.SupportExample: the phone test is stated per labelled match, not on the whole test text, because the overlapping matches of the four phone patterns make a whole-text proof very long. The lemmas take each labelled line as the matched text and state which phone is stored for it.
- `to_json` is left out: it is JSON serialisation only.
- Logging, the `__init__` message, and the `try`/`except` shells are left out. The only modelled failures are the date parser's and the inner amount search, which is proved never to fail.
- Image preprocessing, OCR, the Flask routes and file storage in `app.py` are left out. They are I/O and foreign calls, not part of this model.
- `\d` is modelled as ASCII digits, `\w` as ASCII word characters, and `re.IGNORECASE` as ASCII case folding. Python's Unicode digits and special folds (such as the Kelvin sign matching `k`) are not modelled, because they need Unicode tables.
- Upload.AllowedFile: `str.lower()` is modelled as ASCII lower-casing. No non-ASCII character lower-cases to a string in the allowed set, so the verdict is the same.
- DatePatterns.NumericDate, DatePatterns.DayMonthDate, DatePatterns.MonthDayDate: the contracts state only where a match starts and that it is non-empty. The regular language is in the bodies, not restated.
- AddressPatterns.StreetAddress, AddressPatterns.PoBox, EmailPattern.Email: the contracts state the shape of a match (first and last characters, the `@`), not the full regular language.
- PhonePatterns.PlainPhone, PhonePatterns.ParenPhone, PhonePatterns.PrefixedPhone, PhonePatterns.CallUsPhone, PhonePatterns.SupportPhone: the contracts state the length and the end characters of a match, not the full regular language.
- InvoicePatterns.InvoiceNumber: the contract states the keyword and the length, not which character class the number part is drawn from.
- Items.ExtractItemDescriptions: the contract states where records come from and what each holds, but not that every qualifying line gives one, in order. `Items.ItemsOfFirstLine` and `Items.ItemsOfOneLine` state that, line by line.

=== FILE: address_patterns.dfy ===
/** The two address patterns of `extract_addresses`, both matched under
    `re.IGNORECASE` (utils/parser.py:164-169):
      1. `\d+\s[\w\s]+(?:Street|St|...|Court|Ct)[\w\s,]+\d{5}(?:-\d{4})?`
      2. `P\.?O\.?\s?Box\s\d+` */
module AddressPatterns {
  import opened Wrappers
  import opened Text

  /** The street suffixes, lower-cased, in the order the alternation tries
      them ("Street" before "St", "Avenue" before "Ave", ...). */
  const Suffixes: seq<string> :=
    ["street", "st", "avenue", "ave", "road", "rd", "boulevard", "blvd",
     "drive", "dr", "lane", "ln", "court", "ct"]

  /** `[\w\s]` */
  predicate IsStreetChar(c: char) {
    IsWordChar(c) || IsSpace(c)
  }

  /** `[\w\s,]` */
  predicate IsTailChar(c: char) {
    IsWordChar(c) || IsSpace(c) || c == ','
  }

  /** `\d{5}(?:-\d{4})?` at `q`: the ZIP code, with the extension taken when
      it is there. */
  function Zip(t: string, q: nat): (r: Option<nat>)
    requires q <= |t|
    ensures r.Some? ==> q + 5 <= r.value <= |t| && IsDigit(t[r.value - 1])
  {
    if DigitsAt(t, q, 5) then
      Some(if q + 5 < |t| && t[q + 5] == '-' && DigitsAt(t, q + 6, 4) then q + 10 else q + 5)
    else None
  }

  /** `[\w\s,]+` from `q` to `q + m`, then the ZIP code; on failure the run
      gives back one character at a time. */
  function TailBack(t: string, q: nat, m: nat): (r: Option<nat>)
    requires 1 <= m && q + m <= |t|
    ensures r.Some? ==> q < r.value <= |t| && IsDigit(t[r.value - 1])
    decreases m
  {
    Or(Zip(t, q + m), if m == 1 then None else TailBack(t, q, m - 1))
  }

  /** `[\w\s,]+\d{5}(?:-\d{4})?` at `q`. */
  function Tail(t: string, q: nat): (r: Option<nat>)
    requires q <= |t|
    ensures r.Some? ==> q < r.value <= |t| && IsDigit(t[r.value - 1])
  {
    var m := RunEnd(t, q, IsTailChar) - q;
    if m >= 1 then TailBack(t, q, m) else None
  }

  /** The suffix alternation at `p` from alternative `k` on, each matching
      alternative followed by the tail before the next one is tried. */
  function SuffixFrom(t: string, p: nat, k: nat): (r: Option<nat>)
    requires p <= |t|
    ensures r.Some? ==> p < r.value <= |t| && IsDigit(t[r.value - 1])
    decreases |Suffixes| - k
  {
    if k >= |Suffixes| then None
    else Or(if FoldAt(t, p, Suffixes[k]) then Tail(t, p + |Suffixes[k]|) else None,
            SuffixFrom(t, p, k + 1))
  }

  /** `[\w\s]+` from `p` to `p + w`, then a suffix and the tail; on failure
      the run gives back one character at a time. */
  function StreetBack(t: string, p: nat, w: nat): (r: Option<nat>)
    requires 1 <= w && p + w <= |t|
    ensures r.Some? ==> p < r.value <= |t| && IsDigit(t[r.value - 1])
    decreases w
  {
    var here := SuffixFrom(t, p + w, 0);
    if here.Some? || w == 1 then here else StreetBack(t, p, w - 1)
  }

  /** `[\w\s]+(?:Street|...)[\w\s,]+\d{5}(?:-\d{4})?` at `p`. */
  function Street(t: string, p: nat): (r: Option<nat>)
    requires p <= |t|
    ensures r.Some? ==> p < r.value <= |t| && IsDigit(t[r.value - 1])
  {
    var w := RunEnd(t, p, IsStreetChar) - p;
    if w >= 1 then StreetBack(t, p, w) else None
  }

  /** `\d+\s` with the house number running from `i` to `i + l`, then the
      street; on failure the number gives back one digit at a time. */
  function HouseBack(t: string, i: nat, l: nat): (r: Option<nat>)
    requires 1 <= l && i + l <= |t|
    ensures r.Some? ==> i < r.value <= |t| && IsDigit(t[r.value - 1])
    decreases l
  {
    Or(if i + l < |t| && IsSpace(t[i + l]) then Street(t, i + l + 1) else None,
       if l == 1 then None else HouseBack(t, i, l - 1))
  }

  /** Pattern 1 at `i`. */
  function StreetAddress(t: string, i: nat): (r: Option<nat>)
    requires i <= |t|
    ensures r.Some? ==> i < r.value <= |t| && IsDigit(t[i]) && IsDigit(t[r.value - 1])
  {
    var l := DigitRunEnd(t, i) - i;
    if l >= 1 then HouseBack(t, i, l) else None
  }

  /** `Box\s\d+` at `m`. */
  function BoxNumber(t: string, m: nat): (r: Option<nat>)
    requires m <= |t|
    ensures r.Some? ==> m < r.value <= |t| && IsDigit(t[r.value - 1])
  {
    if FoldAt(t, m, "box") && m + 4 < |t| && IsSpace(t[m + 3]) && IsDigit(t[m + 4])
    then Some(DigitRunEnd(t, m + 4))
    else None
  }

  /** `\s?Box\s\d+` at `k`, the space tried first. */
  function SpaceBox(t: string, k: nat): (r: Option<nat>)
    requires k <= |t|
    ensures r.Some? ==> k < r.value <= |t| && IsDigit(t[r.value - 1])
  {
    Or(if k < |t| && IsSpace(t[k]) then BoxNumber(t, k + 1) else None, BoxNumber(t, k))
  }

  /** `O\.?\s?Box\s\d+` at `j`, the dot tried first. */
  function AfterP(t: string, j: nat): (r: Option<nat>)
    requires j <= |t|
    ensures r.Some? ==> j < r.value <= |t| && IsDigit(t[r.value - 1])
  {
    if j < |t| && Lower(t[j]) == 'o' then
      Or(if j + 1 < |t| && t[j + 1] == '.' then SpaceBox(t, j + 2) else None, SpaceBox(t, j + 1))
    else None
  }

  /** Pattern 2 at `i`. */
  function PoBox(t: string, i: nat): (r: Option<nat>)
    requires i <= |t|
    ensures r.Some? ==> i < r.value <= |t| && Lower(t[i]) == 'p' && IsDigit(t[r.value - 1])
  {
    if i < |t| && Lower(t[i]) == 'p' then
      Or(if i + 1 < |t| && t[i + 1] == '.' then AfterP(t, i + 2) else None, AfterP(t, i + 1))
    else None
  }
}

=== FILE: addresses.dfy ===
/** `extract_addresses` (utils/parser.py:152-185): every match of the
    street pattern, then every match of the PO-box pattern, each stripped. */
module Addresses {
  import opened Wrappers
  import opened Text
  import opened AddressPatterns
  import opened Scan
  import opened Patterns
  import opened Entities

  /** The record for one address match: the stripped text and its span. */
  function AddressOf(t: string, sp: Span): AddressEntry
    requires InText(t, sp)
  {
    AddressEntry(Strip(Group(t, sp)), sp)
  }

  /** `extract_addresses`: one record per address match, in family order.
      A match starts with a digit or with `P` and ends with a digit, so the
      `strip()` removes nothing and the address is the matched text itself. */
  function ExtractAddresses(t: string): (r: seq<AddressEntry>)
    ensures |r| == |Scans(AddressFamily(), t)|
    ensures forall k | 0 <= k < |r| ::
              && r[k].position == Scans(AddressFamily(), t)[k]
              && r[k].address == Group(t, r[k].position)
              && AddressText(r[k].address)
  {
    var spans := Scans(AddressFamily(), t);
    AddressesUnstripped(t);
    seq(|spans|, k requires 0 <= k < |spans| => AddressOf(t, spans[k]))
  }

  /** The text of an address match, put as a string: it starts with a
      digit or with `P` in either case, and ends with a digit. */
  predicate AddressText(s: string) {
    s != [] && (IsDigit(s[0]) || Lower(s[0]) == 'p') && IsDigit(s[|s| - 1])
  }

  /** Every address match is an address text that `strip()` leaves alone. */
  lemma AddressesUnstripped(t: string)
    ensures forall k | 0 <= k < |Scans(AddressFamily(), t)| ::
              var g := Group(t, Scans(AddressFamily(), t)[k]);
              AddressText(g) && Strip(g) == g
  {
    var spans := Scans(AddressFamily(), t);
    ScansMatch(AddressFamily(), t);
    forall k | 0 <= k < |spans|
      ensures AddressText(Group(t, spans[k])) && Strip(Group(t, spans[k])) == Group(t, spans[k])
    {
      var sp := spans[k];
      var j :| 0 <= j < |AddressFamily()| && AddressFamily()[j](t, sp.start) == Some(sp.end);
      if j == 0 {
        StreetAt(t, sp.start);
        StreetText(t, sp.start, sp.end);
      } else {
        PoBoxAt(t, sp.start);
        PoBoxText(t, sp.start, sp.end);
      }
      Unstripped(Group(t, sp));
    }
  }

  lemma StreetAt(t: string, i: nat)
    requires i <= |t|
    ensures AddressFamily()[0](t, i) == StreetAddress(t, i)
  {
  }

  lemma PoBoxAt(t: string, i: nat)
    requires i <= |t|
    ensures AddressFamily()[1](t, i) == PoBox(t, i)
  {
  }

  lemma StreetText(t: string, i: nat, e: nat)
    requires i <= |t| && StreetAddress(t, i) == Some(e)
    ensures AddressText(t[i..e])
  {
    assert t[i..e][0] == t[i] && t[i..e][e - i - 1] == t[e - 1];
  }

  lemma PoBoxText(t: string, i: nat, e: nat)
    requires i <= |t| && PoBox(t, i) == Some(e)
    ensures AddressText(t[i..e])
  {
    assert t[i..e][0] == t[i] && t[i..e][e - i - 1] == t[e - 1];
  }

  /** An address text has no space at either end. */
  lemma Unstripped(s: string)
    requires AddressText(s)
    ensures Strip(s) == s
  {
    assert !IsSpace(s[0]) by {
      if !IsDigit(s[0]) && IsUpper(s[0]) {
        assert s[0] == 'P';
      }
    }
    StripUnchanged(s);
  }
}

=== FILE: amount_patterns.dfy ===
/** The four amount patterns of `extract_amounts` (utils/parser.py:103-108):
      1. `[$€£¥]\s?N`                    symbol first
      2. `N\s?[$€£¥]`                    symbol last
      3. `(?:USD|EUR|GBP|JPY)\s?N`       code first
      4. `N\s?(?:USD|EUR|GBP|JPY)`       code last
    where `N` is the number pattern of module `Numbers`. They are matched
    case-sensitively. A "marker" is a currency symbol or a currency code. */
module AmountPatterns {
  import opened Wrappers
  import opened Text
  import opened Numbers

  /** `[$€£¥]` */
  predicate IsCurrencySymbol(c: char) {
    c == '$' || c == '\U{20AC}' || c == '\U{A3}' || c == '\U{A5}'
  }

  /** `(?:USD|EUR|GBP|JPY)` at `j`. */
  predicate CodeAt(t: string, j: nat) {
    LiteralAt(t, j, "USD") || LiteralAt(t, j, "EUR") || LiteralAt(t, j, "GBP") || LiteralAt(t, j, "JPY")
  }

  /** A marker of the kind `codes` selects at `j`. */
  predicate MarkerAt(t: string, j: nat, codes: bool) {
    if codes then CodeAt(t, j) else j < |t| && IsCurrencySymbol(t[j])
  }

  /** How many characters a marker of that kind takes. */
  function MarkerWidth(codes: bool): nat {
    if codes then 3 else 1
  }

  /** `\s?N` at `j`, the optional space tried first. */
  function NumberAfterMarker(t: string, j: nat): (r: Option<nat>)
    requires j <= |t|
    ensures r.Some? ==> j < r.value <= |t| && IsDigit(t[r.value - 1])
    ensures r.Some? ==> forall k | j <= k < r.value :: IsSpace(t[k]) || IsNumberChar(t[k])
  {
    Or(if j < |t| && IsSpace(t[j]) then NumberEnd(t, j + 1) else None, NumberEnd(t, j))
  }

  /** Patterns 1 and 3: a marker, an optional space, then a number. The
      pattern matches exactly when the marker is followed by a digit, or by
      one whitespace character and a digit; the match then ends where the
      number does. */
  function MarkerFirst(t: string, i: nat, codes: bool): (r: Option<nat>)
    requires i <= |t|
    ensures r.Some? <==>
              && MarkerAt(t, i, codes) && i + MarkerWidth(codes) < |t|
              && (|| IsDigit(t[i + MarkerWidth(codes)])
                  || (IsSpace(t[i + MarkerWidth(codes)]) && i + MarkerWidth(codes) + 1 < |t|
                      && IsDigit(t[i + MarkerWidth(codes) + 1])))
    ensures MarkerAt(t, i, codes) && i + MarkerWidth(codes) < |t| && IsDigit(t[i + MarkerWidth(codes)]) ==>
              r == NumberEnd(t, i + MarkerWidth(codes))
    ensures MarkerAt(t, i, codes) && i + MarkerWidth(codes) < |t| && IsSpace(t[i + MarkerWidth(codes)]) ==>
              r == NumberEnd(t, i + MarkerWidth(codes) + 1)
    ensures r.Some? ==> i + MarkerWidth(codes) < r.value <= |t|
    ensures r.Some? ==> MarkerAt(t, i, codes) && IsDigit(t[r.value - 1])
    ensures r.Some? ==> forall k | i + MarkerWidth(codes) <= k < r.value :: IsSpace(t[k]) || IsNumberChar(t[k])
  {
    if MarkerAt(t, i, codes) then NumberAfterMarker(t, i + MarkerWidth(codes)) else None
  }

  /** `\s?` then a marker, right after a number ending at `e`. */
  function MarkerSuffix(t: string, e: nat, codes: bool): (r: Option<nat>)
    requires e <= |t|
    ensures r.Some? ==> e < r.value <= |t| && r.value >= MarkerWidth(codes)
    ensures r.Some? ==> MarkerAt(t, r.value - MarkerWidth(codes), codes)
    ensures r.Some? ==> forall k | e <= k < r.value - MarkerWidth(codes) :: IsSpace(t[k])
  {
    var w := MarkerWidth(codes);
    Or(if e < |t| && IsSpace(t[e]) && MarkerAt(t, e + 1, codes) then Some(e + 1 + w) else None,
       if MarkerAt(t, e, codes) then Some(e + w) else None)
  }

  /** The first of the number's ends, in backtracking order, after which the
      marker suffix matches. */
  function FirstMarkerSuffix(t: string, ends: seq<nat>, codes: bool): Option<nat>
    requires forall k | 0 <= k < |ends| :: ends[k] <= |t|
  {
    if ends == [] then None
    else Or(MarkerSuffix(t, ends[0], codes), FirstMarkerSuffix(t, ends[1..], codes))
  }

  /** Patterns 2 and 4 as the regex engine runs them: a number, an optional
      space, then a marker, the number backtracking through `NumberEnds`
      until the marker fits. */
  function MarkerLastBacktracking(t: string, i: nat, codes: bool): Option<nat>
    requires i <= |t|
  {
    FirstMarkerSuffix(t, NumberEnds(t, i), codes)
  }

  /** Patterns 2 and 4: the greedy number followed by the marker suffix.
      `MarkerLastIsGreedy` shows this is what the backtracking run finds. */
  function MarkerLast(t: string, i: nat, codes: bool): (r: Option<nat>)
    requires i <= |t|
    ensures r.Some? ==> i + MarkerWidth(codes) < r.value <= |t|
    ensures r.Some? ==> IsDigit(t[i]) && MarkerAt(t, r.value - MarkerWidth(codes), codes)
    ensures r.Some? ==> forall k | i <= k < r.value - MarkerWidth(codes) :: IsSpace(t[k]) || IsNumberChar(t[k])
  {
    match NumberEnd(t, i)
    case None => None
    case Some(e) => MarkerSuffix(t, e, codes)
  }

  /** Backtracking into the number never helps the marker suffix: the
      regex engine's match is the greedy number followed by the suffix, or
      nothing. */
  lemma MarkerLastIsGreedy(t: string, i: nat, codes: bool)
    requires i <= |t|
    ensures MarkerLastBacktracking(t, i, codes) == MarkerLast(t, i, codes)
  {
    NumberGreedyFirst(t, i);
    var ends := NumberEnds(t, i);
    if ends != [] {
      NoSuffixBeforeNumberChar(t, ends[1..], codes);
    }
  }

  /** No marker suffix can start right before a digit, a comma or a dot. */
  lemma {:induction false} NoSuffixBeforeNumberChar(t: string, ends: seq<nat>, codes: bool)
    requires forall k | 0 <= k < |ends| :: ends[k] < |t| && IsNumberChar(t[ends[k]])
    ensures FirstMarkerSuffix(t, ends, codes) == None
    decreases |ends|
  {
    if ends != [] {
      NoSuffixAt(t, ends[0], codes);
      NoSuffixBeforeNumberChar(t, ends[1..], codes);
    }
  }

  /** A digit, a comma or a dot is neither a space nor the start of a marker. */
  lemma NoSuffixAt(t: string, e: nat, codes: bool)
    requires e < |t| && IsNumberChar(t[e])
    ensures MarkerSuffix(t, e, codes) == None
  {
    assert !IsSpace(t[e]);
    assert !MarkerAt(t, e, codes);
  }
}

=== FILE: amounts.dfy ===
/** `extract_amounts` (utils/parser.py:91-150): every match of the four amount
    patterns, with the number inside it stripped of commas and the currency
    inferred from the markers it contains. */
module Amounts {
  import opened Wrappers
  import opened Text
  import opened Numbers
  import opened AmountPatterns
  import opened Scan
  import opened Patterns
  import opened Entities
  import opened Lists

  /** The markers in the order the currency chain tests them, and the
      currency each one stands for. */
  const Markers: seq<string> := ["$", "\U{20AC}", "\U{A3}", "\U{A5}", "USD", "EUR", "GBP", "JPY"]
  const MarkerCurrencies: seq<Currency> := [USD, EUR, GBP, JPY, USD, EUR, GBP, JPY]

  /** The `if '$' in amount_str ... elif 'JPY' in amount_str` chain. */
  function InferCurrency(s: string): (c: Option<Currency>)
    ensures c.Some? <==> exists k | 0 <= k < |Markers| :: Contains(s, Markers[k])
    ensures c.Some? ==>
              exists k | 0 <= k < |Markers| ::
                && Contains(s, Markers[k])
                && c.value == MarkerCurrencies[k]
                && forall j | 0 <= j < k :: !Contains(s, Markers[j])
  {
    CharContains(s, '$');
    CharContains(s, '\U{20AC}');
    CharContains(s, '\U{A3}');
    CharContains(s, '\U{A5}');
    assert Markers[0] == ['$'] && Markers[1] == ['\U{20AC}'] && Markers[2] == ['\U{A3}'] && Markers[3] == ['\U{A5}'];
    assert Markers[4] == "USD" && Markers[5] == "EUR" && Markers[6] == "GBP" && Markers[7] == "JPY";
    if '$' in s then Some(USD)
    else if '\U{20AC}' in s then Some(EUR)
    else if '\U{A3}' in s then Some(GBP)
    else if '\U{A5}' in s then Some(JPY)
    else if Contains(s, "USD") then Some(USD)
    else if Contains(s, "EUR") then Some(EUR)
    else if Contains(s, "GBP") then Some(GBP)
    else if Contains(s, "JPY") then Some(JPY)
    else None
  }

  /** Membership of a character is containment of the one-character string. */
  lemma CharContains(s: string, c: char)
    ensures c in s <==> Contains(s, [c])
  {
    if c in s {
      var k :| 0 <= k < |s| && s[k] == c;
      assert LiteralAt(s, k, [c]);
    }
    if Contains(s, [c]) {
      var k :| 0 <= k <= |s| - 1 && LiteralAt(s, k, [c]);
      assert s[k] == s[k..k + 1][0];
    }
  }

  /** The price number of `extract_item_descriptions` and the inner search
      of `extract_amounts`: `re.search(r'\d+(?:,\d{3})*(?:\.\d{2})?', s)`.
      It is the number starting at the first digit of `s`. */
  function FindNumber(s: string): (r: Option<Span>)
    ensures r.Some? ==> InText(s, r.value) && IsDigit(s[r.value.start])
    ensures r.Some? ==> NumberEnd(s, r.value.start) == Some(r.value.end)
    ensures r.Some? ==> forall q | 0 <= q < r.value.start :: !IsDigit(s[q])
    ensures r.None? <==> forall q | 0 <= q < |s| :: !IsDigit(s[q])
  {
    NumberMatcher(s);
    var r := Search(Number(), s);
    NoNumberIn(s, |s|);
    if r.Some? then NoNumberIn(s, r.value.start); r else r
  }

  /** The recogniser `Search` runs is the number pattern at every position. */
  lemma NumberMatcher(s: string)
    ensures forall q | 0 <= q <= |s| :: Number()(s, q) == NumberEnd(s, q)
  {
  }

  /** The number pattern matches nowhere before `b` exactly when no digit
      comes before `b`. */
  lemma NoNumberIn(s: string, b: nat)
    requires b <= |s|
    ensures NoMatchIn(Number(), s, 0, b) <==> forall q | 0 <= q < b :: !IsDigit(s[q])
  {
    NumberMatcher(s);
    assert forall q | 0 <= q < b :: Number()(s, q).None? <==> !IsDigit(s[q]);
  }

  /** The record for one amount match, or `None` where `re.search(...)`
      finds nothing and `.group()` raises (and for a span that is not
      inside the text). */
  function AmountOf(t: string, sp: Span): Option<AmountEntry> {
    if !InText(t, sp) then None
    else
      var raw := Group(t, sp);
      match FindNumber(raw)
      case None => None
      case Some(n) => Some(AmountEntry(raw, RemoveAll(Group(raw, n), ','), InferCurrency(raw), sp))
  }

  /** A span `extract_amounts` loops over: a match of one amount pattern. */
  predicate AmountMatch(t: string, sp: Span) {
    && InText(t, sp)
    && exists j | 0 <= j < |AmountFamily()| :: AmountFamily()[j](t, sp.start) == Some(sp.end)
  }

  /** The record for the amount match `sp`: its span and text, the
      currency the chain infers from that text, which is never absent,
      and a numeric value that is every digit and dot of that text, in
      order: a comma-free run of digits and dots starting with a digit. */
  predicate GoodAmount(t: string, sp: Span, a: AmountEntry)
    requires InText(t, sp)
  {
    && a.position == sp && a.amountStr == Group(t, sp)
    && a.currency == InferCurrency(a.amountStr) && a.currency.Some?
    && ',' !in a.numericValue
    && a.numericValue == NumericChars(a.amountStr)
    && a.numericValue != [] && IsDigit(a.numericValue[0])
    && forall c | c in a.numericValue :: IsDigit(c) || c == '.'
  }

  /** The digits and dots of `s`, in order: the value an amount's text
      spells once its marker, its space and its commas are set aside. */
  function NumericChars(s: string): (r: string)
    ensures forall c | c in r :: IsDigit(c) || c == '.'
  {
    if s == [] then []
    else (if IsDigit(s[0]) || s[0] == '.' then [s[0]] else []) + NumericChars(s[1..])
  }

  /** `extract_amounts`: one record per amount match, in family order. A
      raise inside the loop would make the whole result `[]`, but the
      `.group()` on the inner search never raises, so every match is
      recorded. */
  function ExtractAmounts(t: string): (r: seq<AmountEntry>)
    ensures |r| == |Scans(AmountFamily(), t)|
    ensures forall k | 0 <= k < |r| :: GoodAmount(t, Scans(AmountFamily(), t)[k], r[k])
  {
    var spans := Scans(AmountFamily(), t);
    var f := (sp: Span) => AmountOf(t, sp);
    EveryAmountRecorded(t);
    MapAllSome(f, spans);
    match MapAll(f, spans)
    case None => []
    case Some(r) => r
  }

  /** Every amount match yields a record for its own span. */
  lemma EveryAmountRecorded(t: string)
    ensures forall k | 0 <= k < |Scans(AmountFamily(), t)| ::
              var sp := Scans(AmountFamily(), t)[k];
              AmountOf(t, sp).Some? && GoodAmount(t, sp, AmountOf(t, sp).value)
  {
    var spans := Scans(AmountFamily(), t);
    ScansMatch(AmountFamily(), t);
    forall k | 0 <= k < |spans|
      ensures AmountOf(t, spans[k]).Some? && GoodAmount(t, spans[k], AmountOf(t, spans[k]).value)
    {
      AmountOfShape(t, spans[k]);
    }
  }

  /** One amount match gives a record: the match holds a digit, so the
      inner search succeeds, and a marker, so a currency is found. */
  lemma AmountOfShape(t: string, sp: Span)
    requires AmountMatch(t, sp)
    ensures AmountOf(t, sp).Some?
    ensures GoodAmount(t, sp, AmountOf(t, sp).value)
  {
    var raw := Group(t, sp);
    var a, k := AmountMatchShape(t, sp);
    CurrencyFound(raw, a, k);
    var n := FindNumber(raw).value;
    NumericShape(raw, n);
    AmountValue(t, sp);
  }

  /** The numeric value of an amount match is the digits and dots of its
      text. */
  lemma AmountValue(t: string, sp: Span)
    requires AmountMatch(t, sp)
    ensures AmountOf(t, sp).Some? ==> AmountOf(t, sp).value.numericValue == NumericChars(Group(t, sp))
  {
    var p, m := AmountNumberAt(t, sp);
    ValueAt(t, sp, p, m);
  }

  lemma ValueAt(t: string, sp: Span, p: nat, m: nat)
    requires sp.start <= p <= m <= sp.end <= |t| && NumberEnd(t, p) == Some(m)
    requires forall k | sp.start <= k < p :: !IsDigit(t[k]) && t[k] != '.'
    requires forall k | m <= k < sp.end :: !IsDigit(t[k]) && t[k] != '.'
    ensures AmountOf(t, sp).Some? && AmountOf(t, sp).value.numericValue == NumericChars(Group(t, sp))
  {
    SliceInside(t, sp, p, m);
    GroupValue(t, sp, p - sp.start, m - sp.start);
  }

  /** A match whose text holds a number from `a` to `b` and no other digit
      or dot has that text's digits and dots as its value. */
  lemma GroupValue(t: string, sp: Span, a: nat, b: nat)
    requires InText(t, sp) && NumberInside(Group(t, sp), a, b)
    ensures AmountOf(t, sp).Some? && AmountOf(t, sp).value.numericValue == NumericChars(Group(t, sp))
  {
    var g := Group(t, sp);
    var n := Span(a, b);
    ValueOfInside(g, a, b);
    assert FindNumber(g) == Some(n) && Group(g, n) == g[a..b];
    assert AmountOf(t, sp) == Some(AmountEntry(g, RemoveAll(Group(g, n), ','), InferCurrency(g), sp));
  }

  /** A text holding a marker has a currency. */
  lemma CurrencyFound(raw: string, a: nat, k: nat)
    requires MarkedOnce(raw, a, k)
    ensures InferCurrency(raw).Some?
  {
    assert LiteralAt(raw, a, Markers[k]);
  }

  /** The number found in an amount, commas removed, is a run of digits and
      dots that starts with a digit. */
  lemma NumericShape(raw: string, n: Span)
    requires InText(raw, n) && n.start < n.end && IsDigit(raw[n.start])
    requires forall q | n.start <= q < n.end :: IsNumberChar(raw[q])
    ensures var v := RemoveAll(Group(raw, n), ',');
            && ',' !in v && v != [] && IsDigit(v[0])
            && forall c | c in v :: IsDigit(c) || c == '.'
  {
    var g := Group(raw, n);
    assert forall q | 0 <= q < |g| :: g[q] == raw[n.start + q];
    assert IsDigit(g[0]);
    RemoveAllHead(g, ',');
  }

  /** `raw` holds a number from `a` to `b`, and no digit or dot outside it. */
  predicate NumberInside(raw: string, a: nat, b: nat) {
    && a <= b <= |raw| && NumberEnd(raw, a) == Some(b)
    && (forall k | 0 <= k < a :: !IsDigit(raw[k]) && raw[k] != '.')
    && (forall k | b <= k < |raw| :: !IsDigit(raw[k]) && raw[k] != '.')
  }

  /** The inner search finds the one number in `raw`, and with its commas
      removed it is every digit and dot of `raw`. */
  lemma ValueOfInside(raw: string, a: nat, b: nat)
    requires NumberInside(raw, a, b)
    ensures FindNumber(raw) == Some(Span(a, b))
    ensures RemoveAll(raw[a..b], ',') == NumericChars(raw)
  {
    assert IsDigit(raw[a]);
    var n := FindNumber(raw).value;
    assert n.start == a;
    assert forall k | a <= k < b :: IsNumberChar(raw[k]);
    NumericOfInside(raw, a, b);
  }

  lemma NumericOfInside(raw: string, a: nat, b: nat)
    requires a <= b <= |raw|
    requires forall k | 0 <= k < a :: !IsDigit(raw[k]) && raw[k] != '.'
    requires forall k | a <= k < b :: IsNumberChar(raw[k])
    requires forall k | b <= k < |raw| :: !IsDigit(raw[k]) && raw[k] != '.'
    ensures RemoveAll(raw[a..b], ',') == NumericChars(raw)
  {
    var v := RemoveAll(raw[a..b], ',');
    NumericCharsThree(raw, a, b);
    NumericCharsNoneBefore(raw, a);
    NumericCharsNoneAfter(raw, b);
    NumericCharsNumberIn(raw, a, b);
    assert NumericChars(raw) == [] + v + [];
    assert [] + v + [] == v;
  }

  /** The digits and dots of `s` are those before `a`, then those from `a`
      to `b`, then those after `b`. */
  lemma NumericCharsThree(s: string, a: nat, b: nat)
    requires a <= b <= |s|
    ensures NumericChars(s) == NumericChars(s[..a]) + NumericChars(s[a..b]) + NumericChars(s[b..])
  {
    NumericCharsSplit(s, b);
    NumericCharsSplit(s[..b], a);
    assert s[..b][..a] == s[..a];
    assert s[..b][a..] == s[a..b];
  }

  lemma NumericCharsSplit(s: string, a: nat)
    requires a <= |s|
    ensures NumericChars(s) == NumericChars(s[..a]) + NumericChars(s[a..])
  {
    assert s == s[..a] + s[a..];
    NumericCharsAppend(s[..a], s[a..]);
  }

  lemma NumericCharsNoneBefore(s: string, a: nat)
    requires a <= |s|
    requires forall k | 0 <= k < a :: !IsDigit(s[k]) && s[k] != '.'
    ensures NumericChars(s[..a]) == []
  {
    assert forall k | 0 <= k < a :: s[..a][k] == s[k];
    NumericCharsNone(s[..a]);
  }

  lemma NumericCharsNoneAfter(s: string, b: nat)
    requires b <= |s|
    requires forall k | b <= k < |s| :: !IsDigit(s[k]) && s[k] != '.'
    ensures NumericChars(s[b..]) == []
  {
    assert forall k | 0 <= k < |s| - b :: s[b..][k] == s[b + k];
    NumericCharsNone(s[b..]);
  }

  lemma NumericCharsNumberIn(s: string, lo: nat, hi: nat)
    requires lo <= hi <= |s|
    requires forall k | lo <= k < hi :: IsNumberChar(s[k])
    ensures NumericChars(s[lo..hi]) == RemoveAll(s[lo..hi], ',')
  {
    assert forall k | 0 <= k < hi - lo :: s[lo..hi][k] == s[lo + k];
    NumericCharsOfNumber(s[lo..hi]);
  }

  /** Where the number of an amount match lies in the text: the number
      pattern matches there, and no digit or dot lies outside it. */
  lemma AmountNumberAt(t: string, sp: Span) returns (p: nat, m: nat)
    requires AmountMatch(t, sp)
    ensures sp.start <= p <= m <= sp.end <= |t| && NumberEnd(t, p) == Some(m)
    ensures forall k | sp.start <= k < p :: !IsDigit(t[k]) && t[k] != '.'
    ensures forall k | m <= k < sp.end :: !IsDigit(t[k]) && t[k] != '.'
  {
    var i, e := sp.start, sp.end;
    var j :| 0 <= j < |AmountFamily()| && AmountFamily()[j](t, i) == Some(e);
    if j == 0 || j == 2 {
      assert MarkerFirst(t, i, j == 2) == Some(e);
      p := FirstMatchInside(t, i, e, j == 2);
      m := e;
    } else {
      assert MarkerLast(t, i, j == 3) == Some(e);
      m := LastInside(t, i, e, j == 3);
      p := i;
    }
  }

  /** A number from `p` to `m` inside the span `sp` with no digit or dot
      around it, seen from the matched text. */
  lemma SliceInside(t: string, sp: Span, p: nat, m: nat)
    requires sp.start <= p <= m <= sp.end <= |t| && NumberEnd(t, p) == Some(m)
    requires forall k | sp.start <= k < p :: !IsDigit(t[k]) && t[k] != '.'
    requires forall k | m <= k < sp.end :: !IsDigit(t[k]) && t[k] != '.'
    ensures NumberInside(Group(t, sp), p - sp.start, m - sp.start)
  {
    var i, e := sp.start, sp.end;
    var g := Group(t, sp);
    NumberWindow(t, i, e, p);
    assert NumberEnd(g, p - i) == Some(m - i);
    assert forall k | 0 <= k < |g| :: g[k] == t[i + k];
    assert forall k | 0 <= k < p - i :: !IsDigit(g[k]) && g[k] != '.';
    assert forall k | m - i <= k < |g| :: !IsDigit(g[k]) && g[k] != '.';
  }

  /** Patterns 1 and 3 seen from their match: see `FirstInside`. */
  lemma FirstMatchInside(t: string, i: nat, e: nat, codes: bool) returns (p: nat)
    requires i <= |t| && MarkerFirst(t, i, codes) == Some(e)
    ensures i <= p <= e && NumberEnd(t, p) == Some(e)
    ensures forall k | i <= k < p :: !IsDigit(t[k]) && t[k] != '.'
  {
    MarkerFirstParts(t, i, codes, e);
    p := FirstInside(t, i, e, codes);
  }

  /** Patterns 1 and 3: the number starts after the marker and the optional
      space, and runs to the end of the match. */
  lemma FirstInside(t: string, i: nat, e: nat, codes: bool) returns (p: nat)
    requires MarkerAt(t, i, codes) && i + MarkerWidth(codes) <= |t|
    requires NumberAfterMarker(t, i + MarkerWidth(codes)) == Some(e)
    ensures i <= p <= e && NumberEnd(t, p) == Some(e)
    ensures forall k | i <= k < p :: !IsDigit(t[k]) && t[k] != '.'
  {
    var w := MarkerWidth(codes);
    MarkerNotNumeric(t, i, codes);
    p := NumberAfterSpace(t, i + MarkerWidth(codes), e);
    assert forall k | i <= k < i + w :: !IsDigit(t[k]) && t[k] != '.';
    assert forall k | i + w <= k < p :: !IsDigit(t[k]) && t[k] != '.';
  }

  /** A symbol- or code-first match is a marker and then `\s?N`. */
  lemma MarkerFirstParts(t: string, i: nat, codes: bool, e: nat)
    requires i <= |t| && MarkerFirst(t, i, codes) == Some(e)
    ensures MarkerAt(t, i, codes) && i + MarkerWidth(codes) <= |t|
    ensures NumberAfterMarker(t, i + MarkerWidth(codes)) == Some(e)
  {
  }

  /** `\s?N`: the number starts right away or after one space. */
  lemma NumberAfterSpace(t: string, j: nat, e: nat) returns (p: nat)
    requires j <= |t| && NumberAfterMarker(t, j) == Some(e)
    ensures j <= p <= e && NumberEnd(t, p) == Some(e)
    ensures forall k | j <= k < p :: !IsDigit(t[k]) && t[k] != '.'
  {
    if j < |t| && IsSpace(t[j]) && NumberEnd(t, j + 1).Some? {
      p := j + 1;
      SpaceNotNumeric(t[j]);
    } else {
      p := j;
    }
  }

  /** Patterns 2 and 4: the number starts the match, and only the optional
      space and the marker follow it. */
  lemma LastInside(t: string, i: nat, e: nat, codes: bool) returns (m: nat)
    requires i <= |t| && MarkerLast(t, i, codes) == Some(e)
    ensures i <= m <= e && NumberEnd(t, i) == Some(m)
    ensures forall k | m <= k < e :: !IsDigit(t[k]) && t[k] != '.'
  {
    m := NumberEnd(t, i).value;
    SuffixNotNumeric(t, m, e, codes);
  }

  /** The optional space and the marker after a number hold no digit and
      no dot. */
  lemma SuffixNotNumeric(t: string, m: nat, e: nat, codes: bool)
    requires m <= |t| && MarkerSuffix(t, m, codes) == Some(e)
    ensures forall k | m <= k < e :: !IsDigit(t[k]) && t[k] != '.'
  {
    var w := MarkerWidth(codes);
    MarkerNotNumeric(t, e - w, codes);
    forall k | m <= k < e - w
      ensures !IsDigit(t[k]) && t[k] != '.'
    {
      SpaceNotNumeric(t[k]);
    }
  }

  /** Whitespace is neither a digit nor a dot. */
  lemma SpaceNotNumeric(c: char)
    requires IsSpace(c)
    ensures !IsDigit(c) && c != '.'
  {
  }

  /** A marker holds no digit and no dot. */
  lemma MarkerNotNumeric(t: string, j: nat, codes: bool)
    requires MarkerAt(t, j, codes)
    ensures j + MarkerWidth(codes) <= |t|
    ensures forall x | j <= x < j + MarkerWidth(codes) :: !IsDigit(t[x]) && t[x] != '.'
  {
    if codes {
      var k := CodeIndex(t, j);
      MarkerShape(k);
      assert forall x | j <= x < j + 3 :: t[x] == Markers[k][x - j];
    }
  }

  lemma {:induction false} NumericCharsAppend(a: string, b: string)
    ensures NumericChars(a + b) == NumericChars(a) + NumericChars(b)
    decreases |a|
  {
    if a == [] {
      assert a + b == b;
    } else {
      assert (a + b)[1..] == a[1..] + b;
      NumericCharsAppend(a[1..], b);
    }
  }

  /** In a run of number characters, keeping the digits and dots is
      removing the commas. */
  lemma {:induction false} NumericCharsOfNumber(s: string)
    requires forall k | 0 <= k < |s| :: IsNumberChar(s[k])
    ensures NumericChars(s) == RemoveAll(s, ',')
    decreases |s|
  {
    if s != [] {
      NumericCharsOfNumber(s[1..]);
    }
  }

  lemma {:induction false} NumericCharsNone(s: string)
    requires forall k | 0 <= k < |s| :: !IsDigit(s[k]) && s[k] != '.'
    ensures NumericChars(s) == []
    decreases |s|
  {
    if s != [] {
      NumericCharsNone(s[1..]);
    }
  }

  /** A string of digits and dots is its own numeric value. */
  lemma {:induction false} NumericCharsKeeps(s: string)
    requires forall k | 0 <= k < |s| :: IsDigit(s[k]) || s[k] == '.'
    ensures NumericChars(s) == s
    decreases |s|
  {
    if s != [] {
      NumericCharsKeeps(s[1..]);
      assert [s[0]] + s[1..] == s;
    }
  }

  /** "$100.00" is the amount 100.00 in dollars. */
  lemma DollarAmountExample(t: string, sp: Span, a: AmountEntry)
    requires InText(t, sp) && Group(t, sp) == "$100.00" && GoodAmount(t, sp, a)
    ensures a.numericValue == "100.00" && a.currency == Some(USD)
  {
    DollarParts();
    DollarValue(t, sp, a, "100.00");
  }

  lemma DollarParts()
    ensures "$100.00" == "$" + "100.00" && DigitsAndDots("100.00")
  {
  }

  /** "1,234.56 EUR" has the value 1234.56: the comma goes, and so do the
      space and the code. */
  lemma EuroAmountExample(t: string, sp: Span, a: AmountEntry)
    requires InText(t, sp) && Group(t, sp) == "1,234.56 EUR" && GoodAmount(t, sp, a)
    ensures a.numericValue == "1234.56"
  {
    EuroChars();
  }

  lemma EuroChars()
    ensures NumericChars("1,234.56 EUR") == "1234.56"
  {
    assert "1" + "234.56" == "1234.56";
    assert "1,234.56 EUR" == "1" + ("," + ("234.56" + " EUR"));
    EuroTail();
    NumericCharsAppend("1", "," + ("234.56" + " EUR"));
    assert NumericChars("1") == "1";
  }

  lemma EuroTail()
    ensures NumericChars("," + ("234.56" + " EUR")) == "234.56"
  {
    NumericCharsAppend(",", "234.56" + " EUR");
    NumericCharsAppend("234.56", " EUR");
    NumericCharsKeeps("234.56");
    assert NumericChars(" EUR") == [];
    assert NumericChars(",") == [];
  }

  /** The text of the amount test, "Subtotal: $100.00\nTax: $8.50\nTotal: $108.50",
      one dollar amount on each of three lines, cut at the edges of the
      amounts. */
  const AmountTestText: string := "Subtotal: " + "$100.00" + "\nTax: " + "$8.50" + "\nTotal: " + "$108.50"

  /** The amounts of the test text come first from the symbol-first
      pattern, in order, with the values 100.00, 8.50 and 108.50, all in
      dollars. */
  lemma AmountTestValues()
    ensures |ExtractAmounts(AmountTestText)| >= 3
    ensures ExtractAmounts(AmountTestText)[0].numericValue == "100.00"
    ensures ExtractAmounts(AmountTestText)[1].numericValue == "8.50"
    ensures ExtractAmounts(AmountTestText)[2].numericValue == "108.50"
    ensures ExtractAmounts(AmountTestText)[0].currency == Some(USD)
    ensures ExtractAmounts(AmountTestText)[1].currency == Some(USD)
    ensures ExtractAmounts(AmountTestText)[2].currency == Some(USD)
  {
    var t := AmountTestText;
    AmountTestSpans();
    AmountTestGroups();
    AmountTestPieces();
    DollarRecord(t, 0, Span(10, 17), "100.00");
    DollarRecord(t, 1, Span(23, 28), "8.50");
    DollarRecord(t, 2, Span(36, 43), "108.50");
  }

  /** The `k`-th amount match is `$` and a number without commas: its record
      is worth that number, in dollars. */
  lemma DollarRecord(t: string, k: nat, sp: Span, num: string)
    requires k < |Scans(AmountFamily(), t)| && Scans(AmountFamily(), t)[k] == sp
    requires sp.start < sp.end <= |t| && t[sp.start..sp.end] == "$" + num
    requires DigitsAndDots(num)
    ensures k < |ExtractAmounts(t)|
    ensures ExtractAmounts(t)[k].numericValue == num && ExtractAmounts(t)[k].currency == Some(USD)
  {
    var r := ExtractAmounts(t);
    DollarValue(t, sp, r[k], num);
  }

  /** The first three amount matches of the test text are its dollar amounts. */
  lemma AmountTestSpans()
    ensures var all := Scans(AmountFamily(), AmountTestText);
            && |all| >= 3
            && all[0] == Span(10, 17) && all[1] == Span(23, 28) && all[2] == Span(36, 43)
  {
    var spans := AmountTestScan();
    ScansStart(AmountFamily(), AmountTestText);
  }

  /** Nothing but digits and dots. */
  predicate DigitsAndDots(s: string) {
    forall q | 0 <= q < |s| :: IsDigit(s[q]) || s[q] == '.'
  }

  /** The symbol-first pattern finds the three dollar amounts of the test text. */
  lemma AmountTestScan() returns (spans: seq<Span>)
    ensures spans == [Span(10, 17), Span(23, 28), Span(36, 43)]
    ensures FindIter(AmountSymbolFirst(), AmountTestText) == spans
  {
    var t := AmountTestText;
    var m := AmountSymbolFirst();
    spans := [Span(10, 17), Span(23, 28), Span(36, 43)];
    AmountTestMatches();
    assert IsScan(m, t, 43, []);
    ScanAfterGap(m, t, 28, Span(36, 43), []);
    ScanAfterGap(m, t, 17, Span(23, 28), [Span(36, 43)]);
    ScanAfterGap(m, t, 0, Span(10, 17), [Span(23, 28), Span(36, 43)]);
    ScanUnique(m, t, 0, spans);
  }

  /** Where the symbol-first pattern matches in the test text, and where not. */
  lemma AmountTestMatches()
    ensures |AmountTestText| == 43
    ensures NoMatchIn(AmountSymbolFirst(), AmountTestText, 0, 10)
    ensures AmountSymbolFirst()(AmountTestText, 10) == Some(17)
    ensures NoMatchIn(AmountSymbolFirst(), AmountTestText, 17, 23)
    ensures AmountSymbolFirst()(AmountTestText, 23) == Some(28)
    ensures NoMatchIn(AmountSymbolFirst(), AmountTestText, 28, 36)
    ensures AmountSymbolFirst()(AmountTestText, 36) == Some(43)
  {
    var t := AmountTestText;
    var a, x, b, y, c, z := "Subtotal: ", "$100.00", "\nTax: ", "$8.50", "\nTotal: ", "$108.50";
    SixPieces(a, x, b, y, c, z);
    AmountTestPieces();
    NoSymbolIn(t, 0, a);
    DollarDecimalIn(t, 10, x);
    NoSymbolIn(t, 17, b);
    DollarDecimalIn(t, 23, y);
    NoSymbolIn(t, 28, c);
    DollarDecimalIn(t, 36, z);
  }

  /** The pieces of the test text: symbol-free text around the amounts. */
  lemma AmountTestPieces()
    ensures NoSymbol("Subtotal: ") && NoSymbol("\nTax: ") && NoSymbol("\nTotal: ")
    ensures DollarDecimal("$100.00") && DollarDecimal("$8.50") && DollarDecimal("$108.50")
    ensures DigitsAndDots("100.00") && DigitsAndDots("8.50") && DigitsAndDots("108.50")
  {
  }

  lemma AmountTestGroups()
    ensures AmountTestText[10..17] == "$" + "100.00"
    ensures AmountTestText[23..28] == "$" + "8.50"
    ensures AmountTestText[36..43] == "$" + "108.50"
  {
    SixPieces("Subtotal: ", "$100.00", "\nTax: ", "$8.50", "\nTotal: ", "$108.50");
    assert "$100.00" == "$" + "100.00" && "$8.50" == "$" + "8.50" && "$108.50" == "$" + "108.50";
  }

  /** No currency symbol anywhere in `s`. */
  predicate NoSymbol(s: string) {
    forall q | 0 <= q < |s| :: !IsCurrencySymbol(s[q])
  }

  /** `$`, digits, a dot and two digits. */
  predicate DollarDecimal(x: string) {
    && 5 <= |x| && x[0] == '$' && x[|x| - 3] == '.'
    && DigitsAt(x, 1, |x| - 4) && DigitsAt(x, |x| - 2, 2)
  }

  /** A symbol-free piece of the text holds no symbol-first match. */
  lemma NoSymbolIn(t: string, i: nat, a: string)
    requires i + |a| <= |t| && t[i..i + |a|] == a && NoSymbol(a)
    ensures NoMatchIn(AmountSymbolFirst(), t, i, i + |a|)
  {
    assert forall q | i <= q < i + |a| :: t[q] == a[q - i];
    NoSymbolNoMatch(t, i, i + |a|);
  }

  /** A dollar amount with two decimals, as a piece of the text, is a whole
      symbol-first match. */
  lemma DollarDecimalIn(t: string, i: nat, x: string)
    requires i + |x| <= |t| && t[i..i + |x|] == x && DollarDecimal(x)
    ensures MarkerFirst(t, i, false) == Some(i + |x|)
  {
    var n := |x| - 4;
    assert t[i] == x[0] && t[i + n + 1] == x[n + 1];
    DigitsIn(t, i, x, 1, n);
    DigitsIn(t, i, x, n + 2, 2);
    DollarDecimalAt(t, i, n);
  }

  /** `$`, a digit run of length `n`, a dot and two digits: a symbol-first
      amount that ends after the two decimals. */
  lemma DollarDecimalAt(t: string, i: nat, n: nat)
    requires 1 <= n && i + n + 4 <= |t| && t[i] == '$' && t[i + n + 1] == '.'
    requires DigitsAt(t, i + 1, n) && DigitsAt(t, i + n + 2, 2)
    ensures MarkerFirst(t, i, false) == Some(i + n + 4)
  {
    var g := i + 1 + n;
    assert DigitRunEnd(t, i + 1) == g;
    assert !GroupAt(t, g) && DecimalAt(t, g);
    assert NumberEnd(t, i + 1) == Some(g + 3);
    assert IsDigit(t[i + 1]);
  }

  /** The symbol-first pattern matches nowhere in a stretch without a symbol. */
  lemma NoSymbolNoMatch(t: string, lo: nat, hi: nat)
    requires lo <= hi <= |t|
    requires forall q | lo <= q < hi :: !IsCurrencySymbol(t[q])
    ensures NoMatchIn(AmountSymbolFirst(), t, lo, hi)
  {
    forall q | lo <= q < hi
      ensures AmountSymbolFirst()(t, q).None?
    {
      assert !MarkerAt(t, q, false);
    }
  }

  /** An amount whose text is `$` and then a number without commas is worth
      that number, in dollars. */
  lemma DollarValue(t: string, sp: Span, a: AmountEntry, num: string)
    requires InText(t, sp) && GoodAmount(t, sp, a) && t[sp.start..sp.end] == "$" + num
    requires DigitsAndDots(num)
    ensures a.numericValue == num && a.currency == Some(USD)
  {
    NumericCharsAppend("$", num);
    NumericCharsKeeps(num);
    assert NumericChars("$") == [];
    assert ("$" + num)[0] == '$';
  }

  /** A space or a character of a number: all an amount match holds
      besides its marker. */
  predicate IsFiller(c: char) {
    IsSpace(c) || IsNumberChar(c)
  }

  /** `raw` holds marker `k` at `a` and nothing but filler around it. */
  predicate MarkedOnce(raw: string, a: nat, k: nat) {
    && k < |Markers| && a + |Markers[k]| <= |raw|
    && raw[a..a + |Markers[k]|] == Markers[k]
    && forall q | 0 <= q < |raw| && !(a <= q < a + |Markers[k]|) :: IsFiller(raw[q])
  }

  /** Every amount match is a marker with filler around it, and holds a digit. */
  lemma AmountMatchShape(t: string, sp: Span) returns (a: nat, k: nat)
    requires AmountMatch(t, sp)
    ensures MarkedOnce(Group(t, sp), a, k)
    ensures exists q | 0 <= q < |Group(t, sp)| :: IsDigit(Group(t, sp)[q])
  {
    var i, e := sp.start, sp.end;
    var j :| 0 <= j < |AmountFamily()| && AmountFamily()[j](t, i) == Some(e);
    if j == 0 || j == 2 {
      assert MarkerFirst(t, i, j == 2) == Some(e);
      k := MarkerFirstShape(t, i, e, j == 2);
      a := 0;
      assert IsDigit(Group(t, sp)[e - i - 1]);
    } else {
      assert MarkerLast(t, i, j == 3) == Some(e);
      a, k := MarkerLastShapeOf(t, i, e, j == 3);
      assert IsDigit(Group(t, sp)[0]);
    }
  }

  lemma MarkerFirstShape(t: string, i: nat, e: nat, codes: bool) returns (k: nat)
    requires i <= |t| && MarkerFirst(t, i, codes) == Some(e)
    ensures MarkedOnce(t[i..e], 0, k)
    ensures IsDigit(t[i..e][e - i - 1])
  {
    var w := MarkerWidth(codes);
    k := if codes then CodeIndex(t, i) else SymbolIndex(t[i]);
    assert t[i..i + w] == Markers[k] by {
      if !codes {
        assert t[i..i + 1] == [t[i]];
      }
    }
    FirstShape(t, i, e, k);
  }

  /** A marker at the start of `t[i..e]` with filler after it, ending in a digit. */
  lemma FirstShape(t: string, i: nat, e: nat, k: nat)
    requires i < e <= |t| && k < |Markers| && i + |Markers[k]| < e
    requires t[i..i + |Markers[k]|] == Markers[k]
    requires forall q | i + |Markers[k]| <= q < e :: IsFiller(t[q])
    requires IsDigit(t[e - 1])
    ensures MarkedOnce(t[i..e], 0, k)
    ensures IsDigit(t[i..e][e - i - 1])
  {
    var raw := t[i..e];
    var w := |Markers[k]|;
    assert raw[0..w] == t[i..i + w];
    assert forall q | w <= q < |raw| :: raw[q] == t[i + q];
    assert raw[e - i - 1] == t[e - 1];
  }

  lemma MarkerLastShapeOf(t: string, i: nat, e: nat, codes: bool) returns (a: nat, k: nat)
    requires i <= |t| && MarkerLast(t, i, codes) == Some(e)
    ensures MarkedOnce(t[i..e], a, k)
    ensures IsDigit(t[i..e][0])
  {
    if codes {
      a, k := CodeLastShape(t, i, e);
    } else {
      a, k := SymbolLastShape(t, i, e);
    }
  }

  lemma SymbolLastShape(t: string, i: nat, e: nat) returns (a: nat, k: nat)
    requires i <= |t| && MarkerLast(t, i, false) == Some(e)
    ensures MarkedOnce(t[i..e], a, k)
    ensures IsDigit(t[i..e][0])
  {
    SymbolLastFacts(t, i, e);
    a, k := LastShape(t, i, e, SymbolIndex(t[e - 1]));
  }

  lemma CodeLastShape(t: string, i: nat, e: nat) returns (a: nat, k: nat)
    requires i <= |t| && MarkerLast(t, i, true) == Some(e)
    ensures MarkedOnce(t[i..e], a, k)
    ensures IsDigit(t[i..e][0])
  {
    CodeLastFacts(t, i, e);
    a, k := LastShape(t, i, e, CodeIndex(t, e - 3));
  }

  lemma SymbolLastFacts(t: string, i: nat, e: nat)
    requires i <= |t| && MarkerLast(t, i, false) == Some(e)
    ensures i + 1 < e <= |t| && IsDigit(t[i]) && IsCurrencySymbol(t[e - 1])
    ensures forall q | i <= q < e - 1 :: IsFiller(t[q])
  {
  }

  lemma CodeLastFacts(t: string, i: nat, e: nat)
    requires i <= |t| && MarkerLast(t, i, true) == Some(e)
    ensures i + 3 < e <= |t| && IsDigit(t[i]) && CodeAt(t, e - 3)
    ensures forall q | i <= q < e - 3 :: IsFiller(t[q])
  {
  }

  /** A marker at the end of `t[i..e]` with filler before it. */
  lemma LastShape(t: string, i: nat, e: nat, k: nat) returns (a: nat, k': nat)
    requires i < e <= |t| && k < |Markers| && i + |Markers[k]| < e
    requires t[e - |Markers[k]|..e] == Markers[k]
    requires forall q | i <= q < e - |Markers[k]| :: IsFiller(t[q])
    ensures MarkedOnce(t[i..e], a, k')
  {
    var raw := t[i..e];
    var w := |Markers[k]|;
    a, k' := |raw| - w, k;
    assert raw[a..a + w] == t[e - w..e];
    assert forall q | 0 <= q < a :: raw[q] == t[i + q];
  }

  /** The symbol marker a currency symbol is. */
  function SymbolIndex(c: char): (k: nat)
    requires IsCurrencySymbol(c)
    ensures k < 4 && Markers[k] == [c]
  {
    if c == '$' then 0 else if c == '\U{20AC}' then 1 else if c == '\U{A3}' then 2 else 3
  }

  /** The code marker at `j`. */
  function CodeIndex(t: string, j: nat): (k: nat)
    requires CodeAt(t, j)
    ensures 4 <= k < 8 && j + 3 <= |t| && t[j..j + 3] == Markers[k]
  {
    if LiteralAt(t, j, "USD") then 4
    else if LiteralAt(t, j, "EUR") then 5
    else if LiteralAt(t, j, "GBP") then 6
    else 7
  }

  /** A marker surrounded by filler is the only marker the text contains. */
  lemma OnlyMarker(raw: string, a: nat, k: nat)
    requires MarkedOnce(raw, a, k)
    ensures forall j | 0 <= j < |Markers| :: Contains(raw, Markers[j]) <==> j == k
  {
    var w := |Markers[k]|;
    assert LiteralAt(raw, a, Markers[k]);
    forall j | 0 <= j < |Markers| && Contains(raw, Markers[j])
      ensures j == k
    {
      var m := Markers[j];
      var q :| 0 <= q <= |raw| - |m| && LiteralAt(raw, q, m);
      assert forall x | 0 <= x < |m| :: raw[q + x] == m[x];
      MarkerShape(j);
      MarkerShape(k);
      assert raw[q] == m[0] && raw[q + |m| - 1] == m[|m| - 1];
      assert a <= q && q + |m| <= a + w;
      assert raw[q] == Markers[k][q - a];
      assert m == raw[q..q + |m|];
    }
  }

  /** A symbol marker is one currency symbol, a code marker three capitals;
      neither is filler, and no two markers are the same. */
  lemma MarkerShape(k: nat)
    requires k < |Markers|
    ensures k < 4 ==> |Markers[k]| == 1 && IsCurrencySymbol(Markers[k][0]) && !IsUpper(Markers[k][0])
    ensures 4 <= k ==> |Markers[k]| == 3 && forall x | 0 <= x < 3 :: IsUpper(Markers[k][x])
    ensures forall x | 0 <= x < |Markers[k]| :: !IsFiller(Markers[k][x])
    ensures forall j | 0 <= j < |Markers| && j != k :: Markers[j] != Markers[k]
  {
  }

  /** The currency of an amount is the currency of the one marker its
      matched text holds: that marker is present, no other is. */
  predicate OwnMarkerCurrency(r: AmountEntry) {
    exists k | 0 <= k < |Markers| ::
      && (forall j | 0 <= j < |Markers| :: Contains(r.amountStr, Markers[j]) <==> j == k)
      && r.currency == Some(MarkerCurrencies[k])
  }

  /** Every amount's currency comes from the single marker in its text, so
      the order of the currency chain never decides between two. */
  lemma AmountCurrencyIsOwnMarker(t: string)
    ensures forall r | r in ExtractAmounts(t) :: OwnMarkerCurrency(r)
  {
    var spans := Scans(AmountFamily(), t);
    var rs := ExtractAmounts(t);
    ScansMatch(AmountFamily(), t);
    forall x | 0 <= x < |rs|
      ensures OwnMarkerCurrency(rs[x])
    {
      AmountCurrencyOf(t, spans[x], rs[x]);
    }
  }

  lemma AmountCurrencyOf(t: string, sp: Span, r: AmountEntry)
    requires AmountMatch(t, sp)
    requires r.amountStr == Group(t, sp) && r.currency == InferCurrency(r.amountStr)
    ensures OwnMarkerCurrency(r)
  {
    var raw := Group(t, sp);
    var a, k := AmountMatchShape(t, sp);
    OnlyMarker(raw, a, k);
    var c := InferCurrency(raw);
    var k' :| 0 <= k' < |Markers| && Contains(raw, Markers[k']) && c.value == MarkerCurrencies[k'];
    assert k' == k;
  }
}

=== FILE: date_patterns.dfy ===
/** The three date patterns of `extract_dates`, all matched under
    `re.IGNORECASE` (utils/parser.py:62-66):
      1. `\d{1,2}[/-]\d{1,2}[/-]\d{2,4}`                       numeric
      2. `\d{1,2}\s(?:Jan|...|Dec)[a-z]*\s\d{2,4}`             day month year
      3. `(?:Jan|...|Dec)[a-z]*\s\d{1,2}[,]?\s\d{2,4}`         month day, year */
module DatePatterns {
  import opened Wrappers
  import opened Text

  const Months: seq<string> :=
    ["jan", "feb", "mar", "apr", "may", "jun", "jul", "aug", "sep", "oct", "nov", "dec"]

  /** `(?:Jan|Feb|...|Dec)` at `j`, case ignored. The twelve names are
      distinct and equally long, so which branch matches does not matter. */
  predicate MonthAt(t: string, j: nat) {
    exists m | 0 <= m < |Months| :: FoldAt(t, j, Months[m])
  }

  predicate IsDateSep(c: char) {
    c == '/' || c == '-'
  }

  /** `\d{lo,hi}` as the last element of a pattern: greedy, so it takes up to
      `hi` digits and fails with fewer than `lo`. */
  function DigitsUpTo(t: string, i: nat, lo: nat, hi: nat): (r: Option<nat>)
    requires i <= |t| && lo <= hi
    ensures r.Some? ==> i + lo <= r.value <= i + hi && r.value <= |t| && DigitsAt(t, i, r.value - i)
    ensures r.None? <==> !DigitsAt(t, i, lo)
  {
    var run := DigitRunEnd(t, i) - i;
    var n := if run < hi then run else hi;
    if n >= lo then Some(i + n) else None
  }

  /** The year `\d{2,4}` that ends every date pattern. */
  function Year(t: string, i: nat): (r: Option<nat>)
    requires i <= |t|
    ensures r.Some? ==> i + 2 <= r.value <= |t|
  {
    DigitsUpTo(t, i, 2, 4)
  }

  /** `n` digits then a date separator at `i`. */
  predicate DigitsThenSep(t: string, i: nat, n: nat) {
    DigitsAt(t, i, n) && i + n < |t| && IsDateSep(t[i + n])
  }

  /** `\d{1,2}[/-]\d{2,4}`: the second field and the year of a numeric date. */
  function NumericRest(t: string, j: nat): (r: Option<nat>)
    requires j <= |t|
    ensures r.Some? ==> j < r.value <= |t|
  {
    Or(if DigitsThenSep(t, j, 2) then Year(t, j + 3) else None,
       if DigitsThenSep(t, j, 1) then Year(t, j + 2) else None)
  }

  /** Pattern 1 at `i`: each `\d{1,2}` tries two digits before one. */
  function NumericDate(t: string, i: nat): (r: Option<nat>)
    requires i <= |t|
    ensures r.Some? ==> i < r.value <= |t| && IsDigit(t[i])
  {
    Or(if DigitsThenSep(t, i, 2) then NumericRest(t, i + 3) else None,
       if DigitsThenSep(t, i, 1) then NumericRest(t, i + 2) else None)
  }

  /** `\s\d{2,4}` at `k`. */
  function SpaceYear(t: string, k: nat): (r: Option<nat>)
    requires k <= |t|
    ensures r.Some? ==> k < r.value <= |t|
  {
    if k < |t| && IsSpace(t[k]) then Year(t, k + 1) else None
  }

  /** `[,]?\s\d{2,4}` at `k`, the comma tried first. */
  function CommaYear(t: string, k: nat): (r: Option<nat>)
    requires k <= |t|
    ensures r.Some? ==> k < r.value <= |t|
  {
    Or(if k < |t| && t[k] == ',' then SpaceYear(t, k + 1) else None, SpaceYear(t, k))
  }

  /** `\d{1,2}[,]?\s\d{2,4}` at `k`: the day and year after a month name. */
  function DayYear(t: string, k: nat): (r: Option<nat>)
    requires k <= |t|
    ensures r.Some? ==> k < r.value <= |t|
  {
    Or(if DigitsAt(t, k, 2) then CommaYear(t, k + 2) else None,
       if DigitsAt(t, k, 1) then CommaYear(t, k + 1) else None)
  }

  /** What follows `\s` after the month word: the year in pattern 2
      (`yearNext`), the day and year in pattern 3. */
  function AfterMonth(t: string, k: nat, yearNext: bool): (r: Option<nat>)
    requires k <= |t|
    ensures r.Some? ==> k < r.value <= |t|
  {
    if yearNext then Year(t, k) else DayYear(t, k)
  }

  /** `[a-z]*\s` followed by the rest, with the letters starting at `p`: the
      greedy `[a-z]*` has reached `q` and gives letters back one by one. */
  function LettersBack(t: string, p: nat, q: nat, yearNext: bool): (r: Option<nat>)
    requires p <= q <= |t|
    ensures r.Some? ==> p < r.value <= |t|
    decreases q - p
  {
    Or(if q < |t| && IsSpace(t[q]) then AfterMonth(t, q + 1, yearNext) else None,
       if q == p then None else LettersBack(t, p, q - 1, yearNext))
  }

  /** `(?:Jan|...|Dec)[a-z]*\s` followed by the rest, at `j`. */
  function MonthWord(t: string, j: nat, yearNext: bool): (r: Option<nat>)
    requires j <= |t|
    ensures r.Some? ==> j + 3 < r.value <= |t| && MonthAt(t, j)
  {
    if MonthAt(t, j) then LettersBack(t, j + 3, LetterRunEnd(t, j + 3), yearNext) else None
  }

  /** Pattern 2 at `i`. */
  function DayMonthDate(t: string, i: nat): (r: Option<nat>)
    requires i <= |t|
    ensures r.Some? ==> i < r.value <= |t| && IsDigit(t[i])
  {
    Or(if DigitsAt(t, i, 2) && i + 2 < |t| && IsSpace(t[i + 2]) then MonthWord(t, i + 3, true) else None,
       if DigitsAt(t, i, 1) && i + 1 < |t| && IsSpace(t[i + 1]) then MonthWord(t, i + 2, true) else None)
  }

  /** Pattern 3 at `i`. */
  function MonthDayDate(t: string, i: nat): (r: Option<nat>)
    requires i <= |t|
    ensures r.Some? ==> i < r.value <= |t| && MonthAt(t, i)
  {
    MonthWord(t, i, false)
  }

  /** "01/15/2023" is one numeric date, matched to its end. */
  lemma NumericDateExample()
    ensures NumericDate("01/15/2023", 0) == Some(10)
  {
    var t := "01/15/2023";
    assert DigitsThenSep(t, 0, 2);
    assert DigitsThenSep(t, 3, 2);
    assert DigitRunEnd(t, 6) == 10 by {
      assert DigitRunEnd(t, 10) == 10;
      assert DigitRunEnd(t, 9) == 10;
      assert DigitRunEnd(t, 8) == 10;
      assert DigitRunEnd(t, 7) == 10;
    }
    assert Year(t, 6) == Some(10);
  }

  /** `dd/dd/dddd` (either separator) at `i` is a whole numeric date: the
      year takes four digits and stops there. */
  lemma NumericDateShape(t: string, i: nat)
    requires i + 10 <= |t| && IsDateSep(t[i + 2]) && IsDateSep(t[i + 5])
    requires DigitsAt(t, i, 2) && DigitsAt(t, i + 3, 2) && DigitsAt(t, i + 6, 4)
    ensures NumericDate(t, i) == Some(i + 10)
  {
    assert DigitsThenSep(t, i, 2) && DigitsThenSep(t, i + 3, 2);
    assert IsDigit(t[i + 6]) && IsDigit(t[i + 7]) && IsDigit(t[i + 8]) && IsDigit(t[i + 9]);
    assert Year(t, i + 6) == Some(i + 10);
  }

  /** The numeric date pattern matches nowhere in a stretch without a digit. */
  lemma NoDigitNoDate(t: string, lo: nat, hi: nat)
    requires lo <= hi <= |t|
    requires forall q | lo <= q < hi :: !IsDigit(t[q])
    ensures forall q | lo <= q < hi :: NumericDate(t, q).None?
  {
  }
}

=== FILE: dates.dfy ===
/** `extract_dates` (utils/parser.py:50-89): every match of the three date
    patterns, kept when the date parser accepts its text. The parser
    (`dateutil`'s `parse(date_str, fuzzy=True)` followed by
    `strftime('%Y-%m-%d')`) is not modelled: it is the parameter `parse`,
    which gives the formatted date or `None` where it raises. */
module Dates {
  import opened Wrappers
  import opened Scan
  import opened Patterns
  import opened Entities
  import opened Lists
  import opened Text
  import DatePatterns

  /** The inner `try` for one date match: a record when the parser accepts
      the matched text, `None` where the `except` skips it (and for a span
      that is not inside the text). */
  function DateOf(t: string, parse: string -> Option<string>, sp: Span): (r: Option<DateEntry>)
    ensures r.Some? ==> r.value.position == sp && GoodDate(t, parse, r.value)
  {
    if !InText(t, sp) then None
    else
      var s := Group(t, sp);
      match parse(s)
      case None => None
      case Some(p) => Some(DateEntry(s, p, sp))
  }

  /** `extract_dates`: the records of the date matches the parser accepts,
      in family order. */
  function ExtractDates(t: string, parse: string -> Option<string>): (r: seq<DateEntry>)
    ensures |r| <= |Scans(DateFamily(), t)|
    ensures forall k | 0 <= k < |r| ::
              r[k].position in Scans(DateFamily(), t) && GoodDate(t, parse, r[k])
  {
    var spans := Scans(DateFamily(), t);
    var f := (sp: Span) => DateOf(t, parse, sp);
    var r := FilterMap(f, spans);
    FilterMapFrom(f, spans);
    forall k | 0 <= k < |r|
      ensures r[k].position in spans && GoodDate(t, parse, r[k])
    {
      var x :| x in spans && f(x) == Some(r[k]);
    }
    r
  }

  /** A date record holds the text of its span and what the parser made
      of that text. */
  predicate GoodDate(t: string, parse: string -> Option<string>, e: DateEntry) {
    && InText(t, e.position)
    && e.dateStr == Group(t, e.position)
    && parse(e.dateStr) == Some(e.parsed)
  }

  /** A parser that accepts every matched text loses no match: the `k`-th
      record is the `k`-th match. */
  lemma AllDatesKept(t: string, parse: string -> Option<string>)
    requires forall k | 0 <= k < |Scans(DateFamily(), t)| ::
               parse(Group(t, Scans(DateFamily(), t)[k])).Some?
    ensures |ExtractDates(t, parse)| == |Scans(DateFamily(), t)|
    ensures forall k | 0 <= k < |Scans(DateFamily(), t)| ::
              ExtractDates(t, parse)[k].position == Scans(DateFamily(), t)[k]
  {
    var spans := Scans(DateFamily(), t);
    var f := (sp: Span) => DateOf(t, parse, sp);
    FilterMapAll(f, spans);
  }

  /** A match the parser rejects is dropped without affecting the others:
      the records are those of the matches before it followed by those of
      the matches after it. */
  lemma RejectedDateDropped(t: string, parse: string -> Option<string>, k: nat)
    requires k < |Scans(DateFamily(), t)|
    requires parse(Group(t, Scans(DateFamily(), t)[k])).None?
    ensures var spans := Scans(DateFamily(), t);
            var f := (sp: Span) => DateOf(t, parse, sp);
            ExtractDates(t, parse) == FilterMap(f, spans[..k]) + FilterMap(f, spans[k + 1..])
  {
    var spans := Scans(DateFamily(), t);
    var f := (sp: Span) => DateOf(t, parse, sp);
    DropRejected(f, spans, k);
  }

  /** The first two lines of the date test, "Invoice Date: 01/15/2023\nDue
      Date: 02/15/2023", cut at the edges of the dates. */
  const DateTestText: string := "Invoice Date: " + "01/15/2023" + "\nDue Date: " + "02/15/2023"

  /** When the date parser accepts both dates of the test text, they are
      its first two records, in order, each with its text, its span and
      what the parser made of it. */
  lemma DateTestRecords(parse: string -> Option<string>)
    requires parse("01/15/2023").Some? && parse("02/15/2023").Some?
    ensures |ExtractDates(DateTestText, parse)| >= 2
    ensures ExtractDates(DateTestText, parse)[0] ==
              DateEntry("01/15/2023", parse("01/15/2023").value, Span(14, 24))
    ensures ExtractDates(DateTestText, parse)[1] ==
              DateEntry("02/15/2023", parse("02/15/2023").value, Span(35, 45))
  {
    var t := DateTestText;
    var spans := DateTestScan();
    ScansStart(DateFamily(), t);
    var rest := Scans(DateFamily()[1..], t);
    var f := (sp: Span) => DateOf(t, parse, sp);
    DateTestGroups();
    FilterMapAppend(f, spans, rest);
    assert spans[1..] == [Span(35, 45)] && spans[1..][1..] == [];
    assert FilterMap(f, spans) == [f(spans[0]).value, f(spans[1]).value];
    assert ExtractDates(t, parse) == FilterMap(f, spans + rest);
  }

  /** The numeric date pattern finds the two dates of the test text. */
  lemma DateTestScan() returns (spans: seq<Span>)
    ensures spans == [Span(14, 24), Span(35, 45)]
    ensures FindIter(DateNumeric(), DateTestText) == spans
  {
    var t := DateTestText;
    var m := DateNumeric();
    spans := [Span(14, 24), Span(35, 45)];
    DateTestMatches();
    assert IsScan(m, t, 45, []);
    ScanAfterGap(m, t, 24, Span(35, 45), []);
    ScanAfterGap(m, t, 0, Span(14, 24), [Span(35, 45)]);
    ScanUnique(m, t, 0, spans);
  }

  /** Where the numeric date pattern matches in the test text, and where not. */
  lemma DateTestMatches()
    ensures |DateTestText| == 45
    ensures NoMatchIn(DateNumeric(), DateTestText, 0, 14)
    ensures DateNumeric()(DateTestText, 14) == Some(24)
    ensures NoMatchIn(DateNumeric(), DateTestText, 24, 35)
    ensures DateNumeric()(DateTestText, 35) == Some(45)
  {
    var t := DateTestText;
    var a, x, b, y := "Invoice Date: ", "01/15/2023", "\nDue Date: ", "02/15/2023";
    FourPieces(a, x, b, y);
    DateTestPieces();
    NoDigitIn(t, 0, a);
    NumericDateIn(t, 14, x);
    NoDigitIn(t, 24, b);
    NumericDateIn(t, 35, y);
  }

  lemma DateTestPieces()
    ensures NoDigit("Invoice Date: ") && NoDigit("\nDue Date: ")
    ensures NumericDateText("01/15/2023") && NumericDateText("02/15/2023")
  {
  }

  lemma DateTestGroups()
    ensures DateTestText[14..24] == "01/15/2023" && DateTestText[35..45] == "02/15/2023"
  {
    FourPieces("Invoice Date: ", "01/15/2023", "\nDue Date: ", "02/15/2023");
  }

  /** No digit anywhere in `s`. */
  predicate NoDigit(s: string) {
    forall q | 0 <= q < |s| :: !IsDigit(s[q])
  }

  /** `dd/dd/dddd`, with `/` or `-` between the fields. */
  predicate NumericDateText(x: string) {
    && |x| == 10 && DatePatterns.IsDateSep(x[2]) && DatePatterns.IsDateSep(x[5])
    && DigitsAt(x, 0, 2) && DigitsAt(x, 3, 2) && DigitsAt(x, 6, 4)
  }

  /** A digit-free piece of the text holds no numeric date. */
  lemma NoDigitIn(t: string, i: nat, a: string)
    requires i + |a| <= |t| && t[i..i + |a|] == a && NoDigit(a)
    ensures NoMatchIn(DateNumeric(), t, i, i + |a|)
  {
    assert forall q | i <= q < i + |a| :: t[q] == a[q - i];
    DatePatterns.NoDigitNoDate(t, i, i + |a|);
  }

  /** A `dd/dd/dddd` piece of the text is a whole numeric date. */
  lemma NumericDateIn(t: string, i: nat, x: string)
    requires i + |x| <= |t| && t[i..i + |x|] == x && NumericDateText(x)
    ensures DateNumeric()(t, i) == Some(i + 10)
  {
    assert t[i + 2] == x[2] && t[i + 5] == x[5];
    DigitsIn(t, i, x, 0, 2);
    DigitsIn(t, i, x, 3, 2);
    DigitsIn(t, i, x, 6, 4);
    DatePatterns.NumericDateShape(t, i);
  }
}

=== FILE: email_pattern.dfy ===
/** The email pattern of `extract_emails`, matched case-sensitively
    (utils/parser.py:199): `[a-zA-Z0-9._%+-]+@[a-zA-Z0-9.-]+\.[a-zA-Z]{2,}` */
module EmailPattern {
  import opened Wrappers
  import opened Text

  /** `[a-zA-Z0-9._%+-]`, the characters before the `@`. */
  predicate IsLocalChar(c: char) {
    IsLetter(c) || IsDigit(c) || c == '.' || c == '_' || c == '%' || c == '+' || c == '-'
  }

  /** `[a-zA-Z0-9.-]`, the characters of the domain. */
  predicate IsDomainChar(c: char) {
    IsLetter(c) || IsDigit(c) || c == '.' || c == '-'
  }

  /** `[a-zA-Z]{2,}` at `k`, greedy as the last element. */
  function TopLevel(t: string, k: nat): (r: Option<nat>)
    requires k <= |t|
    ensures r.Some? ==> k + 2 <= r.value <= |t| && IsLetter(t[r.value - 1])
  {
    var e := LetterRunEnd(t, k);
    if e - k >= 2 then Some(e) else None
  }

  /** The domain run from `q` to `q + d`, then `\.` and the top-level part;
      on failure the run gives back one character at a time. */
  function DomainBack(t: string, q: nat, d: nat): (r: Option<nat>)
    requires 1 <= d && q + d <= |t|
    ensures r.Some? ==> q + 4 <= r.value <= |t| && IsLetter(t[r.value - 1])
    decreases d
  {
    var here := if q + d < |t| && t[q + d] == '.' then TopLevel(t, q + d + 1) else None;
    if here.Some? || d == 1 then here else DomainBack(t, q, d - 1)
  }

  /** `[a-zA-Z0-9.-]+\.[a-zA-Z]{2,}` at `q`. */
  function Domain(t: string, q: nat): (r: Option<nat>)
    requires q <= |t|
    ensures r.Some? ==> q + 4 <= r.value <= |t| && IsLetter(t[r.value - 1])
  {
    var d := RunEnd(t, q, IsDomainChar) - q;
    if d >= 1 then DomainBack(t, q, d) else None
  }

  /** The local part from `i` to `i + l`, then `@` and the domain; on failure
      the local part gives back one character at a time. */
  function LocalBack(t: string, i: nat, l: nat): (r: Option<nat>)
    requires 1 <= l && i + l <= |t|
    ensures r.Some? ==> i + 6 <= r.value <= |t| && IsLetter(t[r.value - 1])
    ensures r.Some? ==> '@' in t[i..r.value]
    decreases l
  {
    var here := if i + l < |t| && t[i + l] == '@' then Domain(t, i + l + 1) else None;
    if here.Some? then
      assert t[i..here.value][l] == '@';
      here
    else if l == 1 then None
    else LocalBack(t, i, l - 1)
  }

  /** The email pattern at `i`. */
  function Email(t: string, i: nat): (r: Option<nat>)
    requires i <= |t|
    ensures r.Some? ==> i + 6 <= r.value <= |t| && IsLetter(t[r.value - 1])
    ensures r.Some? ==> IsLocalChar(t[i]) && '@' in t[i..r.value]
  {
    var l := RunEnd(t, i, IsLocalChar) - i;
    if l >= 1 then LocalBack(t, i, l) else None
  }
}

=== FILE: emails.dfy ===
/** `extract_emails` (utils/parser.py:187-214): every match of the email
    pattern, recorded as matched. */
module Emails {
  import opened Wrappers
  import opened Text
  import opened EmailPattern
  import opened Scan
  import opened Patterns
  import opened Entities

  /** What an email match is: at least six characters, starting with a
      local-part character, holding an '@', ending with a letter of the
      top-level domain. */
  predicate EmailText(s: string) {
    |s| >= 6 && IsLocalChar(s[0]) && '@' in s && IsLetter(s[|s| - 1])
  }

  /** `extract_emails`: one record per email match, left to right. */
  function ExtractEmails(t: string): (r: seq<EmailEntry>)
    ensures |r| == |Scans(EmailFamily(), t)|
    ensures forall k | 0 <= k < |r| ::
              && r[k].position == Scans(EmailFamily(), t)[k]
              && r[k].email == Group(t, r[k].position)
              && EmailText(r[k].email)
  {
    var spans := Scans(EmailFamily(), t);
    EmailsWellFormed(t);
    seq(|spans|, k requires 0 <= k < |spans| => EmailEntry(Group(t, spans[k]), spans[k]))
  }

  /** Every email match is an email text. */
  lemma EmailsWellFormed(t: string)
    ensures forall k | 0 <= k < |Scans(EmailFamily(), t)| ::
              EmailText(Group(t, Scans(EmailFamily(), t)[k]))
  {
    var spans := Scans(EmailFamily(), t);
    ScansMatch(EmailFamily(), t);
    forall k | 0 <= k < |spans|
      ensures EmailText(Group(t, spans[k]))
    {
      var sp := spans[k];
      EmailAt(t, sp.start);
      EmailMatchText(t, sp.start, sp.end);
    }
  }

  lemma EmailAt(t: string, i: nat)
    requires i <= |t|
    ensures EmailFamily()[0](t, i) == Email(t, i)
  {
  }

  lemma EmailMatchText(t: string, i: nat, e: nat)
    requires i <= |t| && Email(t, i) == Some(e)
    ensures EmailText(t[i..e])
  {
    assert t[i..e][0] == t[i] && t[i..e][e - i - 1] == t[e - 1];
  }
}

=== FILE: entities.dfy ===
/** The records the extractors return, and the scan shared by all of them:
    every match of the first pattern of a family, left to right, then every
    match of the second, and so on (the `for pattern in ...` / `for match in
    re.finditer(...)` loops of utils/parser.py). Nothing is de-duplicated. */
module Entities {
  import opened Wrappers
  import opened Scan
  import opened Patterns

  /** `{'date_str', 'parsed', 'position'}` */
  datatype DateEntry = DateEntry(dateStr: string, parsed: string, position: Span)

  datatype Currency = USD | EUR | GBP | JPY

  /** `{'amount_str', 'numeric_value', 'currency', 'position'}`; the numeric
      value is kept as the comma-free digit string `float` is applied to. */
  datatype AmountEntry = AmountEntry(amountStr: string, numericValue: string, currency: Option<Currency>, position: Span)

  /** `{'address', 'position'}` */
  datatype AddressEntry = AddressEntry(address: string, position: Span)

  /** `{'email', 'position'}` */
  datatype EmailEntry = EmailEntry(email: string, position: Span)

  /** `{'phone', 'position'}` */
  datatype PhoneEntry = PhoneEntry(phone: string, position: Span)

  /** `{'invoice_number', 'position'}` */
  datatype InvoiceEntry = InvoiceEntry(invoiceNumber: string, position: Span)

  /** `{'description', 'price', 'line'}` */
  datatype ItemEntry = ItemEntry(description: string, price: string, line: string)

  /** Every matcher of a family is sound. */
  ghost predicate AllSound(ps: seq<Matcher>) {
    forall k | 0 <= k < |ps| :: Sound(ps[k])
  }

  function DateFamily(): (ps: seq<Matcher>)
    ensures AllSound(ps)
  {
    [DateNumeric(), DateDayMonth(), DateMonthDay()]
  }

  function AmountFamily(): (ps: seq<Matcher>)
    ensures AllSound(ps)
  {
    [AmountSymbolFirst(), AmountSymbolLast(), AmountCodeFirst(), AmountCodeLast()]
  }

  function AddressFamily(): (ps: seq<Matcher>)
    ensures AllSound(ps)
  {
    [AddressStreet(), AddressPoBox()]
  }

  function EmailFamily(): (ps: seq<Matcher>)
    ensures AllSound(ps)
  {
    [EmailAddress()]
  }

  function PhoneFamily(): (ps: seq<Matcher>)
    ensures AllSound(ps)
  {
    [PhonePrefixed(), PhoneParen(), PhonePlain(), PhoneCallUs(), PhoneSupport()]
  }

  function InvoiceFamily(): (ps: seq<Matcher>)
    ensures AllSound(ps)
  {
    [InvoiceDigits(), InvoiceCode()]
  }

  /** All matches of the matchers `ps`, matcher by matcher, each one's
      matches left to right. Each span is in the text. */
  function Scans(ps: seq<Matcher>, t: string): (spans: seq<Span>)
    requires AllSound(ps)
    ensures forall k | 0 <= k < |spans| :: InText(t, spans[k])
  {
    if ps == [] then []
    else
      var here := FindIter(ps[0], t);
      ScanMatches(ps[0], t, 0, here);
      here + Scans(ps[1..], t)
  }

  /** A family scan starts with the matches of the family's first pattern. */
  lemma ScansStart(ps: seq<Matcher>, t: string)
    requires AllSound(ps) && ps != []
    ensures Scans(ps, t) == FindIter(ps[0], t) + Scans(ps[1..], t)
  {
  }

  /** Each span of a family scan is a match of one of the family's
      matchers, found where the span starts. */
  lemma {:induction false} ScansMatch(ps: seq<Matcher>, t: string)
    requires AllSound(ps)
    ensures forall k | 0 <= k < |Scans(ps, t)| ::
              exists j | 0 <= j < |ps| :: ps[j](t, Scans(ps, t)[k].start) == Some(Scans(ps, t)[k].end)
    decreases |ps|
  {
    if ps != [] {
      var here := FindIter(ps[0], t);
      ScanMatches(ps[0], t, 0, here);
      ScansMatch(ps[1..], t);
      var rest := Scans(ps[1..], t);
      var all := Scans(ps, t);
      assert all == here + rest;
      forall k | 0 <= k < |all|
        ensures exists j | 0 <= j < |ps| :: ps[j](t, all[k].start) == Some(all[k].end)
      {
        if k < |here| {
          assert ps[0](t, all[k].start) == Some(all[k].end);
        } else {
          var j :| 0 <= j < |ps[1..]| && ps[1..][j](t, rest[k - |here|].start) == Some(rest[k - |here|].end);
          assert ps[j + 1](t, all[k].start) == Some(all[k].end);
        }
      }
    } else {
      assert Scans(ps, t) == [];
    }
  }

  /** Every span of a scan is a match found where it starts. */
  lemma {:induction false} ScanMatches(m: Matcher, t: string, pos: nat, spans: seq<Span>)
    requires IsScan(m, t, pos, spans)
    ensures forall k | 0 <= k < |spans| :: InText(t, spans[k]) && m(t, spans[k].start) == Some(spans[k].end)
    decreases |spans|
  {
    if spans != [] {
      ScanMatches(m, t, spans[0].end, spans[1..]);
      assert forall k | 1 <= k < |spans| :: spans[k] == spans[1..][k - 1];
    }
  }

  /** Concatenation of a list of lists. */
  function Flatten<T>(xss: seq<seq<T>>): seq<T> {
    if xss == [] then [] else xss[0] + Flatten(xss[1..])
  }

  /** The family scan is fixed by the declarative reading of each pattern's
      scan: whatever lists satisfy `IsScan`, pattern by pattern, the family
      scan is their concatenation in pattern order. */
  lemma {:induction false} ScansInFamilyOrder(ps: seq<Matcher>, t: string, lists: seq<seq<Span>>)
    requires AllSound(ps) && |lists| == |ps|
    requires forall j | 0 <= j < |ps| :: IsScan(ps[j], t, 0, lists[j])
    ensures Scans(ps, t) == Flatten(lists)
    decreases |ps|
  {
    if ps != [] {
      ScanUnique(ps[0], t, 0, lists[0]);
      assert forall j | 0 <= j < |ps[1..]| :: ps[1..][j] == ps[j + 1] && lists[1..][j] == lists[j + 1];
      ScansInFamilyOrder(ps[1..], t, lists[1..]);
    }
  }
}

=== FILE: invoice_patterns.dfy ===
/** The two invoice-number patterns of `extract_invoice_numbers`, both
    matched under `re.IGNORECASE` (utils/parser.py:275-278):
      1. `(?:Invoice|INV)[-:#\s]*\d+`
      2. `(?:Invoice|INV)[-:#\s]*[A-Z0-9-]+` */
module InvoicePatterns {
  import opened Wrappers
  import opened Text

  /** `[-:#\s]`, what may separate the keyword from the number. */
  predicate IsInvoiceSep(c: char) {
    c == '-' || c == ':' || c == '#' || IsSpace(c)
  }

  /** `[A-Z0-9-]` under `re.IGNORECASE`. */
  predicate IsCodeChar(c: char) {
    IsLetter(c) || IsDigit(c) || c == '-'
  }

  /** The class the number part is drawn from: `\d` in pattern 1,
      `[A-Z0-9-]` in pattern 2 (`code`). */
  function NumberClass(code: bool): char -> bool {
    if code then IsCodeChar else IsDigit
  }

  /** The separators from `q` to `q + k`, then the number part taken
      greedily; on failure the separators give back one character at a
      time, down to none. */
  function SepBack(t: string, q: nat, k: nat, code: bool): (r: Option<nat>)
    requires q + k <= |t|
    ensures r.Some? ==> q < r.value <= |t| && NumberClass(code)(t[r.value - 1])
    decreases k
  {
    var here := if q + k < |t| && NumberClass(code)(t[q + k]) then Some(RunEnd(t, q + k, NumberClass(code))) else None;
    if here.Some? || k == 0 then here else SepBack(t, q, k - 1, code)
  }

  /** `[-:#\s]*` and the number part at `q`. */
  function AfterKeyword(t: string, q: nat, code: bool): (r: Option<nat>)
    requires q <= |t|
    ensures r.Some? ==> q < r.value <= |t| && NumberClass(code)(t[r.value - 1])
  {
    SepBack(t, q, RunEnd(t, q, IsInvoiceSep) - q, code)
  }

  /** Pattern 1 (`code` false) or 2 (`code` true) at `i`: "Invoice" is
      tried before "INV", and "INV" is tried even where "Invoice" matched
      but what follows it did not. */
  function InvoiceNumber(t: string, i: nat, code: bool): (r: Option<nat>)
    requires i <= |t|
    ensures r.Some? ==> i + 3 < r.value <= |t| && FoldAt(t, i, "inv")
  {
    var long := if FoldAt(t, i, "invoice") then AfterKeyword(t, i + 7, code) else None;
    if long.Some? then
      KeywordPrefix(t, i);
      long
    else if FoldAt(t, i, "inv") then AfterKeyword(t, i + 3, code)
    else None
  }

  /** "Invoice" begins with "inv". */
  lemma KeywordPrefix(t: string, i: nat)
    requires FoldAt(t, i, "invoice")
    ensures FoldAt(t, i, "inv")
  {
    forall k | 0 <= k < 3
      ensures Lower(t[i + k]) == "inv"[k]
    {
      assert Lower(t[i + k]) == "invoice"[k];
    }
  }

  /** A separator is never a digit, so the digits-only number part can
      only start right after all the separators: the backtracking never
      finds it anywhere else. */
  lemma {:induction false} DigitsAfterAllSeps(t: string, q: nat, k: nat)
    requires q + k <= |t|
    requires forall j | q <= j < q + k :: IsInvoiceSep(t[j])
    ensures SepBack(t, q, k, false).Some? ==>
              && q + k < |t| && IsDigit(t[q + k])
              && SepBack(t, q, k, false) == Some(RunEnd(t, q + k, IsDigit))
    decreases k
  {
    if !(q + k < |t| && IsDigit(t[q + k])) && k > 0 {
      DigitsAfterAllSeps(t, q, k - 1);
      assert IsInvoiceSep(t[q + k - 1]);
    }
  }

  /** Where the digits-only number part matches after the keyword, the code
      number part matches too and reaches at least as far; exactly as far
      when no letter or `-` follows the digits. */
  lemma CodeCoversDigitsAfter(t: string, q: nat)
    requires q <= |t|
    ensures var d := AfterKeyword(t, q, false);
            var c := AfterKeyword(t, q, true);
            d.Some? ==>
              && c.Some? && d.value <= c.value
              && (d.value == |t| || !IsCodeChar(t[d.value]) ==> c.value == d.value)
  {
    var k := RunEnd(t, q, IsInvoiceSep) - q;
    DigitsAfterAllSeps(t, q, k);
    if AfterKeyword(t, q, false).Some? {
      var e1 := RunEnd(t, q + k, IsDigit);
      var e2 := RunEnd(t, q + k, IsCodeChar);
      assert SepBack(t, q, k, true) == Some(e2);
      assert forall j | q + k <= j < e1 :: IsCodeChar(t[j]);
    }
  }

  /** Pattern 2 finds every invoice number pattern 1 finds, at the same
      place: "Invoice 12345" is matched by both, which is why the extractor
      reports it twice. */
  lemma CodeCoversDigits(t: string, i: nat)
    requires i <= |t|
    ensures var d := InvoiceNumber(t, i, false);
            var c := InvoiceNumber(t, i, true);
            d.Some? ==>
              && c.Some? && d.value <= c.value
              && (d.value == |t| || !IsCodeChar(t[d.value]) ==> c.value == d.value)
  {
    if FoldAt(t, i, "invoice") {
      NoDigitsAfterInv(t, i);
      KeywordPrefix(t, i);
      CodeCoversDigitsAfter(t, i + 7);
    } else if FoldAt(t, i, "inv") {
      CodeCoversDigitsAfter(t, i + 3);
    }
  }

  /** After "Invoice", the "INV" alternative leaves "oice" to match, which
      the digits-only number part cannot start with. */
  lemma NoDigitsAfterInv(t: string, i: nat)
    requires FoldAt(t, i, "invoice")
    ensures AfterKeyword(t, i + 3, false).None?
  {
    assert Lower(t[i + 3]) == "invoice"[3] == 'o';
    assert !IsInvoiceSep(t[i + 3]) && !IsDigit(t[i + 3]);
    assert RunEnd(t, i + 3, IsInvoiceSep) == i + 3;
  }

  /** "Invoice 12345": both patterns match the whole text. */
  lemma BothPatternsMatchExample()
    ensures InvoiceNumber("Invoice 12345", 0, false) == Some(13)
    ensures InvoiceNumber("Invoice 12345", 0, true) == Some(13)
  {
    var t := "Invoice 12345";
    assert FoldAt(t, 0, "invoice");
    assert RunEnd(t, 8, IsInvoiceSep) == 8;
    assert RunEnd(t, 7, IsInvoiceSep) == 8;
    assert RunEnd(t, 8, IsDigit) == 13 by {
      assert RunEnd(t, 13, IsDigit) == 13;
      assert RunEnd(t, 12, IsDigit) == 13;
      assert RunEnd(t, 11, IsDigit) == 13;
      assert RunEnd(t, 10, IsDigit) == 13;
      assert RunEnd(t, 9, IsDigit) == 13;
    }
    assert InvoiceNumber(t, 0, false) == Some(13);
    CodeCoversDigits(t, 0);
  }
}

=== FILE: invoices.dfy ===
/** `extract_invoice_numbers` (utils/parser.py:263-294): every match of the
    digits-only pattern, then every match of the code pattern, recorded as
    matched. The two patterns overlap, so a number such as "Invoice 12345"
    is recorded twice; nothing is de-duplicated. */
module Invoices {
  import opened Wrappers
  import opened Text
  import opened InvoicePatterns
  import opened Scan
  import opened Patterns
  import opened Entities

  /** What an invoice match is: "inv" in any case, then at least one more
      character. */
  predicate InvoiceText(s: string) {
    |s| >= 4 && FoldAt(s, 0, "inv")
  }

  /** `extract_invoice_numbers`: one record per match, in family order. */
  function ExtractInvoiceNumbers(t: string): (r: seq<InvoiceEntry>)
    ensures |r| == |Scans(InvoiceFamily(), t)|
    ensures forall k | 0 <= k < |r| ::
              && r[k].position == Scans(InvoiceFamily(), t)[k]
              && r[k].invoiceNumber == Group(t, r[k].position)
              && InvoiceText(r[k].invoiceNumber)
  {
    var spans := Scans(InvoiceFamily(), t);
    InvoicesWellFormed(t);
    seq(|spans|, k requires 0 <= k < |spans| => InvoiceEntry(Group(t, spans[k]), spans[k]))
  }

  /** Every invoice match is an invoice text. */
  lemma InvoicesWellFormed(t: string)
    ensures forall k | 0 <= k < |Scans(InvoiceFamily(), t)| ::
              InvoiceText(Group(t, Scans(InvoiceFamily(), t)[k]))
  {
    var spans := Scans(InvoiceFamily(), t);
    ScansMatch(InvoiceFamily(), t);
    forall k | 0 <= k < |spans|
      ensures InvoiceText(Group(t, spans[k]))
    {
      var sp := spans[k];
      var j :| 0 <= j < |InvoiceFamily()| && InvoiceFamily()[j](t, sp.start) == Some(sp.end);
      InvoiceAt(t, sp.start, j);
      InvoiceMatchText(t, sp.start, sp.end, j == 1);
    }
  }

  lemma InvoiceAt(t: string, i: nat, j: nat)
    requires i <= |t| && j < 2
    ensures InvoiceFamily()[j](t, i) == InvoiceNumber(t, i, j == 1)
  {
  }

  lemma InvoiceMatchText(t: string, i: nat, e: nat, code: bool)
    requires i <= |t| && InvoiceNumber(t, i, code) == Some(e)
    ensures InvoiceText(t[i..e])
  {
    forall k | 0 <= k < 3
      ensures Lower(t[i..e][k]) == "inv"[k]
    {
      assert t[i..e][k] == t[i + k];
    }
  }
}

=== FILE: items.dfy ===
/** `extract_item_descriptions` (utils/parser.py:296-338): each line of the
    text that is long enough and holds a price gives the description before
    the price, the price, and the stripped line. */
module Items {
  import opened Wrappers
  import opened Text
  import opened Numbers
  import opened Scan
  import opened Entities
  import opened Amounts
  import opened Lists

  /** The loop body for one line: `None` where a `continue` or a failed
      test skips it. */
  function ItemOf(line: string): (r: Option<ItemEntry>)
    ensures r.Some? ==> GoodItem(r.value)
  {
    if |Strip(line)| < 5 then None
    else
      match FindNumber(line)
      case None => None
      case Some(n) => ItemAt(line, n)
  }

  /** The record of a line whose first number is `n`, unless nothing but
      whitespace comes before it. */
  function ItemAt(line: string, n: Span): (r: Option<ItemEntry>)
    requires InText(line, n) && NumberEnd(line, n.start) == Some(n.end)
    requires forall k | 0 <= k < n.start :: !IsDigit(line[k])
    requires |Strip(line)| >= 5
    ensures r.Some? ==> GoodItem(r.value)
  {
    var description := Strip(line[..n.start]);
    if description == [] then None
    else
      PartsShape(line, n);
      Some(ItemEntry(description, Group(line, n), Strip(line)))
  }

  /** `extract_item_descriptions`: the records of the lines that give one,
      in line order. */
  function ExtractItemDescriptions(t: string): (r: seq<ItemEntry>)
    ensures |r| <= |Split(t, '\n')|
    ensures forall k | 0 <= k < |r| ::
              exists line | line in Split(t, '\n') :: ItemOf(line) == Some(r[k])
    ensures forall k | 0 <= k < |r| :: GoodItem(r[k])
  {
    var lines := Split(t, '\n');
    var r := FilterMap(ItemOf, lines);
    FilterMapFrom(ItemOf, lines);
    forall k | 0 <= k < |r|
      ensures GoodItem(r[k])
    {
      var line :| line in lines && ItemOf(line) == Some(r[k]);
    }
    r
  }

  /** The lines are read in order: a first line with no newline in it
      contributes its records ahead of those of the rest of the text. */
  lemma ItemsOfFirstLine(a: string, b: string)
    requires '\n' !in a
    ensures ExtractItemDescriptions(a + "\n" + b) == ExtractItemDescriptions(a) + ExtractItemDescriptions(b)
  {
    SplitCons(a, b, '\n');
    SplitPiece(a, '\n');
    FilterMapAppend(ItemOf, [a], Split(b, '\n'));
    assert ExtractItemDescriptions(a + "\n" + b) == FilterMap(ItemOf, Split(a + "\n" + b, '\n'));
  }

  /** A text of one line gives that line's record, or nothing. With
      `ItemsOfFirstLine` this fixes the result on every text. */
  lemma ItemsOfOneLine(line: string)
    requires '\n' !in line
    ensures ExtractItemDescriptions(line) == if ItemOf(line).Some? then [ItemOf(line).value] else []
  {
    SplitPiece(line, '\n');
    assert [line][1..] == [];
  }

  /** What every item record is: a description with no digit and nothing
      to strip, a price that is a number, and a stripped line of at least
      five characters. */
  predicate GoodItem(e: ItemEntry) {
    GoodDescription(e.description) && GoodPrice(e.price) && GoodLine(e.line)
  }

  predicate GoodDescription(d: string) {
    && d != [] && !IsSpace(d[0]) && !IsSpace(d[|d| - 1])
    && forall k | 0 <= k < |d| :: !IsDigit(d[k])
  }

  predicate GoodPrice(p: string) {
    && p != [] && IsDigit(p[0]) && IsDigit(p[|p| - 1])
    && forall k | 0 <= k < |p| :: IsNumberChar(p[k])
  }

  predicate GoodLine(l: string) {
    |l| >= 5 && !IsSpace(l[0]) && !IsSpace(l[|l| - 1])
  }

  /** `q` is where the first digit of `s` is. */
  predicate FirstDigitAt(s: string, q: nat) {
    q < |s| && IsDigit(s[q]) && forall p | 0 <= p < q :: !IsDigit(s[p])
  }

  /** Which lines give a record, stated without the search: a stripped
      length of at least five, a digit, and something other than spaces
      before the first digit. The record's description is the stripped
      text before that digit, and its price the number that starts there. */
  lemma ItemOfCharacterised(line: string)
    ensures ItemOf(line).Some? <==>
              && |Strip(line)| >= 5
              && exists q | 0 <= q < |line| ::
                   FirstDigitAt(line, q) && exists p | 0 <= p < q :: !IsSpace(line[p])
    ensures forall q | 0 <= q < |line| && FirstDigitAt(line, q) && ItemOf(line).Some? ::
              && ItemOf(line).value.description == Strip(line[..q])
              && ItemOf(line).value.price == line[q..NumberEnd(line, q).value]
              && ItemOf(line).value.line == Strip(line)
  {
    ItemOfWhen(line);
    ItemOfFields(line);
  }

  lemma ItemOfWhen(line: string)
    ensures ItemOf(line).Some? <==>
              && |Strip(line)| >= 5
              && exists q | 0 <= q < |line| ::
                   FirstDigitAt(line, q) && exists p | 0 <= p < q :: !IsSpace(line[p])
  {
    var f := FindNumber(line);
    if f.Some? {
      var q := f.value.start;
      assert FirstDigitAt(line, q);
      forall q' | 0 <= q' < |line| && FirstDigitAt(line, q')
        ensures q' == q
      {
      }
      PrefixNotBlank(line, q);
    } else {
      forall q | 0 <= q < |line|
        ensures !FirstDigitAt(line, q)
      {
      }
    }
  }

  /** Something is left of the text before `q` once stripped exactly when
      a character other than whitespace comes before `q`. */
  lemma PrefixNotBlank(line: string, q: nat)
    requires q <= |line|
    ensures Strip(line[..q]) != [] <==> exists p | 0 <= p < q :: !IsSpace(line[p])
  {
    if Strip(line[..q]) != [] {
      var p :| 0 <= p < q && !IsSpace(line[..q][p]);
      assert !IsSpace(line[p]);
    }
    if exists p | 0 <= p < q :: !IsSpace(line[p]) {
      var p :| 0 <= p < q && !IsSpace(line[p]);
      assert !IsSpace(line[..q][p]);
    }
  }

  lemma ItemOfFields(line: string)
    ensures forall q | 0 <= q < |line| && FirstDigitAt(line, q) && ItemOf(line).Some? ::
              && ItemOf(line).value.description == Strip(line[..q])
              && ItemOf(line).value.price == line[q..NumberEnd(line, q).value]
              && ItemOf(line).value.line == Strip(line)
  {
    var f := FindNumber(line);
    if f.Some? {
      var q := f.value.start;
      forall q' | 0 <= q' < |line| && FirstDigitAt(line, q')
        ensures q' == q
      {
      }
    }
  }

  /** The record built from a line and the first number in it. */
  lemma PartsShape(line: string, n: Span)
    requires InText(line, n) && NumberEnd(line, n.start) == Some(n.end)
    requires forall k | 0 <= k < n.start :: !IsDigit(line[k])
    requires Strip(line[..n.start]) != [] && |Strip(line)| >= 5
    ensures GoodDescription(Strip(line[..n.start]))
    ensures GoodPrice(Group(line, n))
    ensures GoodLine(Strip(line))
  {
    var before := line[..n.start];
    DescriptionShape(before);
    PriceShape(line, n);
  }

  /** The stripped text before the first digit has no digit and nothing
      left to strip. */
  lemma DescriptionShape(before: string)
    requires forall k | 0 <= k < |before| :: !IsDigit(before[k])
    ensures forall k | 0 <= k < |Strip(before)| :: !IsDigit(Strip(before)[k])
  {
    var r := Strip(before);
    if r != [] {
      var a := StripStart(before);
      assert forall k | 0 <= k < |r| :: r[k] == before[a + k];
    }
  }

  /** The number found in a line is a run of number characters from a
      digit to a digit. */
  lemma PriceShape(line: string, n: Span)
    requires InText(line, n) && NumberEnd(line, n.start) == Some(n.end)
    ensures var g := Group(line, n);
            g != [] && IsDigit(g[0]) && IsDigit(g[|g| - 1]) && forall k | 0 <= k < |g| :: IsNumberChar(g[k])
  {
    var g := Group(line, n);
    assert forall k | 0 <= k < |g| :: g[k] == line[n.start + k];
  }
}

=== FILE: lists.dfy ===
/** The two loop shapes the extractors share: one that skips the items it
    cannot turn into a record (a `continue`, or an exception caught inside
    the loop), and one that stops at the first failure (an exception
    caught outside it). */
module Lists {
  import opened Wrappers

  /** Records for the items `f` accepts, in order; the others are skipped. */
  function FilterMap<A, B>(f: A -> Option<B>, xs: seq<A>): (r: seq<B>)
    ensures |r| <= |xs|
  {
    if xs == [] then []
    else
      match f(xs[0])
      case Some(b) => [b] + FilterMap(f, xs[1..])
      case None => FilterMap(f, xs[1..])
  }

  /** Records for all the items, or `None` as soon as `f` fails on one. */
  function MapAll<A, B>(f: A -> Option<B>, xs: seq<A>): (r: Option<seq<B>>)
    ensures r.Some? ==> |r.value| == |xs|
  {
    if xs == [] then Some([])
    else
      match f(xs[0])
      case None => None
      case Some(b) =>
        match MapAll(f, xs[1..])
        case None => None
        case Some(rest) => Some([b] + rest)
  }

  /** When `f` accepts every item, nothing is skipped: the `k`-th record
      is the one for the `k`-th item. */
  lemma {:induction false} FilterMapAll<A, B>(f: A -> Option<B>, xs: seq<A>)
    requires forall k | 0 <= k < |xs| :: f(xs[k]).Some?
    ensures |FilterMap(f, xs)| == |xs|
    ensures forall k | 0 <= k < |xs| :: f(xs[k]) == Some(FilterMap(f, xs)[k])
    decreases |xs|
  {
    if xs != [] {
      FilterMapAll(f, xs[1..]);
      assert forall k | 1 <= k < |xs| :: xs[k] == xs[1..][k - 1];
    }
  }

  /** Every record comes from one of the items. */
  lemma {:induction false} FilterMapFrom<A, B>(f: A -> Option<B>, xs: seq<A>)
    ensures forall k | 0 <= k < |FilterMap(f, xs)| ::
              exists x | x in xs :: f(x) == Some(FilterMap(f, xs)[k])
    decreases |xs|
  {
    if xs != [] {
      FilterMapFrom(f, xs[1..]);
      var rest := FilterMap(f, xs[1..]);
      forall k | 0 <= k < |FilterMap(f, xs)|
        ensures exists x | x in xs :: f(x) == Some(FilterMap(f, xs)[k])
      {
        if f(xs[0]).Some? {
          assert FilterMap(f, xs) == [f(xs[0]).value] + rest;
          if k == 0 {
            assert f(xs[0]) == Some(FilterMap(f, xs)[k]);
          } else {
            var x :| x in xs[1..] && f(x) == Some(rest[k - 1]);
            assert x in xs;
          }
        } else {
          var x :| x in xs[1..] && f(x) == Some(rest[k]);
          assert x in xs;
        }
      }
    } else {
      assert FilterMap(f, xs) == [];
    }
  }

  /** Skipping works item by item: the records for `xs + ys` are those for
      `xs` followed by those for `ys`. */
  lemma {:induction false} FilterMapAppend<A, B>(f: A -> Option<B>, xs: seq<A>, ys: seq<A>)
    ensures FilterMap(f, xs + ys) == FilterMap(f, xs) + FilterMap(f, ys)
    decreases |xs|
  {
    if xs != [] {
      assert (xs + ys)[0] == xs[0];
      assert (xs + ys)[1..] == xs[1..] + ys;
      FilterMapAppend(f, xs[1..], ys);
    } else {
      assert xs + ys == ys;
    }
  }

  /** A rejected item is dropped without disturbing the records of the
      items around it. */
  lemma DropRejected<A, B>(f: A -> Option<B>, xs: seq<A>, k: nat)
    requires k < |xs| && f(xs[k]).None?
    ensures FilterMap(f, xs) == FilterMap(f, xs[..k]) + FilterMap(f, xs[k + 1..])
  {
    assert xs == xs[..k] + ([xs[k]] + xs[k + 1..]);
    FilterMapAppend(f, xs[..k], [xs[k]] + xs[k + 1..]);
    FilterMapAppend(f, [xs[k]], xs[k + 1..]);
    assert FilterMap(f, [xs[k]]) == [];
  }

  /** When `f` accepts every item, the loop runs to the end and the
      `k`-th record is the one for the `k`-th item. */
  lemma {:induction false} MapAllSome<A, B>(f: A -> Option<B>, xs: seq<A>)
    requires forall k | 0 <= k < |xs| :: f(xs[k]).Some?
    ensures MapAll(f, xs).Some?
    ensures forall k | 0 <= k < |xs| :: f(xs[k]) == Some(MapAll(f, xs).value[k])
    decreases |xs|
  {
    if xs != [] {
      MapAllSome(f, xs[1..]);
      assert forall k | 1 <= k < |xs| :: xs[k] == xs[1..][k - 1];
    }
  }

  /** The loop fails exactly when `f` fails on some item. */
  lemma {:induction false} MapAllNone<A, B>(f: A -> Option<B>, xs: seq<A>)
    ensures MapAll(f, xs).None? <==> exists k | 0 <= k < |xs| :: f(xs[k]).None?
    decreases |xs|
  {
    if xs != [] {
      MapAllNone(f, xs[1..]);
      if f(xs[0]).Some? && MapAll(f, xs[1..]).None? {
        var k :| 0 <= k < |xs[1..]| && f(xs[1..][k]).None?;
        assert f(xs[k + 1]).None?;
      }
      if exists k | 0 <= k < |xs| :: f(xs[k]).None? {
        var k :| 0 <= k < |xs| && f(xs[k]).None?;
        if k > 0 {
          assert f(xs[1..][k - 1]).None?;
        }
      }
    }
  }
}

=== FILE: numbers.dfy ===
/** The number pattern `\d+(?:,\d{3})*(?:\.\d{2})?` shared by the four amount
    patterns, by the numeric-value search inside an amount and by the price
    search on item lines (utils/parser.py:104-107, 117, 312). */
module Numbers {
  import opened Wrappers
  import opened Text

  /** A character a number match can contain. */
  predicate IsNumberChar(c: char) {
    IsDigit(c) || c == ',' || c == '.'
  }

  /** One thousands group `,\d{3}` at `p`. */
  predicate GroupAt(t: string, p: nat) {
    p + 4 <= |t| && t[p] == ',' && DigitsAt(t, p + 1, 3)
  }

  /** The decimal part `\.\d{2}` at `q`. */
  predicate DecimalAt(t: string, q: nat) {
    q + 3 <= |t| && t[q] == '.' && DigitsAt(t, q + 1, 2)
  }

  /** Where the greedy `(?:,\d{3})*` starting at `p` stops: it takes groups
      for as long as another one follows. */
  function GroupsEnd(t: string, p: nat): (g: nat)
    requires p <= |t|
    ensures p <= g <= |t|
    ensures forall k | p <= k < g :: IsNumberChar(t[k])
    ensures g == p || IsDigit(t[g - 1])
    ensures !GroupAt(t, g)
    decreases |t| - p
  {
    if GroupAt(t, p) then GroupsEnd(t, p + 4) else p
  }

  /** The end of the match of the number pattern at `i` when nothing has to
      follow it: every quantifier takes as much as it can. */
  function NumberEnd(t: string, i: nat): (r: Option<nat>)
    requires i <= |t|
    ensures r.Some? <==> i < |t| && IsDigit(t[i])
    ensures r.Some? ==> i < r.value <= |t|
    ensures r.Some? ==> IsDigit(t[r.value - 1])
    ensures r.Some? ==> forall k | i <= k < r.value :: IsNumberChar(t[k])
  {
    if i < |t| && IsDigit(t[i]) then
      var g := GroupsEnd(t, DigitRunEnd(t, i));
      Some(if DecimalAt(t, g) then g + 3 else g)
    else None
  }

  /** The ends `(?:,\d{3})*` can stop at from `p`, in the order a
      backtracking matcher tries them: most groups first. */
  function GroupEnds(t: string, p: nat): (ends: seq<nat>)
    requires p <= |t|
    ensures |ends| >= 1 && ends[|ends| - 1] == p
    ensures forall k | 0 <= k < |ends| :: p <= ends[k] <= |t|
    decreases |t| - p
  {
    if GroupAt(t, p) then GroupEnds(t, p + 4) + [p] else [p]
  }

  /** The ends `(?:\.\d{2})?` can stop at from `q`, decimal part first. */
  function DecimalEnds(t: string, q: nat): seq<nat>
    requires q <= |t|
  {
    if DecimalAt(t, q) then [q + 3, q] else [q]
  }

  /** The decimal-part alternatives after each of the group ends `gs`. */
  function EndsAfterGroups(t: string, gs: seq<nat>): (ends: seq<nat>)
    requires forall k | 0 <= k < |gs| :: gs[k] <= |t|
    ensures forall k | 0 <= k < |ends| :: ends[k] <= |t|
    ensures forall k | 0 <= k < |ends| :: ends[k] in gs || (ends[k] >= 3 && ends[k] - 3 in gs)
  {
    if gs == [] then []
    else DecimalEnds(t, gs[0]) + EndsAfterGroups(t, gs[1..])
  }

  /** The ends after a digit run of length `l`, then of `l - 1`, ..., then 1:
      the greedy `\d+` gives back one digit at a time. */
  function EndsAfterRun(t: string, i: nat, l: nat): (ends: seq<nat>)
    requires 1 <= l && i + l <= |t|
    ensures forall k | 0 <= k < |ends| :: i < ends[k] <= |t|
  {
    var here := EndsAfterGroups(t, GroupEnds(t, i + l));
    if l == 1 then here else here + EndsAfterRun(t, i, l - 1)
  }

  /** Every end the number pattern can reach from `i`, in backtracking order:
      what the matcher falls back on when what follows the number fails. */
  function NumberEnds(t: string, i: nat): seq<nat>
    requires i <= |t|
  {
    if i < |t| && IsDigit(t[i]) then EndsAfterRun(t, i, DigitRunEnd(t, i) - i) else []
  }

  /** The greedy choice is the first end the backtracking order tries, and
      every other end stops right before a digit, a comma or a dot: a place
      where the greedy match went on. So a continuation that cannot start
      with one of those characters fails at every end but the greedy one. */
  lemma NumberGreedyFirst(t: string, i: nat)
    requires i <= |t|
    ensures NumberEnds(t, i) != [] <==> NumberEnd(t, i).Some?
    ensures NumberEnd(t, i).Some? ==> NumberEnds(t, i)[0] == NumberEnd(t, i).value
    ensures forall k | 1 <= k < |NumberEnds(t, i)| ::
              NumberEnds(t, i)[k] < |t| && IsNumberChar(t[NumberEnds(t, i)[k]])
  {
    if i < |t| && IsDigit(t[i]) {
      var run := DigitRunEnd(t, i);
      var l := run - i;
      var gs := GroupEnds(t, run);
      GroupEndsShape(t, run);
      var here := EndsAfterGroups(t, gs);
      AfterGroupsShape(t, gs);
      if l > 1 {
        ShorterRuns(t, i, l - 1);
        var ends := here + EndsAfterRun(t, i, l - 1);
        assert NumberEnds(t, i) == ends;
        forall k | 1 <= k < |ends|
          ensures ends[k] < |t| && IsNumberChar(t[ends[k]])
        {
          if k >= |here| {
            assert ends[k] == EndsAfterRun(t, i, l - 1)[k - |here|];
          }
        }
      }
    }
  }

  /** The greedy end comes first among the group ends; each of the others is
      the start of a further group. */
  lemma {:induction false} GroupEndsShape(t: string, p: nat)
    requires p <= |t|
    ensures GroupEnds(t, p)[0] == GroupsEnd(t, p)
    ensures forall k | 1 <= k < |GroupEnds(t, p)| :: GroupAt(t, GroupEnds(t, p)[k])
    decreases |t| - p
  {
    if GroupAt(t, p) {
      GroupEndsShape(t, p + 4);
    }
  }

  /** After group ends shaped as `GroupEndsShape` says, the first end is the
      greedy one and every other end stops before a comma or a dot. */
  lemma {:induction false} AfterGroupsShape(t: string, gs: seq<nat>)
    requires |gs| >= 1
    requires forall k | 0 <= k < |gs| :: gs[k] <= |t|
    requires forall k | 1 <= k < |gs| :: GroupAt(t, gs[k])
    ensures EndsAfterGroups(t, gs)[0] == if DecimalAt(t, gs[0]) then gs[0] + 3 else gs[0]
    ensures forall k | 1 <= k < |EndsAfterGroups(t, gs)| ::
              EndsAfterGroups(t, gs)[k] < |t| && t[EndsAfterGroups(t, gs)[k]] in {',', '.'}
    decreases |gs|
  {
    var first := DecimalEnds(t, gs[0]);
    var ends := EndsAfterGroups(t, gs);
    assert ends == first + EndsAfterGroups(t, gs[1..]);
    if |gs| > 1 {
      var rest := EndsAfterGroups(t, gs[1..]);
      RestAfterGroups(t, gs[1..]);
      forall k | 1 <= k < |ends|
        ensures ends[k] < |t| && t[ends[k]] in {',', '.'}
      {
        if k >= |first| {
          assert ends[k] == rest[k - |first|];
        }
      }
    }
  }

  /** Group ends that each start a further group contribute only themselves. */
  lemma {:induction false} RestAfterGroups(t: string, gs: seq<nat>)
    requires forall k | 0 <= k < |gs| :: gs[k] <= |t| && GroupAt(t, gs[k])
    ensures forall k | 0 <= k < |EndsAfterGroups(t, gs)| ::
              EndsAfterGroups(t, gs)[k] < |t| && t[EndsAfterGroups(t, gs)[k]] == ','
    decreases |gs|
  {
    if gs != [] {
      RestAfterGroups(t, gs[1..]);
      assert EndsAfterGroups(t, gs) == [gs[0]] + EndsAfterGroups(t, gs[1..]);
    }
  }

  /** A digit run cut short stops before one of its own digits. */
  lemma {:induction false} ShorterRuns(t: string, i: nat, l: nat)
    requires 1 <= l && i + l < |t| && i + l < DigitRunEnd(t, i)
    ensures forall k | 0 <= k < |EndsAfterRun(t, i, l)| ::
              EndsAfterRun(t, i, l)[k] < |t| && IsDigit(t[EndsAfterRun(t, i, l)[k]])
    decreases l
  {
    assert IsDigit(t[i + l]);
    assert GroupEnds(t, i + l) == [i + l];
    assert EndsAfterGroups(t, [i + l]) == [i + l];
    if l > 1 {
      ShorterRuns(t, i, l - 1);
    }
  }

  /** A number matched in `t` that ends by `e` is matched the same way in
      the slice `t[i..e]`: what lies past the slice's end played no part in
      the greedy match. */
  lemma NumberWindow(t: string, i: nat, e: nat, p: nat)
    requires i <= p <= e <= |t|
    requires NumberEnd(t, p).Some? && NumberEnd(t, p).value <= e
    ensures NumberEnd(t[i..e], p - i) == Some(NumberEnd(t, p).value - i)
  {
    var w := t[i..e];
    var d := DigitRunEnd(t, p);
    var g := GroupsEnd(t, d);
    assert w[p - i] == t[p];
    DigitRunWindow(t, i, e, p);
    GroupsWindow(t, i, e, d);
    DecimalWindow(t, i, e, g);
  }

  /** A thousands group is found at `p` in the slice `t[i..e]` exactly when
      it is found in `t` and fits in the slice. */
  lemma GroupWindow(t: string, i: nat, e: nat, p: nat)
    requires i <= p <= e <= |t|
    ensures GroupAt(t[i..e], p - i) <==> GroupAt(t, p) && p + 4 <= e
  {
    var w := t[i..e];
    assert forall k | p - i <= k < |w| :: w[k] == t[i + k];
  }

  /** The decimal part is found at `q` in the slice `t[i..e]` exactly when
      it is found in `t` and fits in the slice. */
  lemma DecimalWindow(t: string, i: nat, e: nat, q: nat)
    requires i <= q <= e <= |t|
    ensures DecimalAt(t[i..e], q - i) <==> DecimalAt(t, q) && q + 3 <= e
  {
    var w := t[i..e];
    assert forall k | q - i <= k < |w| :: w[k] == t[i + k];
  }

  /** The digit run from `p` in the slice `t[i..e]` ends where it ends in
      `t`, when that is within the slice. */
  lemma DigitRunWindow(t: string, i: nat, e: nat, p: nat)
    requires i <= p <= e <= |t| && DigitRunEnd(t, p) <= e
    ensures DigitRunEnd(t[i..e], p - i) == DigitRunEnd(t, p) - i
  {
    var w := t[i..e];
    var d := DigitRunEnd(t, p);
    assert forall k | 0 <= k < |w| :: w[k] == t[i + k];
    assert forall k | p - i <= k < d - i :: IsDigit(w[k]);
    assert d - i == |w| || !IsDigit(w[d - i]);
  }

  /** The thousands groups from `p` in the slice `t[i..e]` end where they
      end in `t`, when that is within the slice. */
  lemma {:induction false} GroupsWindow(t: string, i: nat, e: nat, p: nat)
    requires i <= p <= e <= |t| && GroupsEnd(t, p) <= e
    ensures GroupsEnd(t[i..e], p - i) == GroupsEnd(t, p) - i
    decreases |t| - p
  {
    GroupWindow(t, i, e, p);
    if GroupAt(t, p) {
      GroupsWindow(t, i, e, p + 4);
    }
  }
}

=== FILE: parser.dfy ===
/** `DataParser.parse_text` (utils/parser.py:22-48): the entry point that
    runs the seven extractors over one text and collects their lists under
    fixed keys. */
module Parser {
  import opened Wrappers
  import opened Entities
  import opened Dates
  import opened Amounts
  import opened Addresses
  import opened Emails
  import opened Phones
  import opened Invoices
  import opened Items

  /** The argument of `parse_text`: a string, or any other Python value
      (`None`, a number, a list, ...), all of which the guard treats alike. */
  datatype Input = Str(s: string) | NotStr

  /** One value of the result dictionary: the list one extractor returned. */
  datatype Extracted =
    | DateList(dates: seq<DateEntry>)
    | AmountList(amounts: seq<AmountEntry>)
    | AddressList(addresses: seq<AddressEntry>)
    | EmailList(emails: seq<EmailEntry>)
    | PhoneList(phones: seq<PhoneEntry>)
    | InvoiceList(invoices: seq<InvoiceEntry>)
    | ItemList(items: seq<ItemEntry>)

  /** The seven keys of a non-empty result. */
  const ResultKeys: set<string> :=
    {"dates", "amounts", "addresses", "emails", "phone_numbers",
     "invoice_numbers", "item_descriptions"}

  /** The guard `not text or not isinstance(text, str)`: only a non-empty
      string gets parsed. */
  predicate Parsable(x: Input) {
    x.Str? && x.s != []
  }

  /** `parse_text`, with the date parser it hands to `extract_dates` as a
      parameter. */
  function ParseText(x: Input, parse: string -> Option<string>): (r: map<string, Extracted>)
    ensures r == map[] <==> !Parsable(x)
    ensures Parsable(x) ==> WellKeyed(r)
    ensures Parsable(x) ==>
              && r["dates"].dates == ExtractDates(x.s, parse)
              && r["amounts"].amounts == ExtractAmounts(x.s)
              && r["addresses"].addresses == ExtractAddresses(x.s)
              && r["emails"].emails == ExtractEmails(x.s)
              && r["phone_numbers"].phones == ExtractPhoneNumbers(x.s)
              && r["invoice_numbers"].invoices == ExtractInvoiceNumbers(x.s)
              && r["item_descriptions"].items == ExtractItemDescriptions(x.s)
  {
    if !Parsable(x) then map[]
    else
      var t := x.s;
      Collect(ExtractDates(t, parse), ExtractAmounts(t), ExtractAddresses(t),
              ExtractEmails(t), ExtractPhoneNumbers(t), ExtractInvoiceNumbers(t),
              ExtractItemDescriptions(t))
  }

  /** Exactly the seven keys, each holding the list of its own kind. */
  predicate WellKeyed(r: map<string, Extracted>) {
    && r.Keys == ResultKeys
    && r["dates"].DateList? && r["amounts"].AmountList?
    && r["addresses"].AddressList? && r["emails"].EmailList?
    && r["phone_numbers"].PhoneList? && r["invoice_numbers"].InvoiceList?
    && r["item_descriptions"].ItemList?
  }

  /** The `result` dictionary literal. */
  function Collect(dates: seq<DateEntry>, amounts: seq<AmountEntry>,
                   addresses: seq<AddressEntry>, emails: seq<EmailEntry>,
                   phones: seq<PhoneEntry>, invoices: seq<InvoiceEntry>,
                   items: seq<ItemEntry>): (r: map<string, Extracted>)
    ensures WellKeyed(r)
    ensures r["dates"].dates == dates && r["amounts"].amounts == amounts
    ensures r["addresses"].addresses == addresses && r["emails"].emails == emails
    ensures r["phone_numbers"].phones == phones && r["invoice_numbers"].invoices == invoices
    ensures r["item_descriptions"].items == items
  {
    var r := map[
      "dates" := DateList(dates),
      "amounts" := AmountList(amounts),
      "addresses" := AddressList(addresses),
      "emails" := EmailList(emails),
      "phone_numbers" := PhoneList(phones),
      "invoice_numbers" := InvoiceList(invoices),
      "item_descriptions" := ItemList(items)];
    assert r.Keys == ResultKeys;
    r
  }

  /** Through `parse_text`, every amount still carries a currency: the one
      named by the single marker in its own text. */
  lemma ParsedAmountsHaveCurrency(x: Input, parse: string -> Option<string>)
    requires Parsable(x)
    ensures forall a | a in ParseText(x, parse)["amounts"].amounts ::
              a.currency.Some? && OwnMarkerCurrency(a)
  {
    AmountCurrencyIsOwnMarker(x.s);
  }
}

=== FILE: patterns.dfy ===
/** The parser's fixed patterns as scanners' matchers: each one runs its
    hand-written recogniser at a position of the text. */
module Patterns {
  import opened Wrappers
  import opened Scan
  import DatePatterns
  import AmountPatterns
  import AddressPatterns
  import EmailPattern
  import PhonePatterns
  import InvoicePatterns
  import Numbers

  /** `\d{1,2}[/-]\d{1,2}[/-]\d{2,4}` (utils/parser.py:63) */
  function DateNumeric(): (m: Matcher)
    ensures Sound(m)
  {
    (t: string, i: nat) => if i <= |t| then DatePatterns.NumericDate(t, i) else None
  }

  /** `\d{1,2}\s(?:Jan|...|Dec)[a-z]*\s\d{2,4}` (utils/parser.py:64) */
  function DateDayMonth(): (m: Matcher)
    ensures Sound(m)
  {
    (t: string, i: nat) => if i <= |t| then DatePatterns.DayMonthDate(t, i) else None
  }

  /** `(?:Jan|...|Dec)[a-z]*\s\d{1,2}[,]?\s\d{2,4}` (utils/parser.py:65) */
  function DateMonthDay(): (m: Matcher)
    ensures Sound(m)
  {
    (t: string, i: nat) => if i <= |t| then DatePatterns.MonthDayDate(t, i) else None
  }

  /** `[$€£¥]\s?N` (utils/parser.py:104) */
  function AmountSymbolFirst(): (m: Matcher)
    ensures Sound(m)
  {
    (t: string, i: nat) => if i <= |t| then AmountPatterns.MarkerFirst(t, i, false) else None
  }

  /** `N\s?[$€£¥]` (utils/parser.py:105) */
  function AmountSymbolLast(): (m: Matcher)
    ensures Sound(m)
  {
    (t: string, i: nat) => if i <= |t| then AmountPatterns.MarkerLast(t, i, false) else None
  }

  /** `(?:USD|EUR|GBP|JPY)\s?N` (utils/parser.py:106) */
  function AmountCodeFirst(): (m: Matcher)
    ensures Sound(m)
  {
    (t: string, i: nat) => if i <= |t| then AmountPatterns.MarkerFirst(t, i, true) else None
  }

  /** `N\s?(?:USD|EUR|GBP|JPY)` (utils/parser.py:107) */
  function AmountCodeLast(): (m: Matcher)
    ensures Sound(m)
  {
    (t: string, i: nat) => if i <= |t| then AmountPatterns.MarkerLast(t, i, true) else None
  }

  /** The street address pattern (utils/parser.py:166). */
  function AddressStreet(): (m: Matcher)
    ensures Sound(m)
  {
    (t: string, i: nat) => if i <= |t| then AddressPatterns.StreetAddress(t, i) else None
  }

  /** `P\.?O\.?\s?Box\s\d+` (utils/parser.py:168) */
  function AddressPoBox(): (m: Matcher)
    ensures Sound(m)
  {
    (t: string, i: nat) => if i <= |t| then AddressPatterns.PoBox(t, i) else None
  }

  /** The e-mail pattern (utils/parser.py:199). */
  function EmailAddress(): (m: Matcher)
    ensures Sound(m)
  {
    (t: string, i: nat) => if i <= |t| then EmailPattern.Email(t, i) else None
  }

  /** Phone pattern 1 (utils/parser.py:229). */
  function PhonePrefixed(): (m: Matcher)
    ensures Sound(m)
  {
    (t: string, i: nat) => if i <= |t| then PhonePatterns.PrefixedPhone(t, i) else None
  }

  /** Phone pattern 2 (utils/parser.py:230), also the inner search (246). */
  function PhoneParen(): (m: Matcher)
    ensures Sound(m)
  {
    (t: string, i: nat) => if i <= |t| then PhonePatterns.ParenPhone(t, i) else None
  }

  /** Phone pattern 3 (utils/parser.py:231). */
  function PhonePlain(): (m: Matcher)
    ensures Sound(m)
  {
    (t: string, i: nat) => if i <= |t| then PhonePatterns.PlainPhone(t, i) else None
  }

  /** Phone pattern 4 (utils/parser.py:232). */
  function PhoneCallUs(): (m: Matcher)
    ensures Sound(m)
  {
    (t: string, i: nat) => if i <= |t| then PhonePatterns.CallUsPhone(t, i) else None
  }

  /** Phone pattern 5 (utils/parser.py:233). */
  function PhoneSupport(): (m: Matcher)
    ensures Sound(m)
  {
    (t: string, i: nat) => if i <= |t| then PhonePatterns.SupportPhone(t, i) else None
  }

  /** `(?:Invoice|INV)[-:#\s]*\d+` (utils/parser.py:276) */
  function InvoiceDigits(): (m: Matcher)
    ensures Sound(m)
  {
    (t: string, i: nat) => if i <= |t| then InvoicePatterns.InvoiceNumber(t, i, false) else None
  }

  /** `(?:Invoice|INV)[-:#\s]*[A-Z0-9-]+` (utils/parser.py:277) */
  function InvoiceCode(): (m: Matcher)
    ensures Sound(m)
  {
    (t: string, i: nat) => if i <= |t| then InvoicePatterns.InvoiceNumber(t, i, true) else None
  }

  /** `\d+(?:,\d{3})*(?:\.\d{2})?`, searched for on its own by
      `extract_amounts` (utils/parser.py:117) and `extract_item_descriptions`
      (utils/parser.py:312). */
  function Number(): (m: Matcher)
    ensures Sound(m)
  {
    (t: string, i: nat) => if i <= |t| then Numbers.NumberEnd(t, i) else None
  }
}

=== FILE: phone_patterns.dfy ===
/** The five phone patterns of `extract_phone_numbers`, all matched under
    `re.IGNORECASE` (utils/parser.py:228-234):
      1. `\+?\d{1,3}[-.\s]?\(?\d{3}\)?[-.\s]?\d{3}[-.\s]?\d{4}`   prefixed
      2. `\(?\d{3}\)?[-.\s]?\d{3}[-.\s]?\d{4}`                     parenthesised
      3. `\d{3}[-.\s]?\d{3}[-.\s]?\d{4}`                           plain
      4. `Call us:.*?\(?\d{3}\)?[-.\s]?\d{3}[-.\s]?\d{4}`          "Call us:" label
      5. `Support:.*?\d{3}[-.\s]?\d{3}[-.\s]?\d{4}`                "Support:" label
    Pattern 2 is also the number searched for inside a labelled match
    (utils/parser.py:246). A pattern, or what is left of one after its
    first elements, is a list of `Step`s run in order by `Run`; `\d{1,3}`
    and the labels are handled outside it. An optional character (`\+?`, `\(?`, `\)?`, `[-.\s]?`) is
    always followed by an element that cannot start with that character, so
    taking it whenever it is present is the only choice that can succeed
    and backtracking over it never finds another match; `\d{1,3}` is the one
    element whose alternatives are tried in turn, longest first. */
module PhonePatterns {
  import opened Wrappers
  import opened Text

  /** `[-.\s]` */
  predicate IsPhoneSep(c: char) {
    c == '-' || c == '.' || IsSpace(c)
  }

  predicate SepAt(t: string, i: nat) {
    i < |t| && IsPhoneSep(t[i])
  }

  /** The characters an unlabelled phone match is made of. */
  predicate IsPhoneChar(c: char) {
    IsDigit(c) || IsPhoneSep(c) || c == '+' || c == '(' || c == ')'
  }

  /** Every character of `t[i..e]` is a phone character. */
  predicate PhoneChars(t: string, i: nat, e: nat)
    requires i <= e <= |t|
  {
    forall k | i <= k < e :: IsPhoneChar(t[k])
  }

  /** One element of a phone pattern. */
  datatype Step =
    | Digits(n: nat)  // `\d{n}`
    | OptSep          // `[-.\s]?`
    | OptOpen         // `\(?`
    | OptClose        // `\)?`

  /** The fewest characters a step consumes. */
  function Width(s: Step): nat {
    if s.Digits? then s.n else 0
  }

  /** The fewest characters a list of steps consumes. */
  function MinLen(steps: seq<Step>): nat {
    if steps == [] then 0 else Width(steps[0]) + MinLen(steps[1..])
  }

  /** The steps end with at least one digit. */
  predicate EndsWithDigit(steps: seq<Step>) {
    steps != [] && steps[|steps| - 1].Digits? && steps[|steps| - 1].n > 0
  }

  /** Where the steps, matched from `i`, end; `None` when they do not match. */
  function Run(t: string, i: nat, steps: seq<Step>): (r: Option<nat>)
    requires i <= |t|
    ensures r.Some? ==> i + MinLen(steps) <= r.value <= |t| && PhoneChars(t, i, r.value)
    ensures r.Some? && steps != [] && steps[0].Digits? && steps[0].n > 0 ==> IsDigit(t[i])
    ensures r.Some? && EndsWithDigit(steps) ==> i < r.value && IsDigit(t[r.value - 1])
    decreases |steps|
  {
    if steps == [] then Some(i)
    else
      match Next(t, i, steps[0])
      case None => None
      case Some(k) => Run(t, k, steps[1..])
  }

  /** Where one step, matched from `i`, ends. */
  function Next(t: string, i: nat, s: Step): (r: Option<nat>)
    requires i <= |t|
    ensures r.Some? ==> i + Width(s) <= r.value <= |t| && PhoneChars(t, i, r.value)
    ensures r.Some? && s.Digits? && s.n > 0 ==> IsDigit(t[i]) && IsDigit(t[r.value - 1])
  {
    if s.Digits? then
      if DigitsAt(t, i, s.n) then Some(i + s.n) else None
    else Some(if Takes(s, t, i) then i + 1 else i)
  }

  /** An optional step takes the character at `i`. */
  predicate Takes(s: Step, t: string, i: nat)
    requires !s.Digits?
    ensures Takes(s, t, i) ==> i < |t| && IsPhoneChar(t[i])
  {
    match s
    case OptSep => SepAt(t, i)
    case OptOpen => i < |t| && t[i] == '('
    case OptClose => i < |t| && t[i] == ')'
  }

  /** The last seven digits: `\d{3}[-.\s]?\d{4}`. */
  const LineSteps: seq<Step> := [Digits(3), OptSep, Digits(4)]

  /** Pattern 3 without its first three digits: `[-.\s]?\d{3}[-.\s]?\d{4}`. */
  const ExchangeLine: seq<Step> := [OptSep] + LineSteps

  /** Pattern 3, `\d{3}[-.\s]?\d{3}[-.\s]?\d{4}`. */
  const PlainSteps: seq<Step> := [Digits(3)] + ExchangeLine

  /** Pattern 2, `\(?\d{3}\)?[-.\s]?\d{3}[-.\s]?\d{4}`. */
  const ParenSteps: seq<Step> := [OptOpen, Digits(3), OptClose] + ExchangeLine

  lemma StepFacts()
    ensures MinLen(ExchangeLine) == 7 && EndsWithDigit(ExchangeLine)
    ensures MinLen(PlainSteps) == 10 && EndsWithDigit(PlainSteps)
    ensures MinLen(ParenSteps) == 10 && EndsWithDigit(ParenSteps)
  {
    assert MinLen(ExchangeLine) == 7;
    assert PlainSteps[1..] == ExchangeLine;
    assert ParenSteps[1..][1..][1..] == ExchangeLine;
    assert MinLen(ParenSteps[1..]) == 10;
  }

  /** Pattern 3. */
  function PlainPhone(t: string, i: nat): (r: Option<nat>)
    requires i <= |t|
    ensures r.Some? ==> i + 10 <= r.value <= |t| && PhoneChars(t, i, r.value)
    ensures r.Some? ==> IsDigit(t[i]) && IsDigit(t[r.value - 1])
  {
    StepFacts();
    Run(t, i, PlainSteps)
  }

  /** Pattern 2. */
  function ParenPhone(t: string, i: nat): (r: Option<nat>)
    requires i <= |t|
    ensures r.Some? ==> i + 10 <= r.value <= |t| && PhoneChars(t, i, r.value)
    ensures r.Some? ==> (IsDigit(t[i]) || t[i] == '(') && IsDigit(t[r.value - 1])
  {
    StepFacts();
    ParenStart(t, i);
    Run(t, i, ParenSteps)
  }

  /** A pattern-2 match starts with `(` or with its first digit. */
  lemma ParenStart(t: string, i: nat)
    requires i <= |t|
    ensures Run(t, i, ParenSteps).Some? ==> IsDigit(t[i]) || t[i] == '('
  {
    StepFacts();
    if Run(t, i, ParenSteps).Some? && t[i] != '(' {
      assert Run(t, i, ParenSteps) == Run(t, i, ParenSteps[1..]);
    }
  }

  /** `\d{n}[-.\s]?` followed by pattern 2. */
  function CountryDigits(t: string, j: nat, n: nat): (r: Option<nat>)
    requires j <= |t|
    ensures r.Some? ==> j + n + 10 <= r.value <= |t| && PhoneChars(t, j, r.value)
    ensures r.Some? ==> IsDigit(t[r.value - 1])
  {
    if DigitsAt(t, j, n) then
      var k := if SepAt(t, j + n) then j + n + 1 else j + n;
      var r := ParenPhone(t, k);
      if r.Some? then
        assert PhoneChars(t, j, k);
        r
      else r
    else None
  }

  /** `\d{1,3}[-.\s]?` followed by pattern 2: three digits, then two, then one. */
  function Country(t: string, j: nat): (r: Option<nat>)
    requires j <= |t|
    ensures r.Some? ==> j + 11 <= r.value <= |t| && PhoneChars(t, j, r.value)
    ensures r.Some? ==> IsDigit(t[j]) && IsDigit(t[r.value - 1])
  {
    var three := CountryDigits(t, j, 3);
    if three.Some? then three
    else
      var two := CountryDigits(t, j, 2);
      if two.Some? then two else CountryDigits(t, j, 1)
  }

  /** Pattern 1, `\+?\d{1,3}[-.\s]?\(?\d{3}\)?[-.\s]?\d{3}[-.\s]?\d{4}`. */
  function PrefixedPhone(t: string, i: nat): (r: Option<nat>)
    requires i <= |t|
    ensures r.Some? ==> i + 11 <= r.value <= |t| && PhoneChars(t, i, r.value)
    ensures r.Some? ==> (IsDigit(t[i]) || t[i] == '+') && IsDigit(t[r.value - 1])
  {
    var plus := i < |t| && t[i] == '+';
    var r := Country(t, if plus then i + 1 else i);
    if r.Some? && plus then
      assert IsPhoneChar(t[i]);
      r
    else r
  }

  /** The number that ends a labelled pattern: pattern 3 after "Support:"
      (`plain`), pattern 2 after "Call us:". */
  function LabelTail(t: string, j: nat, plain: bool): (r: Option<nat>)
    requires j <= |t|
    ensures r.Some? ==> j + 10 <= r.value <= |t| && PhoneChars(t, j, r.value)
  {
    if plain then PlainPhone(t, j) else ParenPhone(t, j)
  }

  /** Where the lazy `.*?` from `j` stops: the first position at which the
      number matches, never reaching past a newline (`.` does not match one). */
  function LazyStart(t: string, j: nat, plain: bool): (r: Option<nat>)
    requires j <= |t|
    ensures r.Some? ==> j <= r.value <= |t| && LabelTail(t, r.value, plain).Some?
    ensures r.Some? ==> forall k | j <= k < r.value :: t[k] != '\n'
    decreases |t| - j
  {
    if LabelTail(t, j, plain).Some? then Some(j)
    else if j < |t| && t[j] != '\n' then LazyStart(t, j + 1, plain)
    else None
  }

  /** `prefix.*?` followed by the number, at `i`. */
  function Labelled(t: string, i: nat, prefix: string, plain: bool): (r: Option<nat>)
    requires i <= |t|
    ensures r.Some? ==> i + |prefix| + 10 <= r.value <= |t| && FoldAt(t, i, prefix)
  {
    if FoldAt(t, i, prefix) then
      match LazyStart(t, i + |prefix|, plain)
      case Some(j) => LabelTail(t, j, plain)
      case None => None
    else None
  }

  /** Pattern 4. */
  function CallUsPhone(t: string, i: nat): (r: Option<nat>)
    requires i <= |t|
    ensures r.Some? ==> i + 18 <= r.value <= |t| && t[i + 7] == ':'
  {
    var r := Labelled(t, i, "call us:", false);
    if r.Some? then
      assert Lower(t[i + 7]) == "call us:"[7];
      r
    else r
  }

  /** Pattern 5. */
  function SupportPhone(t: string, i: nat): (r: Option<nat>)
    requires i <= |t|
    ensures r.Some? ==> i + 18 <= r.value <= |t| && t[i + 7] == ':'
  {
    var r := Labelled(t, i, "support:", true);
    if r.Some? then
      assert Lower(t[i + 7]) == "support:"[7];
      r
    else r
  }
}

=== FILE: phone_window.dfy ===
/** How the phone recognisers behave on a slice `t[lo..hi]` of a text: one
    that succeeds in `t` without reading past `hi` succeeds in the slice at
    the same place. This is what lets the search inside a labelled match
    find the number the label pattern ended with. */
module PhoneWindow {
  import opened Wrappers
  import opened Text
  import opened PhonePatterns

  /** A match `r` in `t` that ends by `hi` is the match `rw` in the slice
      starting at `lo`, shifted by `lo`. */
  predicate Windowed(r: Option<nat>, rw: Option<nat>, lo: nat, hi: nat) {
    r.Some? && lo <= r.value <= hi ==> rw == Some(r.value - lo)
  }

  lemma DigitsWindow(t: string, lo: nat, hi: nat, j: nat, n: nat)
    requires lo <= j <= hi <= |t| && j + n <= hi
    ensures DigitsAt(t[lo..hi], j - lo, n) <==> DigitsAt(t, j, n)
  {
    var w := t[lo..hi];
    assert forall k | j - lo <= k < j - lo + n :: w[k] == t[k + lo];
  }

  /** Steps matched in a slice agree with the same steps matched in the
      whole text. */
  lemma {:induction false} RunWindow(t: string, lo: nat, hi: nat, j: nat, steps: seq<Step>)
    requires lo <= j <= hi <= |t|
    ensures Windowed(Run(t, j, steps), Run(t[lo..hi], j - lo, steps), lo, hi)
    decreases |steps|
  {
    if steps != [] {
      var n := Next(t, j, steps[0]);
      NextWindow(t, lo, hi, j, steps[0]);
      if n.Some? && n.value <= hi {
        RunWindow(t, lo, hi, n.value, steps[1..]);
      }
    }
  }

  /** One step matched in a slice agrees with it matched in the whole text. */
  lemma NextWindow(t: string, lo: nat, hi: nat, j: nat, s: Step)
    requires lo <= j <= hi <= |t|
    ensures Windowed(Next(t, j, s), Next(t[lo..hi], j - lo, s), lo, hi)
  {
    var w := t[lo..hi];
    if s.Digits? {
      if j + s.n <= hi {
        DigitsWindow(t, lo, hi, j, s.n);
      }
    } else if j < hi {
      assert w[j - lo] == t[j];
      assert Takes(s, w, j - lo) == Takes(s, t, j);
    }
  }

  /** Pattern 2 on a slice agrees with pattern 2 on the whole text. */
  lemma ParenPhoneWindow(t: string, lo: nat, hi: nat, j: nat)
    requires lo <= j <= hi <= |t|
    ensures Windowed(ParenPhone(t, j), ParenPhone(t[lo..hi], j - lo), lo, hi)
  {
    RunWindow(t, lo, hi, j, ParenSteps);
  }

  /** Where pattern 3 matches, pattern 2 matches the same text: a digit is
      not `(`, and the character after three digits is not `)`. */
  lemma PlainIsParen(t: string, j: nat)
    requires j <= |t| && PlainPhone(t, j).Some?
    ensures ParenPhone(t, j) == PlainPhone(t, j)
  {
    var close := [OptClose] + ExchangeLine;
    var r := Run(t, j + 3, ExchangeLine);
    assert PlainSteps[1..] == ExchangeLine;
    assert DigitsAt(t, j, 3) && PlainPhone(t, j) == r;
    assert ParenSteps[1..] == [Digits(3)] + close;
    assert ([Digits(3)] + close)[1..] == close;
    assert Run(t, j, ParenSteps) == Run(t, j, ParenSteps[1..]);
    assert Run(t, j, ParenSteps[1..]) == Run(t, j + 3, close);
    assert !Takes(OptClose, t, j + 3) by {
      if !SepAt(t, j + 3) {
        assert ExchangeLine[1..] == LineSteps;
        assert r == Run(t, j + 3, LineSteps);
      }
    }
    assert close[1..] == ExchangeLine;
  }
}

=== FILE: phones.dfy ===
/** `extract_phone_numbers` (utils/parser.py:216-261): every match of the
    five phone patterns; a match holding a ':' (the labelled patterns) is
    cut down to the pattern-2 number found inside it, and dropped if there
    is none; the phone is stored stripped of surrounding whitespace. */
module Phones {
  import opened Wrappers
  import opened Text
  import opened PhonePatterns
  import opened PhoneWindow
  import opened Scan
  import opened Patterns
  import opened Entities
  import opened Lists

  /** `re.search(r'(\(?\d{3}\)?[-.\s]?\d{3}[-.\s]?\d{4})', s)`: the leftmost
      match of pattern 2. */
  function FindPhone(s: string): (r: Option<Span>)
    ensures r.Some? ==> InText(s, r.value) && ParenPhone(s, r.value.start) == Some(r.value.end)
    ensures r.Some? ==> forall q | 0 <= q < r.value.start :: ParenPhone(s, q).None?
    ensures r.None? <==> forall q | 0 <= q <= |s| :: ParenPhone(s, q).None?
  {
    PhoneMatcher(s);
    Search(PhoneParen(), s)
  }

  /** The recogniser `Search` runs is pattern 2 at every position. */
  lemma PhoneMatcher(s: string)
    ensures forall q | 0 <= q <= |s| :: PhoneParen()(s, q) == ParenPhone(s, q)
  {
  }

  /** The record for one phone match, or `None` where the `continue`
      drops it (and for a span that is not inside the text). */
  function PhoneOf(t: string, sp: Span): Option<PhoneEntry> {
    if !InText(t, sp) then None
    else
      var raw := Group(t, sp);
      if ':' in raw then
        match FindPhone(raw)
        case Some(n) => Some(PhoneEntry(Strip(Group(raw, n)), sp))
        case None => None
      else Some(PhoneEntry(Strip(raw), sp))
  }

  /** A span `extract_phone_numbers` loops over: a match of one phone pattern. */
  predicate PhoneMatch(t: string, sp: Span) {
    && InText(t, sp)
    && exists j | 0 <= j < |PhoneFamily()| :: PhoneFamily()[j](t, sp.start) == Some(sp.end)
  }

  /** `s[a..b]` is the first match of pattern 2 in `s`. */
  predicate FirstParenPhone(s: string, a: nat, b: nat) {
    && a <= |s| && ParenPhone(s, a) == Some(b)
    && forall q | 0 <= q < a :: ParenPhone(s, q).None?
  }

  /** What a phone record holds: the whole match when it has no ':',
      otherwise the first pattern-2 number inside it; either way a string
      of at least ten phone characters, with no ':', that starts with a
      digit, '+' or '(' and ends with a digit, so `strip` leaves it alone. */
  predicate GoodPhone(raw: string, phone: string) {
    && (':' !in raw ==> phone == raw)
    && (':' in raw ==> exists a, b | 0 <= a <= b <= |raw| :: FirstParenPhone(raw, a, b) && phone == raw[a..b])
    && PhoneText(phone) && ':' !in phone && Strip(phone) == phone
  }

  /** `extract_phone_numbers`: one record per phone match, in family order.
      No match is ever dropped: a labelled match always ends with a number
      that the inner search finds again. */
  function ExtractPhoneNumbers(t: string): (r: seq<PhoneEntry>)
    ensures |r| == |Scans(PhoneFamily(), t)|
    ensures forall k | 0 <= k < |r| ::
              && r[k].position == Scans(PhoneFamily(), t)[k]
              && GoodPhone(Group(t, r[k].position), r[k].phone)
  {
    var spans := Scans(PhoneFamily(), t);
    var f := (sp: Span) => PhoneOf(t, sp);
    EveryPhoneKept(t);
    FilterMapAll(f, spans);
    FilterMap(f, spans)
  }

  /** Every phone match yields a record for its own span. */
  lemma EveryPhoneKept(t: string)
    ensures forall k | 0 <= k < |Scans(PhoneFamily(), t)| ::
              var sp := Scans(PhoneFamily(), t)[k];
              && PhoneOf(t, sp).Some? && PhoneOf(t, sp).value.position == sp
              && GoodPhone(Group(t, sp), PhoneOf(t, sp).value.phone)
  {
    var spans := Scans(PhoneFamily(), t);
    ScansMatch(PhoneFamily(), t);
    forall k | 0 <= k < |spans|
      ensures && PhoneOf(t, spans[k]).Some? && PhoneOf(t, spans[k]).value.position == spans[k]
              && GoodPhone(Group(t, spans[k]), PhoneOf(t, spans[k]).value.phone)
    {
      PhoneOfShape(t, spans[k]);
    }
  }

  /** One phone match always gives a record for its span. */
  lemma PhoneOfShape(t: string, sp: Span)
    requires PhoneMatch(t, sp)
    ensures PhoneOf(t, sp).Some?
    ensures PhoneOf(t, sp).value.position == sp
    ensures GoodPhone(Group(t, sp), PhoneOf(t, sp).value.phone)
  {
    var lab := PhoneMatchKind(t, sp);
    if lab.None? {
      UnlabelledPhoneOf(t, sp);
    } else {
      LabelledPhoneOf(t, sp, lab.value);
    }
  }

  /** A match with no ':' is kept whole. */
  lemma UnlabelledPhoneOf(t: string, sp: Span)
    requires InText(t, sp) && PhoneText(Group(t, sp))
    ensures PhoneOf(t, sp) == Some(PhoneEntry(Group(t, sp), sp))
    ensures GoodPhone(Group(t, sp), Group(t, sp))
  {
    PhoneStringShape(Group(t, sp));
  }

  /** A labelled match gives the first pattern-2 number inside it, which
      exists because the match ends with one. */
  lemma LabelledPhoneOf(t: string, sp: Span, lo: nat)
    requires InText(t, sp)
    requires LabelledAt(t, sp, lo)
    ensures PhoneOf(t, sp).Some?
    ensures PhoneOf(t, sp).value.position == sp
    ensures GoodPhone(Group(t, sp), PhoneOf(t, sp).value.phone)
  {
    var raw := Group(t, sp);
    var i, e := sp.start, sp.end;
    assert ':' in raw by {
      assert raw[7] == t[i + 7];
    }
    ParenPhoneWindow(t, i, e, lo);
    assert ParenPhone(raw, lo - i) == Some(e - i);
    var n := FindPhone(raw).value;
    var g := Group(raw, n);
    assert FirstParenPhone(raw, n.start, n.end);
    ParenPhoneText(raw, n.start, n.end);
    PhoneStringShape(g);
  }

  /** A pattern-2 match, put as a string, is a phone string. */
  lemma ParenPhoneText(s: string, a: nat, b: nat)
    requires a <= |s| && ParenPhone(s, a) == Some(b)
    ensures PhoneText(s[a..b])
  {
    assert forall k | 0 <= k < b - a :: s[a..b][k] == s[a + k];
  }

  /** A labelled match over `sp`: its ':' sits at offset 7 and it ends
      with a pattern-2 match that starts at `lo`, after the label. */
  predicate LabelledAt(t: string, sp: Span, lo: nat)
    requires InText(t, sp)
  {
    sp.start + 8 <= lo <= sp.end && t[sp.start + 7] == ':' && ParenPhone(t, lo) == Some(sp.end)
  }

  /** The two kinds of phone match: one of patterns 1 to 3, which is a
      phone string, or a labelled one. */
  lemma PhoneMatchKind(t: string, sp: Span) returns (lab: Option<nat>)
    requires PhoneMatch(t, sp)
    ensures lab.None? ==> PhoneText(Group(t, sp))
    ensures lab.Some? ==> LabelledAt(t, sp, lab.value)
  {
    var j :| 0 <= j < |PhoneFamily()| && PhoneFamily()[j](t, sp.start) == Some(sp.end);
    if j < 3 {
      UnlabelledKind(t, sp, j);
      lab := None;
    } else {
      var lo := LabelledKind(t, sp, j);
      lab := Some(lo);
    }
  }

  lemma UnlabelledKind(t: string, sp: Span, j: nat)
    requires InText(t, sp) && j < 3 && PhoneFamily()[j](t, sp.start) == Some(sp.end)
    ensures PhoneText(Group(t, sp))
  {
    var i, e := sp.start, sp.end;
    if j == 0 {
      PrefixedAt(t, i);
      PrefixedText(t, i, e);
    } else if j == 1 {
      ParenAt(t, i);
      ParenText(t, i, e);
    } else {
      PlainAt(t, i);
      PlainText(t, i, e);
    }
  }

  lemma LabelledKind(t: string, sp: Span, j: nat) returns (lo: nat)
    requires InText(t, sp) && 3 <= j < 5 && PhoneFamily()[j](t, sp.start) == Some(sp.end)
    ensures LabelledAt(t, sp, lo)
  {
    var i, e := sp.start, sp.end;
    if j == 3 {
      CallUsAt(t, i);
      lo := LabelledShape(t, i, e, false);
    } else {
      SupportAt(t, i);
      lo := LabelledShape(t, i, e, true);
    }
  }

  /** A match of pattern 1, 2 or 3 is a phone string. */
  lemma PrefixedText(t: string, i: nat, e: nat)
    requires i <= |t| && PrefixedPhone(t, i) == Some(e)
    ensures PhoneText(t[i..e])
  {
    UnlabelledShape(t, i, e);
  }

  lemma ParenText(t: string, i: nat, e: nat)
    requires i <= |t| && ParenPhone(t, i) == Some(e)
    ensures PhoneText(t[i..e])
  {
    UnlabelledShape(t, i, e);
  }

  lemma PlainText(t: string, i: nat, e: nat)
    requires i <= |t| && PlainPhone(t, i) == Some(e)
    ensures PhoneText(t[i..e])
  {
    UnlabelledShape(t, i, e);
  }

  /** What each phone pattern of the family computes at `i`, one lemma
      per pattern so that a proof about one does not unfold the others. */
  lemma PrefixedAt(t: string, i: nat)
    requires i <= |t|
    ensures PhoneFamily()[0](t, i) == PrefixedPhone(t, i)
  {
  }

  lemma ParenAt(t: string, i: nat)
    requires i <= |t|
    ensures PhoneFamily()[1](t, i) == ParenPhone(t, i)
  {
  }

  lemma PlainAt(t: string, i: nat)
    requires i <= |t|
    ensures PhoneFamily()[2](t, i) == PlainPhone(t, i)
  {
  }

  lemma CallUsAt(t: string, i: nat)
    requires i <= |t|
    ensures PhoneFamily()[3](t, i) == CallUsPhone(t, i)
  {
  }

  lemma SupportAt(t: string, i: nat)
    requires i <= |t|
    ensures PhoneFamily()[4](t, i) == SupportPhone(t, i)
  {
  }

  /** A string of phone characters, at least ten of them, that starts with
      a digit, '+' or '(' and ends with a digit. */
  predicate PhoneText(s: string) {
    && |s| >= 10
    && (forall k | 0 <= k < |s| :: IsPhoneChar(s[k]))
    && (IsDigit(s[0]) || s[0] == '+' || s[0] == '(')
    && IsDigit(s[|s| - 1])
  }

  /** The facts patterns 1 to 3 guarantee about `t[i..e]`, put as a string. */
  lemma UnlabelledShape(t: string, i: nat, e: nat)
    requires i + 10 <= e <= |t| && PhoneChars(t, i, e)
    requires IsDigit(t[i]) || t[i] == '+' || t[i] == '('
    requires IsDigit(t[e - 1])
    ensures PhoneText(t[i..e])
  {
    assert forall k | 0 <= k < e - i :: t[i..e][k] == t[i + k];
  }

  /** A labelled match (pattern 4, or pattern 5 when `plain`) has its ':'
      at offset 7 and ends with a pattern-2 match starting at `lo`. */
  lemma LabelledShape(t: string, i: nat, e: nat, plain: bool) returns (lo: nat)
    requires i <= |t|
    requires (if plain then SupportPhone(t, i) else CallUsPhone(t, i)) == Some(e)
    ensures i + 8 <= lo <= e <= |t| && t[i + 7] == ':'
    ensures ParenPhone(t, lo) == Some(e)
  {
    var prefix := if plain then "support:" else "call us:";
    assert Labelled(t, i, prefix, plain) == Some(e);
    lo := LazyStart(t, i + |prefix|, plain).value;
    assert LabelTail(t, lo, plain) == Some(e);
    if plain {
      PlainIsParen(t, lo);
    }
  }

  /** A phone string has no ':' and nothing for `strip` to remove. */
  lemma PhoneStringShape(s: string)
    requires PhoneText(s)
    ensures ':' !in s && Strip(s) == s
  {
    assert !IsSpace(s[0]) && !IsSpace(s[|s| - 1]);
    StripUnchanged(s);
  }

  /** The labelled numbers of the phone test: "Call us: (123) 456-7890"
      keeps "(123) 456-7890", and "Support: 123-456-7891" keeps
      "123-456-7891". Every record `ExtractPhoneNumbers` makes for such a
      match satisfies `GoodPhone`, so these are the phones it stores. */
  lemma CallUsExample()
    ensures GoodPhone("Call us: (123) 456-7890", "(123) 456-7890")
    ensures forall phone | GoodPhone("Call us: (123) 456-7890", phone) :: phone == "(123) 456-7890"
  {
    var lead, num := "Call us: ", "(123) 456-7890";
    CallUsParts();
    CallUsNumber();
    LabelledGood(lead, num);
    forall phone | GoodPhone(lead + num, phone)
      ensures phone == num
    {
      LabelledExample(lead, num, phone);
    }
  }

  lemma SupportExample()
    ensures GoodPhone("Support: 123-456-7891", "123-456-7891")
    ensures forall phone | GoodPhone("Support: 123-456-7891", phone) :: phone == "123-456-7891"
  {
    var lead, num := "Support: ", "123-456-7891";
    SupportParts();
    SupportNumber();
    LabelledGood(lead, num);
    forall phone | GoodPhone(lead + num, phone)
      ensures phone == num
    {
      LabelledExample(lead, num, phone);
    }
  }

  /** A labelled match made of a label with no digit or `(` and then a
      whole pattern-2 number: that number is a record it may hold. */
  lemma LabelledGood(lead: string, num: string)
    requires ':' in lead
    requires ParenPhone(lead + num, |lead|) == Some(|lead + num|)
    requires forall q | 0 <= q < |lead| :: !IsDigit(lead[q]) && lead[q] != '('
    ensures GoodPhone(lead + num, num)
  {
    var t := lead + num;
    ColonKept(lead, num);
    AppendTail(lead, num);
    assert forall q | 0 <= q < |lead| :: t[q] == lead[q];
    assert FirstParenPhone(t, |lead|, |t|);
    ParenPhoneText(t, |lead|, |t|);
    PhoneStringShape(num);
  }

  /** A labelled match made of a label with no digit or `(` and then a
      whole pattern-2 number: its record holds that number. */
  lemma LabelledExample(lead: string, num: string, phone: string)
    requires GoodPhone(lead + num, phone) && ':' in lead
    requires ParenPhone(lead + num, |lead|) == Some(|lead + num|)
    requires forall q | 0 <= q < |lead| :: !IsDigit(lead[q]) && lead[q] != '('
    ensures phone == num
  {
    ColonKept(lead, num);
    var a, b := LabelledPhoneSlice(lead + num, phone);
    FirstAfterLead(lead, num, a, b);
    AppendTail(lead, num);
  }

  /** The phone of a labelled match is the slice of its first pattern-2 match. */
  lemma LabelledPhoneSlice(t: string, phone: string) returns (a: nat, b: nat)
    requires GoodPhone(t, phone) && ':' in t
    ensures a <= b <= |t| && FirstParenPhone(t, a, b) && phone == t[a..b]
  {
    a, b :| 0 <= a <= b <= |t| && FirstParenPhone(t, a, b) && phone == t[a..b];
  }

  lemma AppendTail(a: string, b: string)
    ensures (a + b)[|a|..|a + b|] == b
  {
  }

  lemma ColonKept(lead: string, num: string)
    requires ':' in lead
    ensures ':' in lead + num
  {
    var x :| 0 <= x < |lead| && lead[x] == ':';
    assert (lead + num)[x] == ':';
  }

  /** Behind a lead with no digit or `(`, the first pattern-2 match is the
      one right after the lead. */
  lemma FirstAfterLead(lead: string, num: string, a: nat, b: nat)
    requires ParenPhone(lead + num, |lead|) == Some(|lead + num|)
    requires forall q | 0 <= q < |lead| :: !IsDigit(lead[q]) && lead[q] != '('
    requires FirstParenPhone(lead + num, a, b)
    ensures a == |lead| && b == |lead + num|
  {
    var t := lead + num;
    assert forall q | 0 <= q < |lead| :: t[q] == lead[q];
  }

  lemma CallUsParts()
    ensures "Call us: (123) 456-7890" == "Call us: " + "(123) 456-7890"
    ensures ':' in "Call us: "
    ensures forall q | 0 <= q < |"Call us: "| :: !IsDigit("Call us: "[q]) && "Call us: "[q] != '('
  {
    assert "Call us: "[7] == ':';
  }

  lemma SupportParts()
    ensures "Support: 123-456-7891" == "Support: " + "123-456-7891"
    ensures ':' in "Support: "
    ensures forall q | 0 <= q < |"Support: "| :: !IsDigit("Support: "[q]) && "Support: "[q] != '('
  {
    assert "Support: "[7] == ':';
  }

  lemma CallUsNumber()
    ensures ParenPhone("Call us: (123) 456-7890", 9) == Some(23)
  {
    var t := "Call us: (123) 456-7890";
    assert t[9] == '(' && t[13] == ')' && t[14] == ' ' && t[18] == '-';
    assert DigitsAt(t, 10, 3) && DigitsAt(t, 15, 3) && DigitsAt(t, 19, 4);
    ParenShape(t, 9);
  }

  lemma SupportNumber()
    ensures ParenPhone("Support: 123-456-7891", 9) == Some(21)
  {
    var t := "Support: 123-456-7891";
    assert t[12] == '-' && t[16] == '-';
    assert DigitsAt(t, 9, 3) && DigitsAt(t, 13, 3) && DigitsAt(t, 17, 4);
    PlainShape(t, 9);
  }

  /** `(ddd) ddd-dddd` at `i` is a pattern-2 match of all fourteen characters. */
  lemma ParenShape(t: string, i: nat)
    requires i + 14 <= |t| && t[i] == '(' && t[i + 4] == ')'
    requires IsPhoneSep(t[i + 5]) && IsPhoneSep(t[i + 9])
    requires DigitsAt(t, i + 1, 3) && DigitsAt(t, i + 6, 3) && DigitsAt(t, i + 10, 4)
    ensures ParenPhone(t, i) == Some(i + 14)
  {
    var s := ParenSteps;
    ExchangeLineShape(t, i + 5);
    assert s == [OptOpen, Digits(3), OptClose] + ExchangeLine;
    assert Run(t, i + 4, s[2..]) == Some(i + 14) by { assert s[2..][1..] == ExchangeLine; }
    assert Run(t, i + 1, s[1..]) == Some(i + 14) by { assert s[1..][1..] == s[2..]; }
  }

  /** `ddd-ddd-dddd` at `i`, with no `)` after the first three digits, is a
      pattern-2 match of all twelve characters. */
  lemma PlainShape(t: string, i: nat)
    requires i + 12 <= |t| && t[i + 3] != ')'
    requires IsPhoneSep(t[i + 3]) && IsPhoneSep(t[i + 7])
    requires DigitsAt(t, i, 3) && DigitsAt(t, i + 4, 3) && DigitsAt(t, i + 8, 4)
    ensures ParenPhone(t, i) == Some(i + 12)
  {
    PlainRest(t, i);
    assert IsDigit(t[i]);
  }

  /** `ddd-ddd-dddd` at `i` matches pattern 2 after its optional `(`. */
  lemma PlainRest(t: string, i: nat)
    requires i + 12 <= |t| && t[i + 3] != ')'
    requires IsPhoneSep(t[i + 3]) && IsPhoneSep(t[i + 7])
    requires DigitsAt(t, i, 3) && DigitsAt(t, i + 4, 3) && DigitsAt(t, i + 8, 4)
    ensures Run(t, i, ParenSteps[1..]) == Some(i + 12)
  {
    var s := ParenSteps;
    ExchangeLineShape(t, i + 3);
    assert s == [OptOpen, Digits(3), OptClose] + ExchangeLine;
    assert Run(t, i + 3, s[2..]) == Some(i + 12) by {
      assert s[2..][1..] == ExchangeLine && s[2..][0] == OptClose;
      assert Next(t, i + 3, OptClose) == Some(i + 3);
    }
    assert s[1..][1..] == s[2..];
  }

  /** `-ddd-dddd`: a separator, three digits, a separator and four digits. */
  lemma ExchangeLineShape(t: string, j: nat)
    requires j + 9 <= |t| && IsPhoneSep(t[j]) && IsPhoneSep(t[j + 4])
    requires DigitsAt(t, j + 1, 3) && DigitsAt(t, j + 5, 4)
    ensures Run(t, j, ExchangeLine) == Some(j + 9)
  {
    var s := ExchangeLine;
    assert s == [OptSep, Digits(3), OptSep, Digits(4)];
    assert Run(t, j + 5, s[3..]) == Some(j + 9) by { assert s[3..][1..] == []; }
    assert Run(t, j + 4, s[2..]) == Some(j + 9) by { assert s[2..][1..] == s[3..]; }
    assert Run(t, j + 1, s[1..]) == Some(j + 9) by { assert s[1..][1..] == s[2..]; }
  }
}

=== FILE: scan.dfy ===
/** Python's `re.finditer` and `re.search` for a pattern given by its
    recogniser. `FindIter` scans left to right, takes the leftmost match and
    resumes where it ended, so matches never overlap. */
module Scan {
  import opened Wrappers

  /** A recogniser: where its pattern's first match in backtracking order
      ends when the matcher is started at a position, if it matches there. */
  type Matcher = (string, nat) -> Option<nat>

  /** A recogniser that only reports non-empty matches inside the text, as
      every pattern of the parser does. */
  ghost predicate Sound(m: Matcher) {
    forall t: string, i: nat :: m(t, i).Some? ==> i < m(t, i).value <= |t|
  }

  /** `match.span()`: the half-open range `[start, end)` of a match. */
  datatype Span = Span(start: nat, end: nat)

  /** The span lies inside `t` and is not empty. */
  predicate InText(t: string, s: Span) {
    s.start < s.end <= |t|
  }

  /** `match.group()`: the text a span covers. */
  function Group(t: string, s: Span): (g: string)
    requires InText(t, s)
    ensures |g| == s.end - s.start
  {
    t[s.start..s.end]
  }

  /** No match of `m` starts anywhere in `[a, b)`. */
  ghost predicate NoMatchIn(m: Matcher, t: string, a: nat, b: nat)
    requires b <= |t|
  {
    forall q | a <= q < b :: m(t, q).None?
  }

  /** The declarative reading of a left-to-right scan from `pos`: the first
      span is a match of `m` at the first position from `pos` on where `m`
      matches, the rest is the scan from where that match ends, and an empty
      list means `m` matches nowhere from `pos` on. */
  ghost predicate IsScan(m: Matcher, t: string, pos: nat, spans: seq<Span>)
    decreases |spans|
  {
    if spans == [] then pos <= |t| && NoMatchIn(m, t, pos, |t|)
    else
      && pos <= spans[0].start
      && InText(t, spans[0])
      && m(t, spans[0].start) == Some(spans[0].end)
      && NoMatchIn(m, t, pos, spans[0].start)
      && IsScan(m, t, spans[0].end, spans[1..])
  }

  /** `re.finditer` from position `pos`. */
  function FindIterFrom(m: Matcher, t: string, pos: nat): (spans: seq<Span>)
    requires Sound(m) && pos <= |t|
    ensures IsScan(m, t, pos, spans)
    decreases |t| - pos
  {
    if pos == |t| then []
    else
      match m(t, pos)
      case Some(e) =>
        var rest := FindIterFrom(m, t, e);
        ScanCons(m, t, pos, e, rest);
        [Span(pos, e)] + rest
      case None =>
        var rest := FindIterFrom(m, t, pos + 1);
        ScanSkip(m, t, pos, rest);
        rest
  }

  /** `re.finditer`: the spans of all matches, left to right. */
  function FindIter(m: Matcher, t: string): seq<Span>
    requires Sound(m)
  {
    FindIterFrom(m, t, 0)
  }

  /** A match found where the scan stands, followed by a scan from its end. */
  lemma ScanCons(m: Matcher, t: string, pos: nat, e: nat, rest: seq<Span>)
    requires pos < e <= |t| && m(t, pos) == Some(e)
    requires IsScan(m, t, e, rest)
    ensures IsScan(m, t, pos, [Span(pos, e)] + rest)
  {
    assert ([Span(pos, e)] + rest)[1..] == rest;
  }

  /** A scan that meets no match before `sp`, takes it and goes on with `rest`. */
  lemma ScanAfterGap(m: Matcher, t: string, pos: nat, sp: Span, rest: seq<Span>)
    requires pos <= sp.start && InText(t, sp) && m(t, sp.start) == Some(sp.end)
    requires NoMatchIn(m, t, pos, sp.start) && IsScan(m, t, sp.end, rest)
    ensures IsScan(m, t, pos, [sp] + rest)
  {
    assert ([sp] + rest)[1..] == rest;
  }

  /** No match where the scan stands, followed by a scan from the next
      position. */
  lemma ScanSkip(m: Matcher, t: string, pos: nat, rest: seq<Span>)
    requires pos < |t| && m(t, pos).None?
    requires IsScan(m, t, pos + 1, rest)
    ensures IsScan(m, t, pos, rest)
  {
  }

  /** The scan is the only list of spans the declarative reading allows. */
  lemma {:induction false} ScanUnique(m: Matcher, t: string, pos: nat, spans: seq<Span>)
    requires Sound(m) && pos <= |t|
    requires IsScan(m, t, pos, spans)
    ensures spans == FindIterFrom(m, t, pos)
    decreases |t| - pos
  {
    if spans == [] {
      if pos < |t| {
        assert m(t, pos).None?;
        ScanUnique(m, t, pos + 1, spans);
      }
    } else if spans[0].start == pos {
      ScanUnique(m, t, spans[0].end, spans[1..]);
      assert spans == [spans[0]] + spans[1..];
    } else {
      assert m(t, pos).None?;
      ScanUnique(m, t, pos + 1, spans);
    }
  }

  /** Matches come in left-to-right order and never overlap. */
  lemma {:induction false} ScanOrdered(m: Matcher, t: string, pos: nat, spans: seq<Span>)
    requires IsScan(m, t, pos, spans)
    ensures forall k | 0 <= k < |spans| :: pos <= spans[k].start && InText(t, spans[k])
    ensures forall j, k | 0 <= j < k < |spans| :: spans[j].end <= spans[k].start
    decreases |spans|
  {
    if spans != [] {
      var rest := spans[1..];
      ScanOrdered(m, t, spans[0].end, rest);
      forall k | 1 <= k < |spans|
        ensures spans[k] == rest[k - 1]
      {
      }
    }
  }

  /** `re.search` from position `pos`: the leftmost match. */
  function SearchFrom(m: Matcher, t: string, pos: nat): (r: Option<Span>)
    requires Sound(m) && pos <= |t|
    ensures r.Some? ==> pos <= r.value.start && InText(t, r.value)
    ensures r.Some? ==> m(t, r.value.start) == Some(r.value.end)
    ensures r.Some? ==> NoMatchIn(m, t, pos, r.value.start)
    ensures r.None? <==> NoMatchIn(m, t, pos, |t|)
    decreases |t| - pos
  {
    if pos == |t| then None
    else
      match m(t, pos)
      case Some(e) => Some(Span(pos, e))
      case None => SearchFrom(m, t, pos + 1)
  }

  /** `re.search`. */
  function Search(m: Matcher, t: string): Option<Span>
    requires Sound(m)
  {
    SearchFrom(m, t, 0)
  }

  /** `re.search` finds exactly the first match `re.finditer` reports. */
  lemma SearchIsFirstFound(m: Matcher, t: string)
    requires Sound(m)
    ensures Search(m, t) == if FindIter(m, t) == [] then None else Some(FindIter(m, t)[0])
  {
    SearchFromIsFirst(m, t, 0);
  }

  lemma {:induction false} SearchFromIsFirst(m: Matcher, t: string, pos: nat)
    requires Sound(m) && pos <= |t|
    ensures SearchFrom(m, t, pos) ==
              if FindIterFrom(m, t, pos) == [] then None else Some(FindIterFrom(m, t, pos)[0])
    decreases |t| - pos
  {
    if pos < |t| && m(t, pos).None? {
      SearchFromIsFirst(m, t, pos + 1);
    }
  }
}

=== FILE: text.dfy ===
/** Characters and strings as Python's `str` and `re` see them in the parser:
    the character classes `\d`, `\s`, `\w`, ASCII case folding for
    `re.IGNORECASE` and `str.lower`, and the `str` methods `strip`,
    `split('\n')`, `replace(c, '')` and the `in` substring test. */
module Text {

  /** `\d`: an ASCII decimal digit. */
  predicate IsDigit(c: char) {
    '0' <= c <= '9'
  }

  /** `\s` and the characters `str.strip()` removes: the code points for which
      Python's `str.isspace()` holds. */
  predicate IsSpace(c: char) {
    || '\t' <= c <= '\r'
    || '\U{1C}' <= c <= '\U{1F}'
    || c == ' '
    || c == '\U{85}'
    || c == '\U{A0}'
    || c == '\U{1680}'
    || '\U{2000}' <= c <= '\U{200A}'
    || c == '\U{2028}'
    || c == '\U{2029}'
    || c == '\U{202F}'
    || c == '\U{205F}'
    || c == '\U{3000}'
  }

  predicate IsUpper(c: char) {
    'A' <= c <= 'Z'
  }

  predicate IsLower(c: char) {
    'a' <= c <= 'z'
  }

  /** `[a-zA-Z]`, which is also what `[a-z]` matches under `re.IGNORECASE`. */
  predicate IsLetter(c: char) {
    IsUpper(c) || IsLower(c)
  }

  /** `\w`: a letter, a digit or an underscore. */
  predicate IsWordChar(c: char) {
    IsLetter(c) || IsDigit(c) || c == '_'
  }

  /** ASCII lower-casing. */
  function Lower(c: char): (r: char)
    ensures IsUpper(c) ==> IsLower(r) && r as int == c as int + 32
    ensures !IsUpper(c) ==> r == c
  {
    if IsUpper(c) then (c as int + 32) as char else c
  }

  /** `str.lower()` on ASCII text. */
  function LowerString(s: string): (r: string)
    ensures |r| == |s|
    ensures forall k | 0 <= k < |s| :: r[k] == Lower(s[k])
  {
    seq(|s|, k requires 0 <= k < |s| => Lower(s[k]))
  }

  /** The lower-case literal `w` occurs at position `i` of `t` when case is
      ignored, as `re.IGNORECASE` compares a literal of the pattern. */
  predicate FoldAt(t: string, i: nat, w: string) {
    i + |w| <= |t| && forall k | 0 <= k < |w| :: Lower(t[i + k]) == w[k]
  }

  /** The literal `w` occurs exactly at position `i` of `t`. */
  predicate LiteralAt(t: string, i: nat, w: string) {
    i + |w| <= |t| && t[i..i + |w|] == w
  }

  /** `\d{n}` at position `i`. */
  predicate DigitsAt(t: string, i: nat, n: nat) {
    i + n <= |t| && forall k | i <= k < i + n :: IsDigit(t[k])
  }

  /** A digit run inside a piece `x` of the text is a digit run of the text. */
  lemma DigitsIn(t: string, i: nat, x: string, lo: nat, n: nat)
    requires i + |x| <= |t| && t[i..i + |x|] == x && DigitsAt(x, lo, n)
    ensures DigitsAt(t, i + lo, n)
  {
    assert forall k | i + lo <= k < i + lo + n :: t[k] == x[k - i];
  }

  /** The end of the longest run of digits starting at `i`: where a greedy
      `\d+` or `\d*` stops. */
  function DigitRunEnd(t: string, i: nat): (e: nat)
    requires i <= |t|
    ensures i <= e <= |t|
    ensures forall k | i <= k < e :: IsDigit(t[k])
    ensures e == |t| || !IsDigit(t[e])
    decreases |t| - i
  {
    if i < |t| && IsDigit(t[i]) then DigitRunEnd(t, i + 1) else i
  }

  /** The end of the longest run of letters starting at `i` (greedy `[a-z]*`
      under `re.IGNORECASE`). */
  function LetterRunEnd(t: string, i: nat): (e: nat)
    requires i <= |t|
    ensures i <= e <= |t|
    ensures forall k | i <= k < e :: IsLetter(t[k])
    ensures e == |t| || !IsLetter(t[e])
    decreases |t| - i
  {
    if i < |t| && IsLetter(t[i]) then LetterRunEnd(t, i + 1) else i
  }

  /** The end of the longest run of characters of a class starting at `i`:
      where a greedy `[...]*` over that class stops. */
  function RunEnd(t: string, i: nat, inClass: char -> bool): (e: nat)
    requires i <= |t|
    ensures i <= e <= |t|
    ensures forall k | i <= k < e :: inClass(t[k])
    ensures e == |t| || !inClass(t[e])
    decreases |t| - i
  {
    if i < |t| && inClass(t[i]) then RunEnd(t, i + 1, inClass) else i
  }

  /** Python's `w in s` for strings: `w` occurs somewhere in `s`. */
  predicate Contains(s: string, w: string) {
    exists k | 0 <= k <= |s| - |w| :: LiteralAt(s, k, w)
  }

  /** Where `str.lstrip()` cuts: the length of the leading whitespace. */
  function StripStart(s: string): (a: nat)
    ensures a <= |s|
    ensures forall k | 0 <= k < a :: IsSpace(s[k])
    ensures a == |s| || !IsSpace(s[a])
  {
    if s != [] && IsSpace(s[0]) then 1 + StripStart(s[1..]) else 0
  }

  /** Where `str.rstrip()` cuts: the length left once the trailing
      whitespace is dropped. */
  function StripEnd(s: string): (b: nat)
    ensures b <= |s|
    ensures forall k | b <= k < |s| :: IsSpace(s[k])
    ensures b == 0 || !IsSpace(s[b - 1])
  {
    if s != [] && IsSpace(s[|s| - 1]) then StripEnd(s[..|s| - 1]) else |s|
  }

  /** `str.strip()`: the slice of `s` left once the whitespace at both ends is
      dropped; nothing is left when `s` is all whitespace. */
  function Strip(s: string): (r: string)
    ensures |r| <= |s|
    ensures r == [] || (!IsSpace(r[0]) && !IsSpace(r[|r| - 1]))
    ensures r == [] <==> forall k | 0 <= k < |s| :: IsSpace(s[k])
    ensures exists a, b | 0 <= a <= b <= |s| ::
              && r == s[a..b]
              && (forall k | 0 <= k < a :: IsSpace(s[k]))
              && (forall k | b <= k < |s| :: IsSpace(s[k]))
  {
    var a := StripStart(s);
    if a == |s| then
      assert [] == s[a..a];
      []
    else
      var b := StripEnd(s);
      assert a < b;
      s[a..b]
  }

  /** Stripping leaves a string alone exactly when it neither starts nor ends
      with whitespace. */
  lemma StripUnchanged(s: string)
    ensures Strip(s) == s <==> (s == [] || (!IsSpace(s[0]) && !IsSpace(s[|s| - 1])))
  {
  }

  /** `s.replace(c, '')`: `s` with every `c` removed, the rest in order. */
  function RemoveAll(s: string, c: char): (r: string)
    ensures c !in r
    ensures forall x :: x in r <==> x in s && x != c
    ensures |r| <= |s|
  {
    if s == [] then []
    else if s[0] == c then RemoveAll(s[1..], c)
    else [s[0]] + RemoveAll(s[1..], c)
  }

  /** Removing from a concatenation removes from each part, the parts kept
      in order. */
  lemma {:induction false} RemoveAllAppend(a: string, b: string, c: char)
    ensures RemoveAll(a + b, c) == RemoveAll(a, c) + RemoveAll(b, c)
    decreases |a|
  {
    if a == [] {
      assert a + b == b;
    } else {
      assert (a + b)[1..] == a[1..] + b;
      RemoveAllAppend(a[1..], b, c);
    }
  }

  /** A first character other than `c` stays first. */
  lemma RemoveAllHead(s: string, c: char)
    requires s != [] && s[0] != c
    ensures RemoveAll(s, c) == [s[0]] + RemoveAll(s[1..], c)
  {
  }

  /** One character is dropped when it is `c` and kept otherwise; with
      `RemoveAllAppend` this fixes `RemoveAll` on every string. */
  lemma RemoveAllSingle(x: char, c: char)
    ensures RemoveAll([x], c) == if x == c then [] else [x]
  {
    assert [x][1..] == [];
  }

  /** `str.split(sep)` with a one-character separator: the pieces between
      separators, including the empty ones at the ends. */
  function Split(s: string, sep: char): (parts: seq<string>)
    ensures |parts| >= 1
    ensures forall k | 0 <= k < |parts| :: sep !in parts[k]
  {
    if s == [] then [[]]
    else
      var rest := Split(s[1..], sep);
      if s[0] == sep then [[]] + rest
      else [[s[0]] + rest[0]] + rest[1..]
  }

  /** `sep.join(parts)`. */
  function Join(parts: seq<string>, sep: char): string
    requires |parts| >= 1
  {
    if |parts| == 1 then parts[0]
    else parts[0] + [sep] + Join(parts[1..], sep)
  }

  /** Joining the pieces of a split gives the string back. */
  lemma {:induction false} JoinSplit(s: string, sep: char)
    ensures Join(Split(s, sep), sep) == s
  {
    if s != [] {
      JoinSplit(s[1..], sep);
      var rest := Split(s[1..], sep);
      if s[0] != sep && |rest| > 1 {
        assert Join(rest, sep) == rest[0] + [sep] + Join(rest[1..], sep);
      }
    }
  }

  /** Splitting a join of separator-free pieces gives the pieces back, so
      `Split` is the one decomposition of a string into such pieces. */
  lemma {:induction false} SplitJoin(parts: seq<string>, sep: char)
    requires |parts| >= 1
    requires forall k | 0 <= k < |parts| :: sep !in parts[k]
    ensures Split(Join(parts, sep), sep) == parts
    decreases |parts|, |parts[0]|
  {
    if |parts| == 1 {
      SplitPiece(parts[0], sep);
    } else if parts[0] == [] {
      var tail := Join(parts[1..], sep);
      assert Join(parts, sep) == [sep] + tail;
      SplitJoin(parts[1..], sep);
      assert ([sep] + tail)[1..] == tail;
      assert parts == [[]] + parts[1..];
    } else {
      var shorter := [parts[0][1..]] + parts[1..];
      assert forall k | 0 <= k < |shorter| :: sep !in shorter[k] by {
        forall k | 0 <= k < |shorter| ensures sep !in shorter[k] {
          if k == 0 {
            assert forall x | x in parts[0][1..] :: x in parts[0];
          } else {
            assert shorter[k] == parts[k];
          }
        }
      }
      SplitJoin(shorter, sep);
      JoinCons(parts, shorter, sep);
      var whole := Join(parts, sep);
      assert whole[1..] == Join(shorter, sep);
      assert whole[0] == parts[0][0] && whole[0] != sep;
      assert Split(whole[1..], sep) == shorter;
      assert [whole[0]] + shorter[0] == parts[0];
      assert [[whole[0]] + shorter[0]] + shorter[1..] == parts;
    }
  }

  /** A separator-free string splits into itself. */
  lemma {:induction false} SplitPiece(s: string, sep: char)
    requires sep !in s
    ensures Split(s, sep) == [s]
  {
    if s != [] {
      assert sep !in s[1..] by {
        assert forall x | x in s[1..] :: x in s;
      }
      SplitPiece(s[1..], sep);
      assert s[0] != sep;
      assert [s[0]] + s[1..] == s;
    }
  }

  /** A separator-free first piece is split off whole, and the rest is
      split on its own. */
  lemma {:induction false} SplitCons(a: string, b: string, sep: char)
    requires sep !in a
    ensures Split(a + [sep] + b, sep) == [a] + Split(b, sep)
    decreases |a|
  {
    var s := a + [sep] + b;
    if a == [] {
      assert s == [sep] + b && s[1..] == b;
    } else {
      assert sep !in a[1..] by {
        assert forall x | x in a[1..] :: x in a;
      }
      assert s[1..] == a[1..] + [sep] + b;
      SplitCons(a[1..], b, sep);
      assert s[0] == a[0] && a[0] != sep;
      assert [a[0]] + a[1..] == a;
    }
  }

  lemma JoinCons(parts: seq<string>, shorter: seq<string>, sep: char)
    requires |parts| >= 2 && parts[0] != []
    requires shorter == [parts[0][1..]] + parts[1..]
    ensures Join(parts, sep) == [parts[0][0]] + Join(shorter, sep)
  {
    assert shorter[1..] == parts[1..];
    assert parts[0] == [parts[0][0]] + parts[0][1..];
  }

  /** Where each of four pieces sits in their concatenation. */
  lemma FourPieces(a: string, x: string, b: string, y: string)
    ensures var t := a + x + b + y;
            var i1 := |a|;
            var i2 := i1 + |x|;
            var i3 := i2 + |b|;
            && |t| == i3 + |y|
            && t[0..i1] == a && t[i1..i2] == x && t[i2..i3] == b && t[i3..|t|] == y
  {
  }

  /** Where each of six pieces sits in their concatenation. */
  lemma SixPieces(a: string, x: string, b: string, y: string, c: string, z: string)
    ensures var t := a + x + b + y + c + z;
            var i1 := |a|;
            var i2 := i1 + |x|;
            var i3 := i2 + |b|;
            var i4 := i3 + |y|;
            var i5 := i4 + |c|;
            && |t| == i5 + |z|
            && t[0..i1] == a && t[i1..i2] == x && t[i2..i3] == b
            && t[i3..i4] == y && t[i4..i5] == c && t[i5..|t|] == z
  {
    var u := a + x + b + y;
    var i1, i2, i3, i4 := |a|, |a| + |x|, |a| + |x| + |b|, |u|;
    FourPieces(a, x, b, y);
    FourPieces(u, c, z, []);
    assert u + c + z + [] == a + x + b + y + c + z;
    SliceOfPrefix(u, c + z, 0, i1);
    SliceOfPrefix(u, c + z, i1, i2);
    SliceOfPrefix(u, c + z, i2, i3);
    SliceOfPrefix(u, c + z, i3, i4);
    assert u + c + z == u + (c + z);
  }

  /** A slice that ends inside the first of two sequences. */
  lemma SliceOfPrefix(u: string, v: string, i: nat, j: nat)
    requires i <= j <= |u|
    ensures (u + v)[i..j] == u[i..j]
  {
  }
}

=== FILE: upload.dfy ===
/** `allowed_file` and `ALLOWED_EXTENSIONS` (app.py:28, 43-45): the test an
    uploaded file name must pass before the document is processed. */
module Upload {
  import opened Wrappers
  import opened Text

  /** `ALLOWED_EXTENSIONS`: the image formats and PDF the OCR step reads. */
  const AllowedExtensions: set<string> :=
    {"png", "jpg", "jpeg", "gif", "bmp", "tiff", "tif", "pdf"}

  /** Where `rsplit('.', 1)` cuts: the position of the last dot, if any. */
  function LastDot(s: string): (r: Option<nat>)
    ensures r.Some? ==> r.value < |s| && s[r.value] == '.'
    ensures r.Some? ==> forall k | r.value < k < |s| :: s[k] != '.'
    ensures r.None? <==> forall k | 0 <= k < |s| :: s[k] != '.'
  {
    if s == [] then None
    else if s[|s| - 1] == '.' then Some(|s| - 1)
    else LastDot(s[..|s| - 1])
  }

  /** `s` has a dot at `k` and none after it. */
  predicate LastDotAt(s: string, k: nat) {
    k < |s| && s[k] == '.' && forall j | k < j < |s| :: s[j] != '.'
  }

  /** `allowed_file(filename)`: the name has a dot, and the text after its
      last dot, lower-cased, is one of the allowed extensions. */
  function AllowedFile(name: string): (b: bool)
    ensures b <==> exists k | 0 <= k < |name| :: AllowedAfter(name, k)
  {
    match LastDot(name)
    case None => false
    case Some(d) =>
      LastDotIsUnique(name);
      assert AllowedAfter(name, d) == AllowedExtension(name[d + 1..]);
      AllowedExtension(name[d + 1..])
  }

  /** The last dot of `name` is at `k` and the extension after it is
      allowed. */
  predicate AllowedAfter(name: string, k: nat) {
    LastDotAt(name, k) && AllowedExtension(name[k + 1..])
  }

  /** `ext.lower() in ALLOWED_EXTENSIONS`. */
  predicate AllowedExtension(ext: string) {
    LowerString(ext) in AllowedExtensions
  }

  /** Only the last extension counts: whatever comes before it, a name
      ending in `.` and a dot-free `ext` is accepted exactly when `ext` is. */
  lemma LastExtensionDecides(base: string, ext: string)
    requires forall k | 0 <= k < |ext| :: ext[k] != '.'
    ensures AllowedFile(base + "." + ext) <==> AllowedExtension(ext)
  {
    var name := base + "." + ext;
    assert LastDotAt(name, |base|);
    assert name[|base| + 1..] == ext;
  }

  /** A name without a dot is never accepted. */
  lemma NoDotRejected(name: string)
    requires forall k | 0 <= k < |name| :: name[k] != '.'
    ensures !AllowedFile(name)
  {
  }

  /** A name whose last character is a dot has an empty extension, which
      is not allowed. */
  lemma TrailingDotRejected(name: string)
    requires name != [] && name[|name| - 1] == '.'
    ensures !AllowedFile(name)
  {
    assert LastDot(name) == Some(|name| - 1);
    assert !AllowedExtension(name[|name|..]);
  }

  /** Case does not matter: a name is accepted exactly when its lower-cased
      form is. */
  lemma CaseIgnored(name: string)
    ensures AllowedFile(name) == AllowedFile(LowerString(name))
  {
    var low := LowerString(name);
    forall k | 0 <= k < |name|
      ensures AllowedAfter(name, k) == AllowedAfter(low, k)
    {
      AfterLowered(name, k);
    }
    assert |low| == |name|;
  }

  /** Lower-casing neither moves the last dot nor changes whether the
      extension after it is allowed. */
  lemma AfterLowered(name: string, k: nat)
    requires k < |name|
    ensures AllowedAfter(name, k) == AllowedAfter(LowerString(name), k)
  {
    var low := LowerString(name);
    assert forall j | 0 <= j < |name| :: name[j] == '.' <==> low[j] == '.';
    assert LastDotAt(name, k) == LastDotAt(low, k);
    assert low[k + 1..] == LowerString(name[k + 1..]);
    LowerTwice(name[k + 1..]);
  }

  /** `LastDot` finds the one position holding the last dot. */
  lemma LastDotIsUnique(s: string)
    ensures forall k | 0 <= k < |s| :: LastDotAt(s, k) <==> LastDot(s) == Some(k)
  {
  }

  /** Lower-casing twice changes nothing more. */
  lemma LowerTwice(s: string)
    ensures LowerString(LowerString(s)) == LowerString(s)
  {
  }

  /** The double extension `.pdf.exe` is judged by `exe` alone. */
  lemma DoubleExtensionRejected()
    ensures !AllowedFile("invoice.pdf.exe")
  {
    LastExtensionDecides("invoice.pdf", "exe");
    assert "invoice.pdf.exe" == "invoice.pdf" + "." + "exe";
    assert LowerString("exe") == "exe";
    assert forall e | e in AllowedExtensions :: e != [] && e[0] != 'e';
  }

  /** A dot inside the base name does not matter. */
  lemma InnerDotAccepted()
    ensures AllowedFile("scan.b.png")
  {
    LastExtensionDecides("scan.b", "png");
    assert "scan.b.png" == "scan.b" + "." + "png";
    assert LowerString("png") == "png";
  }

  /** An upper-case name is accepted as its lower-case form is. */
  lemma UpperCaseAccepted()
    ensures AllowedFile("SCAN.PDF")
  {
    CaseIgnored("SCAN.PDF");
    assert LowerString("SCAN.PDF") == "scan.pdf";
    LastExtensionDecides("scan", "pdf");
    assert "scan.pdf" == "scan" + "." + "pdf";
    assert LowerString("pdf") == "pdf";
  }
}

=== FILE: wrappers.dfy ===
/** Optional values, used for "no match" results and for Python's `None`. */
module Wrappers {

  datatype Option<+T> = None | Some(value: T) {

    /** The value held, or `default` when there is none. */
    function GetOr(default: T): T {
      match this
      case Some(v) => v
      case None => default
    }
  }

  /** The first of two alternatives that succeeds: how a backtracking matcher
      tries the branches of an alternation or a greedy optional element. */
  function Or<T>(first: Option<T>, second: Option<T>): Option<T>
  {
    if first.Some? then first else second
  }
}
